=== FILE: README.md ===
# GU-DESPACHO dispatch rules in Dafny

GU-DESPACHO is a warehouse dispatch application. Operators pack scanned
equipment into boxes ("cajas"). Boxes go onto pallets ("tarimas"). A pallet
is shipped by stamping it and its boxes with a dispatch record and an SAP
exit id. Administrators maintain the brand/model catalogue, the SAP
reference data and the user roles.

This project models the rules of that application as pure functions over
an abstract store: maps from ids to boxes, pallets, dispatches, users,
brands, models and equipment, plus the SAP reference list. Every server
action is a function `State -> Step<T>`, which pairs the reply (`Ok` or
`Err(message)`) with the new store. The error messages are the source's
own strings. The UI helpers are pure functions on sequences and strings:

- the series-field editor;
- box selection and scan-to-select;
- the search dedupe;
- pagination;
- URL filter parameters;
- the report row shaping;
- the per-box pallet summary.

Two JavaScript library objects are modelled once each:

- `JsMap` is an insertion-ordered `Map`, as an association list.
- `SearchParams` is `URLSearchParams`, as a list of pairs.

`Strings` covers `trim`, `split`, `join`, ASCII `toLowerCase` and
JavaScript truthiness of optional strings. `Decimal` covers decimal
rendering and `padStart`.

Storage, clocks and randomness are parameters:

- A database-assigned key is a `newId` argument, required to be fresh.
- A checked write takes `dbError: Option<string>`. `Some(m)` means the write
  failed with `m` and changed nothing.
- A query result is given as a value, such as a `Fetch`, a `Listing` or a
  `PalletView`.
- A date is an already formatted string.

Modules follow the source files:

| module | source file |
|---|---|
| `Store` | the database tables |
| `Rbac` | `src/hooks/use-rbac.ts` |
| `PalletActions` | `src/app/dashboard/shipments/pallet-actions.ts` |
| `BoxActions` | `src/app/dashboard/dispatch/actions.ts` |
| `SharedActions` | `src/app/dashboard/actions-shared.ts` |
| `UserActions` | `src/app/dashboard/users/actions.ts` |
| `CatalogActions` | `src/app/dashboard/config/actions.ts` |
| `SapActions` | `src/app/dashboard/config/sap-actions.ts` |
| `ModelEditor` | `src/app/dashboard/config/model-manager.tsx` |
| `BoxSelection` | `src/app/dashboard/dispatch/active-boxes-list.tsx` |
| `SearchActions` | `src/app/dashboard/search/actions.ts` |
| `DispatchHistory` | `src/app/dashboard/dispatch/history/actions.ts` and its page |
| `Pagination` | `src/components/ui/pagination.tsx` |
| `ReportFilters` | `src/app/dashboard/report/report-filters.tsx` |
| `GlobalReport` | `src/app/dashboard/report/global-report-dialog.tsx` |
| `ReportExport` | `src/app/dashboard/report/download-button.tsx` |
| `PalletSummary` | `src/app/dashboard/shipments/pallet-download-button.tsx` |
| `ReportRows` | the row helpers shared by the two report actions |

## Model

| member | source | states |
|---|---|---|
| PalletActions.GeneratePalletName | src/app/dashboard/shipments/pallet-actions.ts:53-59 | The generated name is `TARIMA-` followed by decimal digits whose value is count+1. Below 1000 it is exactly three digits, zero-padded. From 1000 on it is the plain number, never truncated. |
| PalletActions.GeneratedNamesDistinct | src/app/dashboard/shipments/pallet-actions.ts:53-59 | Different pallet counts give different generated names. |
| PalletActions.ChosenPalletName | src/app/dashboard/shipments/pallet-actions.ts:40 | The trimmed name is used when it is non-empty; otherwise the generated name is used. Either way the result is non-empty and trimmed. |
| PalletActions.GeneratedNameTrimmed | src/app/dashboard/shipments/pallet-actions.ts:57-58 | A generated name has no surrounding whitespace. |
| PalletActions.CreatePallet | src/app/dashboard/shipments/pallet-actions.ts:34-51 | No caller gives `No autenticado`. A storage error is returned and nothing changes. Otherwise exactly one pallet is added: it has the chosen name, the caller as creator, no dispatch, and its key is returned. The generated name uses the count query's result, and a failed count reads as 0. |
| PalletActions.AddBoxToPallet | src/app/dashboard/shipments/pallet-actions.ts:63-85 | Refuses a missing box, a dispatched box, and a box on another pallet, each with its own message and no change. A failed box query is refused as a missing box. It succeeds exactly when none of these holds and the write succeeds. Then only that box's pallet changes. |
| PalletActions.ReattachIsIdentity | src/app/dashboard/shipments/pallet-actions.ts:73-80 | Adding a box to the pallet it is already on succeeds and changes nothing. |
| PalletActions.RemoveBoxFromPallet | src/app/dashboard/shipments/pallet-actions.ts:87-97 | Clears the box's pallet even when the box is dispatched. Nothing else changes. |
| PalletActions.DetachThenAttach | src/app/dashboard/shipments/pallet-actions.ts:87-97 | Detaching an undispatched box and attaching it to the same pallet restores the store. |
| PalletActions.DeletePallet | src/app/dashboard/shipments/pallet-actions.ts:99-108 | The detach result is discarded. When the detach succeeds, no box references the pallet afterwards, whether or not the delete succeeds. When it fails, every box stays as it was. Boxes of other pallets are never touched. The pallet is removed exactly when the delete succeeds, and its error is returned. |
| PalletActions.CreateThenDeletePallet | src/app/dashboard/shipments/pallet-actions.ts:34-108 | Creating a pallet and then deleting it restores the store, provided no box already pointed at the new key. |
| PalletActions.DispatchOne | src/app/dashboard/shipments/pallet-actions.ts:125-173 | A pallet with no undispatched box yields `Tarima sin cajas` and changes nothing. A failed dispatch insert changes nothing. Otherwise the pallet is dispatched with the inserted dispatch id. |
| PalletActions.StampPallet | src/app/dashboard/shipments/pallet-actions.ts:157-171 | Every undispatched box of the pallet gets the dispatch id and the status `dispatched`. Other boxes are unchanged and the pallet has no pending box left. The pallet records the dispatch id, the SAP id and the date. One dispatch record is added. |
| PalletActions.DispatchOneGrows | src/app/dashboard/shipments/pallet-actions.ts:125-173 | One pallet's dispatch keeps every box and pallet key. It never alters an already dispatched box or an existing dispatch record. |
| PalletActions.DispatchEach | src/app/dashboard/shipments/pallet-actions.ts:122-177 | There is one result per requested pallet, in request order. Across the whole loop, already dispatched boxes and existing dispatches are preserved. |
| PalletActions.DispatchEachSettles | src/app/dashboard/shipments/pallet-actions.ts:122-177 | At the end of the loop, every pallet reported dispatched is settled. Its dispatch row names it and the SAP id, no box of it is pending, and its row carries the dispatch id and SAP id. |
| PalletActions.DispatchOneKeepsSettled | src/app/dashboard/shipments/pallet-actions.ts:125-173 | A later iteration, for the same or another pallet, never undoes an earlier pallet's dispatch. |
| PalletActions.DispatchEachKeepsSettled | src/app/dashboard/shipments/pallet-actions.ts:122-177 | The rest of the loop never undoes an earlier pallet's dispatch. |
| PalletActions.DispatchPallets | src/app/dashboard/shipments/pallet-actions.ts:112-178 | No caller, or a blank or whitespace-only SAP exit id, is refused before any write. Otherwise the reply lists one result per pallet id, in order. No box is added or removed, and no previously dispatched box changes. Each pallet reported dispatched ends with a dispatch row carrying its id and the trimmed SAP id. None of its boxes is left pending, and the pallet row carries that dispatch id and SAP id. |
| PalletActions.SecondDispatchOfSamePalletFails | src/app/dashboard/shipments/pallet-actions.ts:127-136 | A pallet named twice in one request fails the second time with `Tarima sin cajas`. |
| PalletActions.PalletRowOf | src/app/dashboard/shipments/pallet-actions.ts:215-238 | A report row carries the pallet name and the box number unchanged. Each cell with a fallback shows the present non-empty value and otherwise its fallback: `PENDIENTE` for the SAP id, `-` for brand, model, material, additional series and the scanning user (name, else e-mail), and `NO DESPACHADO` for the date. So none of these cells is empty. The SAP state is `VALIDADO` exactly for validated units, and `MANUAL` otherwise. |
| PalletActions.GetPalletReportData | src/app/dashboard/shipments/pallet-actions.ts:182-241 | An unreadable pallet gives no report. Otherwise there is one row per scanned unit of its boxes. Each row names the pallet, and each cell with a fallback is filled. The pallet and box cells are passed through and may be empty. |
| PalletActions.PalletReportRowAt | src/app/dashboard/shipments/pallet-actions.ts:215-238 | The row at position (units of earlier boxes) + k is the row that unit k of box j makes: units are listed box by box, in order. |
| BoxActions.CreateBox | src/app/dashboard/dispatch/actions.ts:8-33 | No caller creates nothing. On success exactly one box is added: number `BOX-PENDING`, status open, the given model and quantity, and the caller as creator. |
| BoxActions.DuplicateBox | src/app/dashboard/dispatch/actions.ts:45-78 | A missing original gives `Original box not found`. Otherwise a new open box copies only the original's model and quantity. |
| BoxActions.DuplicateIsCreate | src/app/dashboard/dispatch/actions.ts:58-73 | Duplicating is exactly creating a box with the original's model and quantity. |
| BoxActions.UpdateBoxQuantity | src/app/dashboard/dispatch/actions.ts:80-99 | The guard compares against the count query's result, and a failed count reads as 0. With a successful count, a quantity strictly below the scanned units is refused with the source's message, while an equal quantity is accepted. On success only that box's quantity changes. |
| BoxActions.QuantityUpdateKeepsCover | src/app/dashboard/dispatch/actions.ts:84-94 | If every box can hold its scanned units and the count query succeeds, that still holds after any quantity update. |
| BoxActions.FailedCountSkipsGuard | src/app/dashboard/dispatch/actions.ts:84-94 | When the count query fails, a quantity below the scanned units is accepted, leaving a box that cannot hold its units. |
| BoxActions.OpenBoxes | src/app/dashboard/dispatch/actions.ts:101-110 | The listing holds exactly the boxes whose status is open. |
| BoxActions.CreatedBoxIsOpen | src/app/dashboard/dispatch/actions.ts:16-26 | A created box joins the open listing and nothing else does. |
| BoxActions.DispatchedBoxIsNotOpen | src/app/dashboard/dispatch/actions.ts:103-106 | A dispatched box is not in the open listing. |
| BoxActions.DeleteBox | src/app/dashboard/dispatch/actions.ts:112-137 | Only an admin or super_admin caller deletes. An unknown profile or any other role is refused with no change. On success exactly that box is removed. |
| BoxActions.UpdateBox | src/app/dashboard/dispatch/actions.ts:139-167 | The same admin gate applies. On success only that box's model and quantity change. |
| BoxActions.AdminEditSkipsScanGuard | src/app/dashboard/dispatch/actions.ts:152-162 | An admin edit may set a quantity below the scanned units, which `updateBoxQuantity` refuses, leaving a box that cannot hold its units. |
| SharedActions.DeleteBox | src/app/dashboard/actions-shared.ts:6-44 | No caller gives `No autenticado`. Only super_admin deletes; an admin or a missing profile is refused. A storage error comes back prefixed with `Error al eliminar la caja: `. On success exactly that box is removed. |
| SharedActions.DeleteGatesDiffer | src/app/dashboard/actions-shared.ts:19-21 | An admin can delete through the packing-screen action but not through the shared action. For super_admin both succeed with the same store. |
| UserActions.UpdateUserRole | src/app/dashboard/users/actions.ts:7-34 | No caller, or a caller that is not admin or super_admin, fails with no change. A storage error gives `Failed to update role`. On success only the target's role changes. |
| UserActions.AdminMayGrantAnyRole | src/app/dashboard/users/actions.ts:24-27 | An admin may set any role on a user, including super_admin. |
| UserActions.OperatorChangesNothing | src/app/dashboard/users/actions.ts:14-22 | An operator, or a caller without a profile, changes no role. |
| Rbac.ResolveUser | src/hooks/use-rbac.ts:22-52 | A user is resolved exactly when there is an auth user and a profile row. It carries the auth user's id and e-mail and the profile's role. A missing auth user, a fetch error or a missing row gives no user. Loading is over either way. |
| Rbac.RequireRole | src/hooks/use-rbac.ts:61-75 | No redirect while loading. After loading, no user goes to login. A user stays exactly when their role is allowed, and otherwise goes to the unauthorized page. |
| Rbac.RedirectPath | src/hooks/use-rbac.ts:64-70 | Staying pushes no route. A missing user goes to `/login`, and a disallowed role goes to `/dashboard?error=Unauthorized`. |
| Rbac.GuardedPageStays | src/hooks/use-rbac.ts:66-71 | The initial loading state never redirects. A resolved user with an allowed role stays. An unresolved user is sent to login. |
| Rbac.SuperGateNarrower | src/hooks/use-rbac.ts:5 | The super_admin gate implies the admin gate. The two differ exactly on the admin role. |
| CatalogActions.CreateBrand | src/app/dashboard/config/actions.ts:6-19 | A missing or empty name is refused, but a whitespace-only name is not. On success exactly one brand is added. |
| CatalogActions.DeleteBrand | src/app/dashboard/config/actions.ts:21-31 | On success only that brand is removed. A storage error is returned, not thrown. |
| CatalogActions.CreateThenDeleteBrand | src/app/dashboard/config/actions.ts:6-31 | Creating a brand and deleting it restores the store. |
| CatalogActions.CreateModel | src/app/dashboard/config/actions.ts:33-53 | An empty model name or brand id gives `Data missing`. On success exactly one model is added with the given brand, name and series configuration. |
| CatalogActions.UpdateModel | src/app/dashboard/config/actions.ts:55-77 | The model id is also required. On success that one model's brand, name and configuration are overwritten and nothing else changes. |
| CatalogActions.CreateThenUpdateModel | src/app/dashboard/config/actions.ts:33-77 | Updating a freshly created model equals creating it with the new values. |
| CatalogActions.DeleteModel | src/app/dashboard/config/actions.ts:79-89 | On success only that model is removed. |
| CatalogActions.CreateThenDeleteModel | src/app/dashboard/config/actions.ts:33-89 | Creating a model and deleting it restores the store. |
| SapActions.Field | src/app/dashboard/config/sap-actions.ts:25-29 | A field is present exactly when it exists and is non-empty after trimming, and its value is the trimmed text. |
| SapActions.ParseLine | src/app/dashboard/config/sap-actions.ts:25-30 | A present material is non-empty and the status is never empty. A line without separators gives no material and status `pending`. |
| SapActions.ParseLineFields | src/app/dashboard/config/sap-actions.ts:25-30 | The series, material and status are the trimmed first, second and third fields. An empty material becomes null and an empty status becomes `pending`. |
| SapActions.LineRecords | src/app/dashboard/config/sap-actions.ts:22-32 | A line yields at most one record and a blank line none. A record's series is non-empty and trimmed. |
| SapActions.ParseRecords | src/app/dashboard/config/sap-actions.ts:16-32 | Every record has a non-empty trimmed series. There are at most as many records as lines. |
| SapActions.ParseRecordsConcat | src/app/dashboard/config/sap-actions.ts:16-32 | Records keep input line order: parsing two blocks joined by a newline gives the first block's records followed by the second's. |
| SapActions.BlankLineIgnored | src/app/dashboard/config/sap-actions.ts:22-23 | A blank or whitespace-only line contributes no record. |
| SapActions.SeparatorsInterchangeable | src/app/dashboard/config/sap-actions.ts:25 | Replacing any `;` by `,` in a line does not change its record. |
| SapActions.ExtraFieldsIgnored | src/app/dashboard/config/sap-actions.ts:26-30 | Fields after the third do not change the record. |
| SapActions.ParseFormatLine | src/app/dashboard/config/sap-actions.ts:25-30 | Writing a clean record as `series,material,status` and parsing it gives the record back. |
| SapActions.ParseRecordsRoundTrip | src/app/dashboard/config/sap-actions.ts:16-32 | Writing clean records one per line and parsing the text gives back the same records in order. No header is skipped and no case is changed. |
| SapActions.InsertRecords | src/app/dashboard/config/sap-actions.ts:34-48 | Zero records give `No valid records found` with no insert. Otherwise the records are appended and the count returned is their number. |
| SapActions.UploadSapData | src/app/dashboard/config/sap-actions.ts:6-49 | A missing file gives `No file uploaded`. Otherwise the parsed records of the file are inserted. |
| SapActions.ClearSapData | src/app/dashboard/config/sap-actions.ts:51-61 | On success the reference list is empty and nothing else changes. |
| SapActions.ClearThenUpload | src/app/dashboard/config/sap-actions.ts:6-61 | Clearing and then uploading a file of clean records leaves exactly those records, and the count is their number. |
| ModelEditor.AddField | src/app/dashboard/config/model-manager.tsx:44-47 | At four or more fields nothing changes. Otherwise one field `Serie n+1` is appended, not required, and the existing fields are kept. |
| ModelEditor.RemoveField | src/app/dashboard/config/model-manager.tsx:49-52 | With one field nothing changes. Otherwise exactly the fields with that id are dropped. |
| ModelEditor.WithoutDistinctId | src/app/dashboard/config/model-manager.tsx:51 | With distinct ids, removing a field's id removes exactly that position and keeps the order of the rest. |
| ModelEditor.UpdateField | src/app/dashboard/config/model-manager.tsx:54-56 | Length, order and ids are preserved. Only the matching field gets the single change. |
| ModelEditor.AddKeepsInvariant | src/app/dashboard/config/model-manager.tsx:44-47 | Adding keeps between one and four fields with distinct ids. |
| ModelEditor.RemoveKeepsInvariant | src/app/dashboard/config/model-manager.tsx:49-52 | Removing keeps between one and four fields with distinct ids, and drops at most one. |
| ModelEditor.UpdateKeepsInvariant | src/app/dashboard/config/model-manager.tsx:54-56 | Updating keeps the editor invariant. |
| ModelEditor.InitialInvariant | src/app/dashboard/config/model-manager.tsx:41 | The initial list is the single required field `Serie Principal` and satisfies the invariant. |
| ModelEditor.CleanFields | src/app/dashboard/config/model-manager.tsx:86-90 | Count and order are kept and ids are dropped. A zero length becomes null. |
| ModelEditor.ConfigRoundTrip | src/app/dashboard/config/model-manager.tsx:63-90 | Loading a stored configuration into the editor and cleaning it gives the configuration back. |
| ModelEditor.OpenDialog | src/app/dashboard/config/model-manager.tsx:58-77 | A new model starts empty with the initial field. An existing model loads its brand, name and fields. |
| ModelEditor.Save | src/app/dashboard/config/model-manager.tsx:79-110 | An empty brand or model name calls nothing. Otherwise it calls update when a model is being edited and create when not, with the cleaned fields. |
| ModelEditor.AfterSave | src/app/dashboard/config/model-manager.tsx:105-108 | After saving, the editor returns to a new model with the initial field and keeps the brand. |
| ModelEditor.OpenThenSave | src/app/dashboard/config/model-manager.tsx:58-110 | Opening an existing model and saving unchanged calls update with its stored values. Saving a fresh dialog calls nothing. |
| BoxSelection.ToggleSelection | src/app/dashboard/dispatch/active-boxes-list.tsx:29-36 | Packing mode changes nothing. In shipping mode an absent id is appended at the end. A present id is removed, and the remaining ids keep their order. No other id changes and duplicates are never introduced. |
| BoxSelection.ToggleTwice | src/app/dashboard/dispatch/active-boxes-list.tsx:31-35 | Toggling twice restores the selection as a set, and restores the list exactly when the id was not selected. |
| BoxSelection.ToggleAll | src/app/dashboard/dispatch/active-boxes-list.tsx:38-45 | Packing mode changes nothing. In shipping mode the result is empty when the lengths match and otherwise every listed id in list order. |
| BoxSelection.ToggleAllByLength | src/app/dashboard/dispatch/active-boxes-list.tsx:40-44 | The comparison is by length only. Two presses from a partial selection end empty. |
| BoxSelection.HandleSuccess | src/app/dashboard/dispatch/active-boxes-list.tsx:47-51 | The selection is emptied. |
| BoxSelection.FindBox | src/app/dashboard/dispatch/active-boxes-list.tsx:61 | Finds the first box whose number equals the code, ignoring case. |
| BoxSelection.HandleScan | src/app/dashboard/dispatch/active-boxes-list.tsx:53-84 | Non-Enter keys and blank input change nothing. A looked-up code clears the input. In packing mode a match opens the first matching box, and nothing else is ever opened. In shipping mode a match appends that box's id unless it is already selected, in which case the selection is unchanged. Shipping never adds a duplicate. |
| BoxSelection.ScanSelectsMatch | src/app/dashboard/dispatch/active-boxes-list.tsx:61-77 | In shipping mode a scan matching a box's number leaves that box selected. |
| BoxSelection.ScanWithoutMatch | src/app/dashboard/dispatch/active-boxes-list.tsx:61-82 | A scan matching no box only clears the input. |
| BoxSelection.ScanIgnoresCase | src/app/dashboard/dispatch/active-boxes-list.tsx:61 | Codes equal up to case give the same outcome. |
| SearchActions.Dedupe | src/app/dashboard/search/actions.ts:71-72 | No two results share an id, and every result comes from the input. |
| SearchActions.DedupeIds | src/app/dashboard/search/actions.ts:72 | Result ids are the input ids in order of first occurrence. |
| SearchActions.DedupeIdsAreMapKeys | src/app/dashboard/search/actions.ts:72 | The result order is the key order of a JavaScript `Map` built from the items. |
| SearchActions.DedupeLastWins | src/app/dashboard/search/actions.ts:72 | The item kept for each id is the last one with that id. |
| SearchActions.DedupeKeepsEveryId | src/app/dashboard/search/actions.ts:71-72 | Every input id appears in the result. |
| SearchActions.LaterListWins | src/app/dashboard/search/actions.ts:71 | For an id in the later list, the later list's item is the one kept. |
| SearchActions.Search | src/app/dashboard/search/actions.ts:5-98 | With box matches the result is the deduplicated series hits (at most 20) followed by box hits (at most 50), so at most 70. Without box matches it is at most 20 series hits, and a failed query gives none. |
| SearchActions.SearchMergesBoth | src/app/dashboard/search/actions.ts:71-72 | Every id from either query appears exactly once in the combined result. |
| SearchActions.SearchPrefersBoxMatch | src/app/dashboard/search/actions.ts:71-72 | An id found by both queries is shown with its box-match item. |
| JsMap.FromEntriesKeys | src/app/dashboard/search/actions.ts:72 | A `Map` built from entries has the keys in first-occurrence order. |
| JsMap.FromEntriesGet | src/app/dashboard/search/actions.ts:72 | A `Map` built from entries maps each key to its last value. |
| DispatchHistory.PageRange | src/app/dashboard/dispatch/history/actions.ts:7-8 | The inclusive range spans exactly `limit` rows, and page 1 starts at row 0. |
| DispatchHistory.PagesContiguous | src/app/dashboard/dispatch/history/actions.ts:7-8 | A page ends right before the next page begins. |
| DispatchHistory.PagesCover | src/app/dashboard/dispatch/history/actions.ts:7-8 | The first n pages read in order are exactly the first n·limit rows, so nothing is skipped or repeated. |
| DispatchHistory.GetDispatches | src/app/dashboard/dispatch/history/actions.ts:5-31 | A query error gives no rows and count 0. Otherwise the rows are returned, with a missing count reported as 0. |
| DispatchHistory.DispatchRowOf | src/app/dashboard/dispatch/history/actions.ts:70-90 | A row carries the dispatch's SAP id, date and type, the box, its brand and model, and the unit's material. The primary series is the first value or `-`, and is never empty. The additional series are the remaining values joined. `Usuario Escaneo` is the user's name, else the e-mail. `Estado` is `VALIDADO` exactly for validated units, and `MANUAL` otherwise. |
| DispatchHistory.GetDispatchReportData | src/app/dashboard/dispatch/history/actions.ts:33-93 | A missing dispatch gives no data. Otherwise there is one row per unit over all its boxes. |
| DispatchHistory.DispatchReportRowAt | src/app/dashboard/dispatch/history/actions.ts:70-90 | The row for unit k of box j sits after all earlier boxes' units, and it is exactly that unit's row: dispatch, box, brand, model, material, series, user and state. |
| ReportRows.PrimarySeries | src/app/dashboard/dispatch/history/actions.ts:72-73 | The first series value when it is present and non-empty, otherwise `-`. |
| ReportRows.AdditionalSeries | src/app/dashboard/dispatch/history/actions.ts:74 | Empty for fewer than two values, and the second value when there are exactly two. Otherwise it is the second value, a comma and a space, then the remaining values joined the same way. |
| ReportRows.FlattenAt | src/app/dashboard/dispatch/history/actions.ts:70-90 | The flattening places unit k of box j at the count of earlier units plus k. |
| Pagination.PageParams | src/components/ui/pagination.tsx:18-22 | The `page` parameter becomes the single new value. Every other parameter is kept. |
| Pagination.PageChange | src/components/ui/pagination.tsx:24-27 | Navigates exactly to pages from 1 to the page count, and sets only `page`. |
| Pagination.StartRecord | src/components/ui/pagination.tsx:29 | The first page starts at record 1, and no existing page starts before it. Ranges on existing pages are bounded in `Pagination.CaptionInRange`. |
| Pagination.EndRecord | src/components/ui/pagination.tsx:30 | The last record shown is the smaller of the page's end and the total. |
| Pagination.NextPageStartsAfterEnd | src/components/ui/pagination.tsx:29-30 | After a full page, the next page starts right after it, so no record is skipped or shown twice. |
| Pagination.PageCount | src/app/dashboard/dispatch/history/page.tsx:32 | The page count is the ceiling of total over page size. |
| Pagination.CaptionInRange | src/components/ui/pagination.tsx:29-30 | On any existing page the caption runs from a record no later than its end, stays within the total, covers at most one page, and covers a full page on every page before the last. |
| Pagination.EmptyCaption | src/components/ui/pagination.tsx:29-35 | With no records, page 1 shows the caption from 1 to 0. |
| Pagination.Disabled | src/components/ui/pagination.tsx:38-75 | First and previous are disabled exactly on page 1. Next and last are disabled exactly on the last page. |
| Pagination.EnabledButtonsNavigate | src/components/ui/pagination.tsx:24-63 | On an existing page, previous and next are enabled exactly when pressing them navigates. |
| Pagination.NextEnabledWithoutPages | src/components/ui/pagination.tsx:59-75 | With no pages, next and last are enabled on page 1 yet navigate nowhere. |
| SearchParams.Set | src/components/ui/pagination.tsx:20 | Setting a parameter leaves it with exactly the new value and keeps every other parameter. |
| SearchParams.Delete | src/app/dashboard/report/report-filters.tsx:40 | Deleting a parameter removes all its values and keeps every other parameter. |
| ReportFilters.FilteredModels | src/app/dashboard/report/report-filters.tsx:31-33 | All models for `all` or an empty brand. Otherwise exactly the models of that brand. |
| ReportFilters.OfBrandConcat | src/app/dashboard/report/report-filters.tsx:31-33 | The brand filter keeps model order. |
| ReportFilters.FromUrl | src/app/dashboard/report/report-filters.tsx:26-28 | A missing URL parameter reads as `all`, and no selection is ever empty. |
| ReportFilters.UpdateFilters | src/app/dashboard/report/report-filters.tsx:35-45 | An empty or `all` value removes the key, and any other value sets it. The page becomes 1 and every other parameter is kept. |
| ReportFilters.UpdateThenSync | src/app/dashboard/report/report-filters.tsx:35-70 | After a material change the synced selections show the new material and the old brand and model. |
| ReportFilters.BrandChange | src/app/dashboard/report/report-filters.tsx:47-56 | A brand change resets the model selection to `all` and removes the model parameter. The page becomes 1 and other parameters are kept. |
| ReportFilters.BrandChangeThenSync | src/app/dashboard/report/report-filters.tsx:47-70 | The synced selection after a brand change agrees with the one the handler set. |
| ReportFilters.ClearFilters | src/app/dashboard/report/report-filters.tsx:58-63 | Clearing sets all three selections to `all` and drops every parameter. |
| ReportFilters.ClearThenSync | src/app/dashboard/report/report-filters.tsx:58-70 | The URL after clearing reads back as the cleared selection. |
| GlobalReport.NameOf | src/app/dashboard/report/global-report-dialog.tsx:70-71 | The looked-up name belongs to an option with that id. There is no name exactly when no option has that id. |
| GlobalReport.FiltersOf | src/app/dashboard/report/global-report-dialog.tsx:69-73 | `all` becomes no filter. A chosen brand or model becomes its name looked up by id. Material is passed through. |
| GlobalReport.UnknownBrandIsNoFilter | src/app/dashboard/report/global-report-dialog.tsx:70 | A brand id missing from the list filters like `all`. |
| GlobalReport.ChooseBrand | src/app/dashboard/report/global-report-dialog.tsx:155-158 | Choosing a brand resets the model to `all` and keeps the material. |
| GlobalReport.ChooseBrandClearsModel | src/app/dashboard/report/global-report-dialog.tsx:62-64 | After choosing a brand there is no model filter, and the model list is exactly that brand's models. |
| GlobalReport.GlobalRowOf | src/app/dashboard/report/global-report-dialog.tsx:84-92 | A row shows the registration date and the series. The box number, brand, model and material each show the present value or are empty. The user is the name, falling back to the e-mail, else empty. |
| GlobalReport.GlobalWorkbook | src/app/dashboard/report/global-report-dialog.tsx:77-92 | An empty or missing result gives no workbook. Otherwise there is one row per item, in order, and each row is that item's row. |
| ReportExport.MaxSeriesCount | src/app/dashboard/report/download-button.tsx:27-30 | The largest series count over all items, and 0 when no item has series. |
| ReportExport.SeriesHeadersDistinct | src/app/dashboard/report/download-button.tsx:48-50 | Series column names are pairwise distinct and differ from the fixed column names. |
| ReportExport.ExportRow | src/app/dashboard/report/download-button.tsx:34-57 | Each row has the five base columns: the scan date, then the box number, brand, model and material, each the present value or `''`. Then come `Serie 1..n`, holding the item's values or `''`, then `Usuario` (the name, else the e-mail, else `''`) and `Estado Validación`. The state is `VALIDADO OK` exactly for validated items, and `MANUAL` otherwise. |
| ReportExport.Widths | src/app/dashboard/report/download-button.tsx:63-78 | There are 7+n widths, and the series columns are 25 wide. |
| ReportExport.Export | src/app/dashboard/report/download-button.tsx:19-78 | Empty data gives no workbook. Otherwise there is one row per item, each being that item's row at the widest series count. Every row is as wide as the width list, and every item's own series values appear under their headers. |
| ReportExport.ExportHeadersAgree | src/app/dashboard/report/download-button.tsx:34-57 | All rows name the same column at each position. |
| PalletSummary.BuildSummary | src/app/dashboard/shipments/pallet-download-button.tsx:47-54 | The summary keys are distinct, and the totals add up to the number of detail rows. |
| PalletSummary.SummaryKeysInOrder | src/app/dashboard/shipments/pallet-download-button.tsx:47-56 | There is one entry per distinct `Tarima|Caja` key, in order of first appearance. |
| PalletSummary.SummaryCounts | src/app/dashboard/shipments/pallet-download-button.tsx:48-54 | A key has an entry exactly when it occurs in the rows, and its total is its number of occurrences. |
| PalletSummary.TotalsPositive | src/app/dashboard/shipments/pallet-download-button.tsx:50-53 | Every total is at least 1. |
| PalletSummary.SameKeyIffSameBox | src/app/dashboard/shipments/pallet-download-button.tsx:49 | Two rows of one pallet report share a key exactly when they name the same box. |
| PalletSummary.FirstDate | src/app/dashboard/shipments/pallet-download-button.tsx:61 | The first row's date when it is non-empty, otherwise `-`. |
| PalletSummary.SummaryRows | src/app/dashboard/shipments/pallet-download-button.tsx:56-62 | One sheet row per summary entry with its pallet, box and total. The SAP id is `PENDIENTE` when missing. |
| PalletSummary.SheetTotalIsRowCount | src/app/dashboard/shipments/pallet-download-button.tsx:47-62 | The `Total Series` column adds up to the number of detail rows. |
| PalletSummary.PalletDownload | src/app/dashboard/shipments/pallet-download-button.tsx:19-79 | A missing result or zero rows gives no workbook. Otherwise the detail sheet is the report rows. The summary sheet is the summary of those rows: one entry per box, in order of first appearance, with the SAP id or `PENDIENTE` and the first row's date. Its totals add up to the number of rows. The file name is `Tarima_<name>_<sap id or PENDIENTE>_<date>.xlsx`. |
| Strings.Trim | src/app/dashboard/config/sap-actions.ts:23 | The result is the input without its leading and trailing whitespace. It is empty exactly for all-whitespace input. |
| Strings.SplitJoin | src/app/dashboard/config/sap-actions.ts:16 | Splitting a newline-joined list of separator-free lines gives the lines back. |
| Decimal.NatToStringValue | src/app/dashboard/shipments/pallet-actions.ts:58 | The decimal rendering of a number reads back as that number. |

## Left out

- The database trigger that replaces `BOX-PENDING` with a real box number (src/app/dashboard/dispatch/actions.ts:14-16) is not visible in the application code; created boxes keep the placeholder.
- Cascade deletes of a box's equipment and other database-side effects are not modelled; a box delete removes the box row only.
- `getOpenBoxes` ordering by creation time and its joined brand/model names are not modelled; the listing is the set of open box keys.
- `getActivePallets` and the box-count helpers are read-only queries with joins and ordering, and are not modelled.
- Supabase queries, authentication, row-level security, `revalidatePath`, toasts and router navigation are outside the model. The signed-in caller, storage write errors and the results of the listed queries are parameters. These include the failed count and box reads of `createPallet`, `updateBoxQuantity` and `addBoxToPallet`. Other reads are taken from the store and never fail.
- PalletActions.DispatchOne: the per-pallet box query of `dispatchPallets` is read from the store and never fails. In the source, a failed read is reported as `Tarima sin cajas` even when the pallet has pending boxes.
- The `ilike`/`like` series matching, the JSONB text casts and the box lookup of the search action are not modelled; the matched box ids and the query results are inputs.
- Database keys, `Math.random` ids of editor fields, and the clock are parameters; dates are already formatted strings.
- XLSX, Blob and file generation are not modelled; a workbook is its rows, column widths and file name.
- Concurrency: the count-then-insert race in pallet naming and the non-transactional writes of `dispatchPallets` are modelled as sequential steps.
- PalletActions.DeletePallet: the source ignores the result of the box-detach write. The model takes that write's failure as the `detachError` input, and with it promises only that the boxes are left as they were.
- PalletActions.DispatchPallets: the box and pallet updates after a dispatch insert are unchecked in the source and are modelled as always succeeding.
- BoxActions.UpdateBoxQuantity: quantities are integers; JavaScript numbers with fractions are not modelled.
- Rbac.ResolveUser: the exception path of the role lookup, which only logs and ends loading, is not modelled.
- SapActions.UploadSapData: the upload appends to the reference list and does not clear it first.
- Order of a unit's `series_data` values is taken as given; the model does not reason about `Object.values` key order.
- `toLowerCase` is modelled for ASCII letters only.
- DispatchHistory.PagesCover: requires a page size of at least 1, which every caller passes.
- Pagination.PageCount: requires a page size of at least 1, as the history page always passes.
- Date arithmetic, statistics and percentages of the dashboard and box reports are not part of this model.
- The per-unit scan pipeline (duplicate checks, SAP matching, registry insert) is not part of this model.

=== FILE: box_actions.dfy ===
/** Box server actions of the packing screen: creation, duplication, the
    quantity guard against already scanned units, the open-box listing,
    and the admin-gated delete and edit. */
module BoxActions {
  import opened Wrappers
  import opened Decimal
  import opened Rbac
  import opened Store

  /** The placeholder number a new box is inserted with; a database trigger
      (not part of this model) later replaces it. */
  const PendingNumber := "BOX-PENDING"

  /** The row `createBox` and `duplicateBox` insert. */
  function NewBox(creator: Id, modelId: Id, totalItems: int): (b: Box)
    ensures b.boxNumber == PendingNumber && b.status == Open
    ensures b.createdBy == creator && b.modelId == modelId && b.totalItems == totalItems
    ensures b.palletId.None? && b.dispatchId.None?
  {
    Box(PendingNumber, creator, modelId, totalItems, Open, None, None)
  }

  /** `createBox`. `newId` is the key the database assigns. */
  function CreateBox(st: State, caller: Option<Id>, modelId: Id, itemsCount: int, newId: Id, dbError: Option<string>): (r: Step<Id>)
    requires newId !in st.boxes
    ensures caller.None? ==> r == Step(Err("Unauthorized"), st)
    ensures caller.Some? && dbError.Some? ==> r == Step(Err(dbError.value), st)
    ensures r.reply.Ok? <==> caller.Some? && dbError.None?
    ensures r.reply.Err? ==> r.state == st
    ensures r.reply.Ok? ==>
      && r.reply.value == newId
      && OnlyBoxesDiffer(st, r.state)
      && r.state.boxes.Keys == st.boxes.Keys + {newId}
      && (forall b | b in st.boxes :: r.state.boxes[b] == st.boxes[b])
      && r.state.boxes[newId] == NewBox(caller.value, modelId, itemsCount)
  {
    if caller.None? then Step(Err("Unauthorized"), st)
    else if dbError.Some? then Step(Err(dbError.value), st)
    else Step(Ok(newId), st.(boxes := st.boxes[newId := NewBox(caller.value, modelId, itemsCount)]))
  }

  /** `duplicateBox`: a new open box with the original's model and
      quantity; nothing else of the original is copied. */
  function DuplicateBox(st: State, caller: Option<Id>, originalId: Id, newId: Id, dbError: Option<string>): (r: Step<Id>)
    requires newId !in st.boxes
    ensures caller.None? ==> r == Step(Err("Unauthorized"), st)
    ensures caller.Some? && originalId !in st.boxes ==> r == Step(Err("Original box not found"), st)
    ensures r.reply.Ok? <==> caller.Some? && originalId in st.boxes && dbError.None?
    ensures r.reply.Err? ==> r.state == st
    ensures r.reply.Ok? ==>
      && r.reply.value == newId
      && OnlyBoxesDiffer(st, r.state)
      && r.state.boxes.Keys == st.boxes.Keys + {newId}
      && (forall b | b in st.boxes :: r.state.boxes[b] == st.boxes[b])
      && r.state.boxes[newId].modelId == st.boxes[originalId].modelId
      && r.state.boxes[newId].totalItems == st.boxes[originalId].totalItems
      && r.state.boxes[newId].status == Open
      && r.state.boxes[newId].createdBy == caller.value
  {
    if caller.None? then Step(Err("Unauthorized"), st)
    else if originalId !in st.boxes then Step(Err("Original box not found"), st)
    else
      var original := st.boxes[originalId];
      if dbError.Some? then Step(Err(dbError.value), st)
      else Step(Ok(newId), st.(boxes := st.boxes[newId := NewBox(caller.value, original.modelId, original.totalItems)]))
  }

  /** Duplicating a box is creating one with the original's model and
      quantity, whatever state the original is in. */
  lemma DuplicateIsCreate(st: State, caller: Option<Id>, originalId: Id, newId: Id, dbError: Option<string>)
    requires newId !in st.boxes && originalId in st.boxes
    ensures DuplicateBox(st, caller, originalId, newId, dbError)
         == CreateBox(st, caller, st.boxes[originalId].modelId, st.boxes[originalId].totalItems, newId, dbError)
  {
  }

  /** The message `updateBoxQuantity` rejects a reduction with. */
  function QuantityMessage(newQuantity: int, scanned: nat): string {
    "No puedes reducir la cantidad a " + IntToString(newQuantity) + " porque ya hay "
      + NatToString(scanned) + " equipos escaneados."
  }

  /** `updateBoxQuantity`. The source checks no caller. An unknown box
      matches no row, which the update does not report. `count` is what
      the unchecked count query returns: the box's scanned units when it
      succeeds, `None` when it fails, which the guard reads as 0. */
  function UpdateBoxQuantity(st: State, boxId: Id, count: Option<nat>, newQuantity: int, dbError: Option<string>): (r: Step<()>)
    ensures newQuantity < count.GetOr(0) ==>
      r == Step(Err(QuantityMessage(newQuantity, count.GetOr(0))), st)
    ensures newQuantity >= count.GetOr(0) && dbError.Some? ==> r == Step(Err(dbError.value), st)
    ensures r.reply.Ok? <==> newQuantity >= count.GetOr(0) && dbError.None?
    ensures count == Some(ScannedCount(st, boxId)) ==>
      (r.reply.Ok? <==> newQuantity >= ScannedCount(st, boxId) && dbError.None?)
    ensures r.reply.Ok? ==>
      && OnlyBoxesDiffer(st, r.state)
      && BoxesFramed(st, r.state, {boxId})
      && (boxId in st.boxes ==> r.state.boxes[boxId] == st.boxes[boxId].(totalItems := newQuantity))
  {
    var current := count.GetOr(0);
    if newQuantity < current then Step(Err(QuantityMessage(newQuantity, current)), st)
    else if dbError.Some? then Step(Err(dbError.value), st)
    else if boxId in st.boxes then
      Step(Ok(()), st.(boxes := st.boxes[boxId := st.boxes[boxId].(totalItems := newQuantity)]))
    else Step(Ok(()), st)
  }

  /** Every box can hold the units already scanned into it. */
  ghost predicate QuantitiesCoverScans(st: State) {
    forall b | b in st.boxes :: st.boxes[b].totalItems >= ScannedCount(st, b)
  }

  /** `updateBoxQuantity`, when its count query succeeds, keeps every box
      able to hold its scanned units. */
  lemma QuantityUpdateKeepsCover(st: State, boxId: Id, newQuantity: int, dbError: Option<string>)
    requires QuantitiesCoverScans(st)
    ensures QuantitiesCoverScans(UpdateBoxQuantity(st, boxId, Some(ScannedCount(st, boxId)), newQuantity, dbError).state)
  {
    var st' := UpdateBoxQuantity(st, boxId, Some(ScannedCount(st, boxId)), newQuantity, dbError).state;
    assert st'.equipment == st.equipment;
    forall b | b in st'.boxes ensures st'.boxes[b].totalItems >= ScannedCount(st', b) {
      assert ScannedCount(st', b) == ScannedCount(st, b);
    }
  }

  /** When the count query fails, the guard sees 0: any non-negative
      quantity is stored, even one below the units already scanned. */
  lemma FailedCountSkipsGuard(st: State, boxId: Id, newQuantity: nat)
    requires boxId in st.boxes && newQuantity < ScannedCount(st, boxId)
    ensures UpdateBoxQuantity(st, boxId, None, newQuantity, None).reply.Ok?
    ensures !QuantitiesCoverScans(UpdateBoxQuantity(st, boxId, None, newQuantity, None).state)
  {
    var st' := UpdateBoxQuantity(st, boxId, None, newQuantity, None).state;
    assert st'.equipment == st.equipment;
    assert ScannedCount(st', boxId) == ScannedCount(st, boxId);
  }

  /** The rows `getOpenBoxes` returns, as a set of keys; the ordering by
      creation time and the joined names are not modelled. */
  function OpenBoxes(st: State): (r: set<Id>)
    ensures r <= st.boxes.Keys
    ensures forall b | b in st.boxes :: b in r <==> st.boxes[b].status == Open
  {
    set b | b in st.boxes && st.boxes[b].status == Open
  }

  /** A created box is listed as open, next to everything listed before. */
  lemma CreatedBoxIsOpen(st: State, caller: Id, modelId: Id, itemsCount: int, newId: Id)
    requires newId !in st.boxes
    ensures OpenBoxes(CreateBox(st, Some(caller), modelId, itemsCount, newId, None).state) == OpenBoxes(st) + {newId}
  {
  }

  /** A box stamped by a pallet dispatch is no longer listed as open. */
  lemma DispatchedBoxIsNotOpen(st: State, b: Id)
    requires b in st.boxes && st.boxes[b].status == Dispatched
    ensures b !in OpenBoxes(st)
  {
  }

  /** `deleteBox` of the packing screen: signed in, then admin or
      super_admin by the caller's profile row. */
  function DeleteBox(st: State, caller: Option<Id>, boxId: Id, dbError: Option<string>): (r: Step<()>)
    ensures caller.None? ==> r == Step(Err("Unauthorized"), st)
    ensures caller.Some? && !IsAdminOrSuper(RoleOf(st, caller.value)) ==>
      r == Step(Err("No tienes permisos para eliminar cajas"), st)
    ensures r.reply.Ok? <==> caller.Some? && IsAdminOrSuper(RoleOf(st, caller.value)) && dbError.None?
    ensures r.reply.Err? ==> r.state == st
    ensures r.reply.Ok? ==> OnlyBoxesDiffer(st, r.state) && r.state.boxes == st.boxes - {boxId}
  {
    if caller.None? then Step(Err("Unauthorized"), st)
    else if !IsAdminOrSuper(RoleOf(st, caller.value)) then Step(Err("No tienes permisos para eliminar cajas"), st)
    else if dbError.Some? then Step(Err(dbError.value), st)
    else Step(Ok(()), st.(boxes := st.boxes - {boxId}))
  }

  /** `updateBox`: the admin edit. It rewrites the model and the quantity
      and, unlike `updateBoxQuantity`, does not compare the quantity with
      the scanned units. */
  function UpdateBox(st: State, caller: Option<Id>, boxId: Id, modelId: Id, totalItems: int, dbError: Option<string>): (r: Step<()>)
    ensures caller.None? ==> r == Step(Err("Unauthorized"), st)
    ensures caller.Some? && !IsAdminOrSuper(RoleOf(st, caller.value)) ==>
      r == Step(Err("No tienes permisos para editar cajas"), st)
    ensures r.reply.Ok? <==> caller.Some? && IsAdminOrSuper(RoleOf(st, caller.value)) && dbError.None?
    ensures r.reply.Err? ==> r.state == st
    ensures r.reply.Ok? ==>
      && OnlyBoxesDiffer(st, r.state)
      && BoxesFramed(st, r.state, {boxId})
      && (boxId in st.boxes ==> r.state.boxes[boxId] == st.boxes[boxId].(modelId := modelId, totalItems := totalItems))
  {
    if caller.None? then Step(Err("Unauthorized"), st)
    else if !IsAdminOrSuper(RoleOf(st, caller.value)) then Step(Err("No tienes permisos para editar cajas"), st)
    else if dbError.Some? then Step(Err(dbError.value), st)
    else if boxId in st.boxes then
      Step(Ok(()), st.(boxes := st.boxes[boxId := st.boxes[boxId].(modelId := modelId, totalItems := totalItems)]))
    else Step(Ok(()), st)
  }

  /** An admin edit may set a quantity below the scanned units, which
      `updateBoxQuantity` would refuse for the same box and quantity. */
  lemma AdminEditSkipsScanGuard(st: State, admin: Id, boxId: Id, totalItems: int)
    requires admin in st.users && st.users[admin].role == Admin
    requires boxId in st.boxes && totalItems < ScannedCount(st, boxId)
    ensures UpdateBox(st, Some(admin), boxId, st.boxes[boxId].modelId, totalItems, None).reply.Ok?
    ensures UpdateBoxQuantity(st, boxId, Some(ScannedCount(st, boxId)), totalItems, None).reply.Err?
    ensures !QuantitiesCoverScans(UpdateBox(st, Some(admin), boxId, st.boxes[boxId].modelId, totalItems, None).state)
  {
    var st' := UpdateBox(st, Some(admin), boxId, st.boxes[boxId].modelId, totalItems, None).state;
    assert st'.equipment == st.equipment;
    assert ScannedCount(st', boxId) == ScannedCount(st, boxId);
  }
}

=== FILE: box_selection.dfy ===
/** The active-box list of the packing and shipping screens: choosing
    boxes for a shipment by clicking or by scanning their number. */
module BoxSelection {
  import opened Wrappers
  import opened Strings

  /** In packing mode the list opens boxes; only shipping mode selects. */
  datatype Mode = Packing | Shipping

  /** A listed box: its key and its printed number. */
  datatype ListedBox = ListedBox(id: string, boxNumber: string)

  predicate NoDuplicates(sel: seq<string>) {
    forall i, j | 0 <= i < j < |sel| :: sel[i] != sel[j]
  }

  /** `prev.filter(x => x !== id)`. */
  function Without(sel: seq<string>, id: string): (r: seq<string>)
    ensures forall x :: x in r <==> x in sel && x != id
    ensures NoDuplicates(sel) ==> NoDuplicates(r)
    ensures id !in sel ==> r == sel
    decreases |sel|
  {
    if |sel| == 0 then []
    else
      var rest := Without(sel[1..], id);
      assert forall x :: x in sel <==> x == sel[0] || x in sel[1..] by {
        assert sel == [sel[0]] + sel[1..];
      }
      if sel[0] == id then rest
      else
        assert NoDuplicates(sel) ==> NoDuplicates([sel[0]] + rest) by {
          if NoDuplicates(sel) {
            assert NoDuplicates(sel[1..]) && sel[0] !in sel[1..];
            ConsNoDuplicates(sel[0], rest);
          }
        }
        [sel[0]] + rest
  }

  lemma ConsNoDuplicates(x: string, rest: seq<string>)
    requires NoDuplicates(rest) && x !in rest
    ensures NoDuplicates([x] + rest)
  {
    var r := [x] + rest;
    forall i, j | 0 <= i < j < |r| ensures r[i] != r[j] {
      if i == 0 { assert r[j] == rest[j - 1]; }
      else { assert r[i] == rest[i - 1] && r[j] == rest[j - 1]; }
    }
  }

  /** `toggleSelection`: removes the id when selected, appends it when
      not; ignored in packing mode. */
  function ToggleSelection(mode: Mode, sel: seq<string>, id: string): (r: seq<string>)
    ensures mode == Packing ==> r == sel
    ensures mode == Shipping ==> (id in r <==> id !in sel)
    ensures mode == Shipping ==> forall x | x != id :: x in r <==> x in sel
    ensures mode == Shipping && id !in sel ==> r == sel + [id]
    ensures mode == Shipping && id in sel ==> r == Without(sel, id)
    ensures NoDuplicates(sel) ==> NoDuplicates(r)
  {
    if mode == Packing then sel
    else if id in sel then Without(sel, id)
    else sel + [id]
  }

  /** Toggling the same id twice gives back the same set of ids, and the
      very same list when the id was not selected. */
  lemma ToggleTwice(sel: seq<string>, id: string)
    ensures var r := ToggleSelection(Shipping, ToggleSelection(Shipping, sel, id), id);
      && (forall x :: x in r <==> x in sel)
      && (id !in sel ==> r == sel)
  {
    if id !in sel {
      var s1 := sel + [id];
      assert Without(s1, id) == Without(sel, id) + Without([id], id) by {
        WithoutConcat(sel, [id], id);
      }
      assert Without([id], id) == [] by {
        assert [id][1..] == [];
      }
    }
  }

  lemma {:induction false} WithoutConcat(a: seq<string>, b: seq<string>, id: string)
    ensures Without(a + b, id) == Without(a, id) + Without(b, id)
    decreases |a|
  {
    if |a| > 0 {
      assert (a + b)[0] == a[0] && (a + b)[1..] == a[1..] + b;
      WithoutConcat(a[1..], b, id);
    } else {
      assert a + b == b;
    }
  }

  function Ids(boxes: seq<ListedBox>): (ids: seq<string>)
    ensures |ids| == |boxes|
    ensures forall i | 0 <= i < |boxes| :: ids[i] == boxes[i].id
  {
    seq(|boxes|, i requires 0 <= i < |boxes| => boxes[i].id)
  }

  /** `toggleAll`: clears when as many ids are selected as boxes are
      listed, whatever those ids are; otherwise selects every listed box
      in list order. Ignored in packing mode. */
  function ToggleAll(mode: Mode, sel: seq<string>, boxes: seq<ListedBox>): (r: seq<string>)
    ensures mode == Packing ==> r == sel
    ensures mode == Shipping && |sel| == |boxes| ==> r == []
    ensures mode == Shipping && |sel| != |boxes| ==> r == Ids(boxes)
  {
    if mode == Packing then sel
    else if |sel| == |boxes| then []
    else Ids(boxes)
  }

  /** Because `toggleAll` compares lengths only, a selection of as many
      ids as there are boxes is cleared even when none of them is listed;
      and pressing the button twice from a partial selection ends empty. */
  lemma ToggleAllByLength(sel: seq<string>, boxes: seq<ListedBox>)
    ensures |sel| == |boxes| ==> ToggleAll(Shipping, sel, boxes) == []
    ensures |sel| != |boxes| ==> ToggleAll(Shipping, ToggleAll(Shipping, sel, boxes), boxes) == []
  {
  }

  /** `handleSuccess`: after a dispatch the selection is empty. */
  function HandleSuccess(sel: seq<string>): (r: seq<string>)
    ensures |r| == 0
  {
    []
  }

  // ----- Scanning -------------------------------------------------------------

  /** `boxes.find(...)` on the lower-cased number: the first match. */
  function FindBox(boxes: seq<ListedBox>, code: string): (r: Option<nat>)
    ensures r.Some? ==> r.value < |boxes| && ToLower(boxes[r.value].boxNumber) == ToLower(code)
    ensures r.Some? ==> forall j | 0 <= j < r.value :: ToLower(boxes[j].boxNumber) != ToLower(code)
    ensures r.None? ==> forall j | 0 <= j < |boxes| :: ToLower(boxes[j].boxNumber) != ToLower(code)
    decreases |boxes|
  {
    if |boxes| == 0 then None
    else if ToLower(boxes[0].boxNumber) == ToLower(code) then Some(0)
    else match FindBox(boxes[1..], code)
      case None => None
      case Some(i) => Some(i + 1)
  }

  /** The list's state after a key press in the scan box. */
  datatype ScanOutcome = ScanOutcome(selection: seq<string>, input: string, openBox: Option<string>)

  /** `handleScan`: Enter with a non-blank trimmed code looks the box up
      case-insensitively. Packing opens it; shipping appends it when not
      yet selected. Any looked-up code, found or not, clears the input. */
  function HandleScan(mode: Mode, key: string, input: string, sel: seq<string>, boxes: seq<ListedBox>): (o: ScanOutcome)
    ensures key != "Enter" || Trim(input) == "" ==> o == ScanOutcome(sel, input, None)
    ensures key == "Enter" && Trim(input) != "" ==> o.input == ""
    ensures mode == Packing ==> o.selection == sel
    ensures o.openBox.Some? ==> mode == Packing && exists i | 0 <= i < |boxes| :: boxes[i].id == o.openBox.value
    ensures mode == Shipping ==> o.openBox.None? && |sel| <= |o.selection| <= |sel| + 1 && o.selection[..|sel|] == sel
    ensures NoDuplicates(sel) ==> NoDuplicates(o.selection)
    ensures key == "Enter" && Trim(input) != "" && FindBox(boxes, Trim(input)).Some? ==>
      var id := boxes[FindBox(boxes, Trim(input)).value].id;
      && (mode == Packing ==> o.openBox == Some(id))
      && (mode == Shipping ==> o.selection == if id in sel then sel else sel + [id])
  {
    if key != "Enter" then ScanOutcome(sel, input, None)
    else
      var code := Trim(input);
      if code == "" then ScanOutcome(sel, input, None)
      else match FindBox(boxes, code)
        case None => ScanOutcome(sel, "", None)
        case Some(i) =>
          if mode == Packing then ScanOutcome(sel, "", Some(boxes[i].id))
          else if boxes[i].id in sel then ScanOutcome(sel, "", None)
          else
            assert (sel + [boxes[i].id])[..|sel|] == sel;
            ScanOutcome(sel + [boxes[i].id], "", None)
  }

  /** In shipping mode, a scan matching a listed number leaves that box
      selected (later boxes with the same number are never reached). */
  lemma ScanSelectsMatch(sel: seq<string>, input: string, boxes: seq<ListedBox>, i: nat)
    requires Trim(input) != "" && i < |boxes|
    requires ToLower(boxes[i].boxNumber) == ToLower(Trim(input))
    requires forall j | 0 <= j < i :: boxes[j].id == boxes[i].id || ToLower(boxes[j].boxNumber) != ToLower(Trim(input))
    ensures boxes[i].id in HandleScan(Shipping, "Enter", input, sel, boxes).selection
  {
    var r := FindBox(boxes, Trim(input));
    assert r.Some?;
    assert boxes[r.value].id == boxes[i].id by {
      if r.value < i {
      } else if r.value > i {
        assert false;
      }
    }
  }

  /** A scan matching no listed number changes nothing but the input. */
  lemma ScanWithoutMatch(mode: Mode, sel: seq<string>, input: string, boxes: seq<ListedBox>)
    requires Trim(input) != ""
    requires forall j | 0 <= j < |boxes| :: ToLower(boxes[j].boxNumber) != ToLower(Trim(input))
    ensures HandleScan(mode, "Enter", input, sel, boxes) == ScanOutcome(sel, "", None)
  {
  }

  /** The lookup ignores ASCII case: two codes equal up to case give the
      same outcome. */
  lemma ScanIgnoresCase(mode: Mode, a: string, b: string, sel: seq<string>, boxes: seq<ListedBox>)
    requires Trim(a) != "" && Trim(b) != "" && ToLower(Trim(a)) == ToLower(Trim(b))
    ensures HandleScan(mode, "Enter", a, sel, boxes) == HandleScan(mode, "Enter", b, sel, boxes)
  {
    FindBoxByLower(boxes, Trim(a), Trim(b));
  }

  lemma {:induction false} FindBoxByLower(boxes: seq<ListedBox>, a: string, b: string)
    requires ToLower(a) == ToLower(b)
    ensures FindBox(boxes, a) == FindBox(boxes, b)
    decreases |boxes|
  {
    if |boxes| > 0 {
      FindBoxByLower(boxes[1..], a, b);
    }
  }
}

=== FILE: catalog_actions.dfy ===
/** Brand and model catalogue actions of the configuration screen. Every
    storage failure is returned as an error reply, never thrown. */
module CatalogActions {
  import opened Wrappers
  import opened Strings
  import opened Store

  /** `createBrand`: a missing or empty name is refused; a name of spaces
      only is accepted as given. */
  function CreateBrand(st: State, name: Option<string>, newId: Id, dbError: Option<string>): (r: Step<Id>)
    requires newId !in st.brands
    ensures !Truthy(name) ==> r == Step(Err("Brand name is required"), st)
    ensures Truthy(name) && dbError.Some? ==> r == Step(Err(dbError.value), st)
    ensures r.reply.Ok? <==> Truthy(name) && dbError.None?
    ensures r.reply.Ok? ==>
      && r.state == st.(brands := r.state.brands)
      && r.state.brands == st.brands[newId := Brand(name.value)]
  {
    if !Truthy(name) then Step(Err("Brand name is required"), st)
    else if dbError.Some? then Step(Err(dbError.value), st)
    else Step(Ok(newId), st.(brands := st.brands[newId := Brand(name.value)]))
  }

  /** `deleteBrand`: no guard; an unknown id deletes nothing. */
  function DeleteBrand(st: State, brandId: Id, dbError: Option<string>): (r: Step<()>)
    ensures dbError.Some? ==> r == Step(Err(dbError.value), st)
    ensures dbError.None? ==> r.reply.Ok? && r.state == st.(brands := st.brands - {brandId})
    ensures brandId !in r.state.brands || dbError.Some?
  {
    if dbError.Some? then Step(Err(dbError.value), st)
    else Step(Ok(()), st.(brands := st.brands - {brandId}))
  }

  /** Deleting a brand just created gives back the store it was created in. */
  lemma CreateThenDeleteBrand(st: State, name: string, newId: Id)
    requires newId !in st.brands && name != ""
    ensures var c := CreateBrand(st, Some(name), newId, None);
      c.reply == Ok(newId) && DeleteBrand(c.state, newId, None).state == st
  {
    var c := CreateBrand(st, Some(name), newId, None);
    assert c.state.brands - {newId} == st.brands;
  }

  /** `createModel`: both the model name and the brand id must be
      non-empty. */
  function CreateModel(st: State, brandId: Id, modelName: string, seriesConfig: seq<FieldConfig>, newId: Id, dbError: Option<string>): (r: Step<Id>)
    requires newId !in st.models
    ensures modelName == "" || brandId == "" ==> r == Step(Err("Data missing"), st)
    ensures modelName != "" && brandId != "" && dbError.Some? ==> r == Step(Err(dbError.value), st)
    ensures r.reply.Ok? <==> modelName != "" && brandId != "" && dbError.None?
    ensures r.reply.Ok? ==>
      && r.state == st.(models := r.state.models)
      && r.state.models == st.models[newId := Model(brandId, modelName, seriesConfig)]
  {
    if modelName == "" || brandId == "" then Step(Err("Data missing"), st)
    else if dbError.Some? then Step(Err(dbError.value), st)
    else Step(Ok(newId), st.(models := st.models[newId := Model(brandId, modelName, seriesConfig)]))
  }

  /** `updateModel`: the model id must be non-empty too; the three
      columns of that one row are overwritten, and an unknown id matches no
      row. */
  function UpdateModel(st: State, modelId: Id, brandId: Id, modelName: string, seriesConfig: seq<FieldConfig>, dbError: Option<string>): (r: Step<()>)
    ensures modelId == "" || modelName == "" || brandId == "" ==> r == Step(Err("Data missing"), st)
    ensures modelId != "" && modelName != "" && brandId != "" && dbError.Some? ==> r == Step(Err(dbError.value), st)
    ensures r.reply.Ok? <==> modelId != "" && modelName != "" && brandId != "" && dbError.None?
    ensures r.reply.Ok? ==>
      && r.state == st.(models := r.state.models)
      && r.state.models.Keys == st.models.Keys
      && (forall m | m in st.models && m != modelId :: r.state.models[m] == st.models[m])
      && (modelId in st.models ==> r.state.models[modelId] == Model(brandId, modelName, seriesConfig))
  {
    if modelId == "" || modelName == "" || brandId == "" then Step(Err("Data missing"), st)
    else if dbError.Some? then Step(Err(dbError.value), st)
    else if modelId in st.models then
      Step(Ok(()), st.(models := st.models[modelId := Model(brandId, modelName, seriesConfig)]))
    else Step(Ok(()), st)
  }

  /** Updating a model right after creating it is creating it with the
      updated values. */
  lemma CreateThenUpdateModel(st: State, newId: Id, b1: Id, n1: string, c1: seq<FieldConfig>, b2: Id, n2: string, c2: seq<FieldConfig>)
    requires newId !in st.models && newId != ""
    requires b1 != "" && n1 != "" && b2 != "" && n2 != ""
    ensures UpdateModel(CreateModel(st, b1, n1, c1, newId, None).state, newId, b2, n2, c2, None).state
         == CreateModel(st, b2, n2, c2, newId, None).state
  {
  }

  /** `deleteModel`: no guard; an unknown id deletes nothing. */
  function DeleteModel(st: State, modelId: Id, dbError: Option<string>): (r: Step<()>)
    ensures dbError.Some? ==> r == Step(Err(dbError.value), st)
    ensures dbError.None? ==> r.reply.Ok? && r.state == st.(models := st.models - {modelId})
    ensures modelId !in r.state.models || dbError.Some?
  {
    if dbError.Some? then Step(Err(dbError.value), st)
    else Step(Ok(()), st.(models := st.models - {modelId}))
  }

  /** Deleting a model just created gives back the store it was created in. */
  lemma CreateThenDeleteModel(st: State, brandId: Id, name: string, config: seq<FieldConfig>, newId: Id)
    requires newId !in st.models && brandId != "" && name != ""
    ensures DeleteModel(CreateModel(st, brandId, name, config, newId, None).state, newId, None).state == st
  {
    var c := CreateModel(st, brandId, name, config, newId, None);
    assert c.state.models - {newId} == st.models;
  }
}

=== FILE: decimal.dfy ===
/** Decimal rendering of integers as JavaScript's `String(n)` produces it,
    its inverse on digit strings, and `padStart` with a fill character. */
module Decimal {

  predicate IsDigit(c: char) {
    '0' <= c <= '9'
  }

  predicate AllDigits(s: string) {
    forall i | 0 <= i < |s| :: IsDigit(s[i])
  }

  function DigitChar(d: nat): (c: char)
    requires d < 10
    ensures IsDigit(c)
  {
    (48 + d) as char
  }

  function DigitValue(c: char): (d: nat)
    requires IsDigit(c)
    ensures d < 10
  {
    c as int - 48
  }

  /** `String(n)` for a non-negative integer: its shortest decimal form. */
  function NatToString(n: nat): (s: string)
    ensures |s| >= 1
    ensures AllDigits(s)
    ensures |s| > 1 ==> s[0] != '0'
    decreases n
  {
    if n < 10 then [DigitChar(n)] else NatToString(n / 10) + [DigitChar(n % 10)]
  }

  /** `String(i)` for any integer, with a leading minus sign when negative. */
  function IntToString(i: int): string {
    if i < 0 then "-" + NatToString(-i) else NatToString(i)
  }

  /** The number a string of decimal digits denotes (leading zeros allowed). */
  function DigitsValue(s: string): nat
    requires AllDigits(s)
  {
    if |s| == 0 then 0 else DigitsValue(s[..|s| - 1]) * 10 + DigitValue(s[|s| - 1])
  }

  /** Reading back the decimal form of `n` gives `n`. */
  lemma {:induction false} NatToStringValue(n: nat)
    ensures DigitsValue(NatToString(n)) == n
    decreases n
  {
    if n >= 10 {
      NatToStringValue(n / 10);
      var s := NatToString(n);
      assert s[..|s| - 1] == NatToString(n / 10);
    }
  }

  /** Distinct numbers have distinct decimal forms. */
  lemma NatToStringInjective(a: nat, b: nat)
    ensures NatToString(a) == NatToString(b) ==> a == b
  {
    NatToStringValue(a);
    NatToStringValue(b);
  }

  function Repeat(c: char, n: nat): (r: string)
    ensures |r| == n
    ensures forall i | 0 <= i < n :: r[i] == c
  {
    if n == 0 then "" else [c] + Repeat(c, n - 1)
  }

  /** Leading zeros do not change the value of a digit string. */
  lemma {:induction false} LeadingZerosValue(z: nat, s: string)
    requires AllDigits(s)
    ensures AllDigits(Repeat('0', z) + s)
    ensures DigitsValue(Repeat('0', z) + s) == DigitsValue(s)
    decreases |s|
  {
    var t := Repeat('0', z) + s;
    assert AllDigits(t) by {
      forall i | 0 <= i < |t| ensures IsDigit(t[i]) {
        if i >= z { assert t[i] == s[i - z]; }
      }
    }
    if |s| == 0 {
      assert t == Repeat('0', z);
      ZerosValue(z);
    } else {
      LeadingZerosValue(z, s[..|s| - 1]);
      assert t[..|t| - 1] == Repeat('0', z) + s[..|s| - 1];
    }
  }

  lemma {:induction false} ZerosValue(z: nat)
    ensures AllDigits(Repeat('0', z))
    ensures DigitsValue(Repeat('0', z)) == 0
    decreases z
  {
    if z > 0 {
      ZerosValue(z - 1);
      var r := Repeat('0', z);
      assert r[..z - 1] == Repeat('0', z - 1);
    }
  }

  function Pow10(k: nat): (p: nat)
    ensures p >= 1
  {
    if k == 0 then 1 else 10 * Pow10(k - 1)
  }

  /** The decimal form of `n` has more than `k` digits (`k >= 1`) exactly
      when `n` is at least `10^k`. */
  lemma {:induction false} NatToStringLength(n: nat, k: nat)
    requires k >= 1
    ensures |NatToString(n)| > k <==> n >= Pow10(k)
    decreases n
  {
    assert Pow10(k) == 10 * Pow10(k - 1);
    if n >= 10 && k > 1 {
      NatToStringLength(n / 10, k - 1);
    }
  }

  /** `s.padStart(width, fill)`: left-fill to at least `width` characters;
      never truncates. */
  function PadStart(s: string, width: nat, fill: char): (r: string)
    ensures |r| == if |s| >= width then |s| else width
    ensures r[|r| - |s|..] == s
    ensures forall i | 0 <= i < |r| - |s| :: r[i] == fill
  {
    if |s| >= width then s else Repeat(fill, width - |s|) + s
  }

  /** A padded string is its fill characters followed by the original. */
  lemma PadStartIsRepeat(s: string, width: nat, fill: char)
    ensures var r := PadStart(s, width, fill);
      r == Repeat(fill, |r| - |s|) + s
  {
    var r := PadStart(s, width, fill);
    assert r[..|r| - |s|] == Repeat(fill, |r| - |s|);
    assert r == r[..|r| - |s|] + r[|r| - |s|..];
  }

  lemma Pow10Three()
    ensures Pow10(3) == 1000
  {
    assert Pow10(1) == 10;
    assert Pow10(2) == 100;
  }
}

=== FILE: dispatch_history.dfy ===
/** The dispatch history: the paged listing of dispatches and the
    per-dispatch report, one row per scanned unit. */
module DispatchHistory {
  import opened Wrappers
  import opened Strings
  import opened ReportRows

  /** The inclusive row range `[from, to]` requested for a page. */
  datatype Range = Range(from: int, to: int)

  /** `getDispatches` range arithmetic. */
  function PageRange(page: int, limit: int): (r: Range)
    ensures r.to - r.from + 1 == limit
    ensures page == 1 ==> r.from == 0
    ensures r.from == (page - 1) * limit
  {
    var from := (page - 1) * limit;
    Range(from, from + limit - 1)
  }

  /** Consecutive pages are contiguous and do not overlap. */
  lemma PagesContiguous(page: int, limit: int)
    ensures PageRange(page, limit).to + 1 == PageRange(page + 1, limit).from
  {
  }

  /** The rows `.range(from, to)` selects from the ordered, filtered
      listing: those at positions `from` to `to`, clipped to its end. */
  function Window<T>(all: seq<T>, r: Range): (rows: seq<T>)
    requires 0 <= r.from
    ensures |rows| <= if r.to < r.from then 0 else r.to - r.from + 1
    ensures forall i | 0 <= i < |rows| :: r.from + i < |all| && rows[i] == all[r.from + i]
  {
    if r.from >= |all| || r.to < r.from then []
    else if r.to + 1 <= |all| then all[r.from..r.to + 1]
    else all[r.from..]
  }

  /** The first `k` dispatches, or all of them when there are fewer. */
  function Prefix<T>(all: seq<T>, k: nat): (p: seq<T>)
    ensures |p| == if k <= |all| then k else |all|
    ensures p <= all
  {
    all[..if k <= |all| then k else |all|]
  }

  /** Pages `1..n` of size `limit`, read one after the other, list the
      first `n * limit` dispatches with none skipped or repeated. */
  lemma {:induction false} PagesCover<T>(all: seq<T>, limit: nat, n: nat)
    requires limit >= 1
    ensures Pages(all, limit, n) == Prefix(all, n * limit)
  {
    if n > 0 {
      PagesCover(all, limit, n - 1);
      var from := (n - 1) * limit;
      MulPred(n, limit);
      assert PageRange(n, limit) == Range(from, from + limit - 1);
      WindowExtends(all, from, limit);
    }
  }

  lemma MulPred(n: nat, limit: nat)
    requires n > 0
    ensures n * limit == (n - 1) * limit + limit
  {
  }

  /** The window of `limit` rows from `from` continues the first `from`
      rows to the first `from + limit`. */
  lemma WindowExtends<T>(all: seq<T>, from: nat, limit: nat)
    requires limit >= 1
    ensures Prefix(all, from) + Window(all, Range(from, from + limit - 1)) == Prefix(all, from + limit)
  {
    var lo := if from <= |all| then from else |all|;
    var hi := if from + limit <= |all| then from + limit else |all|;
    assert Window(all, Range(from, from + limit - 1)) == all[lo..hi];
    assert all[..lo] + all[lo..hi] == all[..hi];
  }

  /** Pages `1..n`, concatenated. */
  function Pages<T>(all: seq<T>, limit: nat, n: nat): seq<T>
    requires limit >= 1
  {
    if n == 0 then []
    else
      assert PageRange(n, limit).from >= 0 by {
        assert (n - 1) * limit >= 0;
      }
      Pages(all, limit, n - 1) + Window(all, PageRange(n, limit))
  }

  /** What the listing query returns: an error, or the page and the exact
      count, which may be null. */
  datatype Listing<T> = ListingFailed(message: string) | Listed(data: seq<T>, count: Option<nat>)

  /** `getDispatches`: on error an empty page with count 0; otherwise the
      page and `count || 0`. */
  function GetDispatches<T>(q: Listing<T>): (r: (seq<T>, nat))
    ensures q.ListingFailed? ==> r == ([], 0)
    ensures q.Listed? ==> r.0 == q.data
    ensures q.Listed? && q.count.Some? ==> r.1 == q.count.value
    ensures q.Listed? && q.count.None? ==> r.1 == 0
  {
    match q
    case ListingFailed(_) => ([], 0)
    case Listed(data, count) => (data, count.GetOr(0))
  }

  // ----- Report -----------------------------------------------------------

  /** A dispatch with its boxes and units, as the report query returns it.
      `createdAt` is the already formatted date. */
  datatype DispatchView = DispatchView(sapExitId: Option<string>, createdAt: string, kind: string, boxes: seq<BoxView>)

  /** One row of the dispatch report, in column order: ID Salida SAP,
      Fecha Despacho, Tipo Despacho, Caja, Marca, Modelo, Material, Serie
      Principal, Series Adicionales, Usuario Escaneo, Estado. Absent
      values stay absent. */
  datatype DispatchRow = DispatchRow(
    sapExitId: Option<string>, createdAt: string, kind: string, box: string,
    brand: Option<string>, model: Option<string>, material: Option<string>,
    primarySeries: string, additionalSeries: string, scannedBy: Option<string>, state: string)

  function DispatchRowOf(d: DispatchView, box: BoxView, u: UnitView): (r: DispatchRow)
    ensures r.sapExitId == d.sapExitId && r.box == box.boxNumber
    ensures r.brand == box.brandName && r.model == box.modelName && r.material == u.material
    ensures r.createdAt == d.createdAt && r.kind == d.kind
    ensures r.primarySeries != ""
    ensures r.primarySeries == PrimarySeries(u.seriesValues)
    ensures r.additionalSeries == AdditionalSeries(u.seriesValues)
    ensures r.scannedBy == NameOrEmail(u)
    ensures r.state == "VALIDADO" <==> u.isSapValidated
    ensures r.state == "MANUAL" <==> !u.isSapValidated
  {
    DispatchRow(
      d.sapExitId, d.createdAt, d.kind, box.boxNumber, box.brandName, box.modelName,
      u.material, PrimarySeries(u.seriesValues), AdditionalSeries(u.seriesValues),
      NameOrEmail(u), if u.isSapValidated then "VALIDADO" else "MANUAL")
  }

  /** `getDispatchReportData`: `None` when the dispatch could not be read,
      otherwise one row per scanned unit of its boxes. */
  function GetDispatchReportData(view: Option<DispatchView>): (r: Option<seq<DispatchRow>>)
    ensures r.None? <==> view.None?
    ensures r.Some? ==> |r.value| == UnitCount(view.value.boxes)
    ensures r.Some? ==> forall i | 0 <= i < |r.value| ::
      && r.value[i].sapExitId == view.value.sapExitId
      && r.value[i].primarySeries != ""
      && r.value[i].state in {"VALIDADO", "MANUAL"}
  {
    match view
    case None => None
    case Some(d) =>
      var row := (b, u) => DispatchRowOf(d, b, u);
      FlattenEvery(d.boxes, row, (r: DispatchRow) =>
        r.sapExitId == d.sapExitId && r.primarySeries != "" && r.state in {"VALIDADO", "MANUAL"});
      Some(Flatten(d.boxes, row))
  }

  /** The row for unit `k` of box `j` is the row that unit makes: the
      report lists the units box by box, in order. */
  lemma DispatchReportRowAt(d: DispatchView, j: nat, k: nat)
    requires j < |d.boxes| && k < |d.boxes[j].units|
    ensures var rows := GetDispatchReportData(Some(d)).value;
      var u := d.boxes[j].units[k];
      && UnitCount(d.boxes[..j]) + k < |rows|
      && rows[UnitCount(d.boxes[..j]) + k] == DispatchRowOf(d, d.boxes[j], u)
  {
    FlattenAt(d.boxes, (b, u) => DispatchRowOf(d, b, u), j, k);
  }
}

=== FILE: global_report.dfy ===
/** The global series report dialog: filter choice by id, the query
    filters by name, and the rows of the workbook. */
module GlobalReport {
  import opened Wrappers
  import opened Strings
  import opened ReportFilters

  datatype BrandOption = BrandOption(id: string, name: string)

  /** The dialog's selections; `all` means no filter. */
  datatype Choice = Choice(brand: string, model: string, material: string)

  /** What the report query is asked for; names, not ids. */
  datatype Filters = Filters(brand: Option<string>, model: Option<string>, material: Option<string>)

  /** `options.find(o => o.id === id)?.name`: the name of the first option
      with that id, by the option's id and name accessors. */
  function NameOf<T>(options: seq<T>, id: string, key: T -> string, name: T -> string): (r: Option<string>)
    ensures r.Some? ==> exists i | 0 <= i < |options| :: key(options[i]) == id && name(options[i]) == r.value
    ensures r.None? <==> forall i | 0 <= i < |options| :: key(options[i]) != id
  {
    if |options| == 0 then None
    else if key(options[0]) == id then Some(name(options[0]))
    else NameOf(options[1..], id, key, name)
  }

  const BrandKey: BrandOption -> string := (b: BrandOption) => b.id
  const BrandLabel: BrandOption -> string := (b: BrandOption) => b.name
  const ModelKey: ModelOption -> string := (m: ModelOption) => m.id
  const ModelLabel: ModelOption -> string := (m: ModelOption) => m.name

  function BrandName(brands: seq<BrandOption>, id: string): Option<string> {
    NameOf(brands, id, BrandKey, BrandLabel)
  }

  function ModelName(models: seq<ModelOption>, id: string): Option<string> {
    NameOf(models, id, ModelKey, ModelLabel)
  }

  /** The filters `handleDownload` sends. */
  function FiltersOf(c: Choice, brands: seq<BrandOption>, models: seq<ModelOption>): (f: Filters)
    ensures c.brand == All ==> f.brand.None?
    ensures c.model == All ==> f.model.None?
    ensures c.material == All <==> f.material.None?
    ensures c.material != All ==> f.material == Some(c.material)
    ensures c.brand != All ==> f.brand == BrandName(brands, c.brand)
    ensures c.model != All ==> f.model == ModelName(models, c.model)
  {
    Filters(
      if c.brand != All then BrandName(brands, c.brand) else None,
      if c.model != All then ModelName(models, c.model) else None,
      if c.material != All then Some(c.material) else None)
  }

  /** A chosen brand whose id is not among the options sends no brand
      filter at all, the same as choosing `all`. */
  lemma UnknownBrandIsNoFilter(c: Choice, brands: seq<BrandOption>, models: seq<ModelOption>)
    requires forall i | 0 <= i < |brands| :: brands[i].id != c.brand
    ensures FiltersOf(c, brands, models) == FiltersOf(c.(brand := All), brands, models)
  {
  }

  /** The brand select: a new brand resets the model to `all`. */
  function ChooseBrand(c: Choice, brand: string): (r: Choice)
    ensures r.brand == brand && r.model == All && r.material == c.material
  {
    c.(brand := brand, model := All)
  }

  /** After a brand change the model filter is gone, and the models
      offered are those of the new brand. */
  lemma ChooseBrandClearsModel(c: Choice, brand: string, brands: seq<BrandOption>, models: seq<ModelOption>)
    requires brand != "" && brand != All
    ensures FiltersOf(ChooseBrand(c, brand), brands, models).model.None?
    ensures forall m :: m in FilteredModels(models, ChooseBrand(c, brand).brand) <==> m in models && m.brandId == brand
  {
  }

  /** One record of the global series query. */
  datatype SeriesItem = SeriesItem(
    createdAt: string, series: string, boxNumber: Option<string>, brand: Option<string>,
    model: Option<string>, material: Option<string>, userName: Option<string>, userEmail: Option<string>)

  /** A workbook row, in column order: Fecha de Registro, Serie, Caja,
      Marca, Modelo, Material, Usuario. */
  datatype GlobalRow = GlobalRow(
    createdAt: string, series: string, box: string, brand: string, model: string, material: string, user: string)

  /** A missing value is an empty cell; the user is the name, else the
      e-mail. */
  function GlobalRowOf(item: SeriesItem): (r: GlobalRow)
    ensures r.series == item.series
    ensures r.createdAt == item.createdAt
    ensures r.box == OrElse(item.boxNumber, "")
    ensures r.brand == OrElse(item.brand, "") && r.model == OrElse(item.model, "")
    ensures r.material == OrElse(item.material, "")
    ensures Truthy(item.userName) ==> r.user == item.userName.value
    ensures !Truthy(item.userName) ==> r.user == OrElse(item.userEmail, "")
  {
    GlobalRow(
      item.createdAt, item.series, OrElse(item.boxNumber, ""), OrElse(item.brand, ""),
      OrElse(item.model, ""), OrElse(item.material, ""),
      OrElse(item.userName, OrElse(item.userEmail, "")))
  }

  /** `handleDownload` after the query: `None` (no workbook, an alert) for
      a null or empty result, otherwise one row per record. */
  function GlobalWorkbook(data: Option<seq<SeriesItem>>): (r: Option<seq<GlobalRow>>)
    ensures r.None? <==> data.None? || |data.value| == 0
    ensures r.Some? ==> |r.value| == |data.value|
    ensures r.Some? ==> forall i | 0 <= i < |r.value| :: r.value[i].series == data.value[i].series
    ensures r.Some? ==> forall i | 0 <= i < |r.value| :: r.value[i] == GlobalRowOf(data.value[i])
  {
    if data.None? || |data.value| == 0 then None
    else Some(seq(|data.value|, i requires 0 <= i < |data.value| => GlobalRowOf(data.value[i])))
  }
}

=== FILE: jsmap.dfy ===
/** JavaScript's `Map`: an insertion-ordered association list.
    `set` on a present key replaces its value in place (the key keeps its
    position); on a new key it appends. `new Map(entries)` is a left fold
    of `set`, so a key sits where it first occurred and carries the value
    it was last given. */
module JsMap {
  import opened Wrappers

  ghost predicate DistinctKeys<K, V>(m: seq<(K, V)>) {
    forall i, j | 0 <= i < j < |m| :: m[i].0 != m[j].0
  }

  function Keys<K, V>(m: seq<(K, V)>): (ks: seq<K>)
    ensures |ks| == |m|
    ensures forall i | 0 <= i < |m| :: ks[i] == m[i].0
  {
    if |m| == 0 then [] else Keys(m[..|m| - 1]) + [m[|m| - 1].0]
  }

  /** `Array.from(map.values())`. */
  function Values<K, V>(m: seq<(K, V)>): (vs: seq<V>)
    ensures |vs| == |m|
    ensures forall i | 0 <= i < |m| :: vs[i] == m[i].1
  {
    if |m| == 0 then [] else Values(m[..|m| - 1]) + [m[|m| - 1].1]
  }

  /** Position of key `k`, if present. */
  function IndexOf<K(==), V>(m: seq<(K, V)>, k: K): (r: Option<nat>)
    ensures r.Some? ==> r.value < |m| && m[r.value].0 == k
    ensures r.None? <==> forall j | 0 <= j < |m| :: m[j].0 != k
  {
    if |m| == 0 then None
    else if m[0].0 == k then Some(0)
    else match IndexOf(m[1..], k)
      case None => None
      case Some(i) => Some(i + 1)
  }

  /** `map.get(k)`. */
  function Get<K(==), V>(m: seq<(K, V)>, k: K): (r: Option<V>)
    ensures r.Some? <==> k in Keys(m)
    ensures DistinctKeys(m) ==> forall i | 0 <= i < |m| && m[i].0 == k :: r == Some(m[i].1)
  {
    match IndexOf(m, k)
    case None => None
    case Some(i) => Some(m[i].1)
  }

  /** `map.set(k, v)`. */
  function Set<K(==,!new), V>(m: seq<(K, V)>, k: K, v: V): (r: seq<(K, V)>)
    ensures DistinctKeys(m) ==> DistinctKeys(r)
    ensures DistinctKeys(m) ==> Get(r, k) == Some(v)
    ensures forall k' | k' != k :: Get(r, k') == Get(m, k')
    ensures Keys(r) == if k in Keys(m) then Keys(m) else Keys(m) + [k]
    ensures forall i | 0 <= i < |r| :: r[i] in m || r[i] == (k, v)
  {
    match IndexOf(m, k)
    case None =>
      SetAppends(m, k, v);
      m + [(k, v)]
    case Some(i) =>
      SetReplaces(m, i, k, v);
      m[i := (k, v)]
  }

  lemma SetAppends<K(!new), V>(m: seq<(K, V)>, k: K, v: V)
    requires IndexOf(m, k).None?
    ensures var r := m + [(k, v)];
      && (DistinctKeys(m) ==> DistinctKeys(r))
      && Get(r, k) == Some(v)
      && (forall k' | k' != k :: Get(r, k') == Get(m, k'))
      && k !in Keys(m) && Keys(r) == Keys(m) + [k]
  {
    var r := m + [(k, v)];
    assert Keys(r)[..|m|] == Keys(m);
    assert Keys(r) == Keys(m) + [k];
    forall k' | k' != k ensures IndexOf(r, k') == IndexOf(m, k') {
      IndexOfAppend(m, k', (k, v));
    }
  }

  lemma SetReplaces<K(!new), V>(m: seq<(K, V)>, i: nat, k: K, v: V)
    requires IndexOf(m, k) == Some(i)
    ensures var r := m[i := (k, v)];
      && (DistinctKeys(m) ==> DistinctKeys(r))
      && (DistinctKeys(m) ==> Get(r, k) == Some(v))
      && (forall k' | k' != k :: Get(r, k') == Get(m, k'))
      && k in Keys(m) && Keys(r) == Keys(m)
  {
    var r := m[i := (k, v)];
    assert Keys(r) == Keys(m);
    assert Keys(m)[i] == k;
    forall k' | k' != k ensures IndexOf(r, k') == IndexOf(m, k') {
      IndexOfUpdate(m, i, k', (k, v));
    }
  }

  lemma {:induction false} IndexOfAppend<K, V>(m: seq<(K, V)>, k: K, e: (K, V))
    requires e.0 != k
    ensures IndexOf(m + [e], k) == IndexOf(m, k)
    decreases |m|
  {
    if |m| > 0 {
      assert (m + [e])[1..] == m[1..] + [e];
      IndexOfAppend(m[1..], k, e);
    }
  }

  lemma {:induction false} IndexOfUpdate<K, V>(m: seq<(K, V)>, i: nat, k: K, e: (K, V))
    requires i < |m| && e.0 == m[i].0 && e.0 != k
    ensures IndexOf(m[i := e], k) == IndexOf(m, k)
    decreases |m|
  {
    if |m| > 0 && i > 0 {
      assert m[i := e][1..] == m[1..][i - 1 := e];
      IndexOfUpdate(m[1..], i - 1, k, e);
    }
  }

  /** `new Map(entries)`. */
  function FromEntries<K(==,!new), V>(es: seq<(K, V)>): (r: seq<(K, V)>)
    ensures DistinctKeys(r)
    ensures |r| <= |es|
    ensures forall i | 0 <= i < |r| :: r[i] in es
  {
    if |es| == 0 then []
    else
      var prev := FromEntries(es[..|es| - 1]);
      var e := es[|es| - 1];
      var r := Set(prev, e.0, e.1);
      assert |r| == |Keys(r)| <= |prev| + 1;
      assert forall i | 0 <= i < |r| :: r[i] in es by {
        forall i | 0 <= i < |r| ensures r[i] in es {
          if r[i] != e {
            assert r[i] in prev;
            assert r[i] in es[..|es| - 1];
          }
        }
      }
      r
  }

  /** Reference definition: the keys in order of first occurrence. */
  function FirstOccurrences<K(==,!new)>(ks: seq<K>): (d: seq<K>)
    ensures forall x :: x in d <==> x in ks
    ensures |d| <= |ks|
    ensures forall i, j | 0 <= i < j < |d| :: d[i] != d[j]
  {
    if |ks| == 0 then []
    else
      var d := FirstOccurrences(ks[..|ks| - 1]);
      var x := ks[|ks| - 1];
      assert forall y :: y in ks <==> y in ks[..|ks| - 1] || y == x by {
        assert ks == ks[..|ks| - 1] + [x];
      }
      if x in d then d else d + [x]
  }

  /** Reference definition: the value the last entry with key `k` carries. */
  function LastValue<K(==), V>(es: seq<(K, V)>, k: K): Option<V> {
    if |es| == 0 then None
    else if es[|es| - 1].0 == k then Some(es[|es| - 1].1)
    else LastValue(es[..|es| - 1], k)
  }

  /** The keys of `new Map(entries)` are the entry keys in order of first
      occurrence. */
  lemma {:induction false} FromEntriesKeys<K(!new), V>(es: seq<(K, V)>)
    ensures Keys(FromEntries(es)) == FirstOccurrences(Keys(es))
    decreases |es|
  {
    if |es| > 0 {
      var init := es[..|es| - 1];
      FromEntriesKeys(init);
      assert Keys(es)[..|es| - 1] == Keys(init);
    }
  }

  /** The value `new Map(entries)` holds for a key is the last value given
      to it, and a key never given is absent. */
  lemma {:induction false} FromEntriesGet<K(!new), V>(es: seq<(K, V)>, k: K)
    ensures Get(FromEntries(es), k) == LastValue(es, k)
    decreases |es|
  {
    if |es| > 0 {
      FromEntriesGet(es[..|es| - 1], k);
    }
  }
}

=== FILE: model_editor.dfy ===
/** The series-field editor of the model configuration dialog: a list of
    one to four fields, each with a client-side id, and the call the save
    button makes. */
module ModelEditor {
  import opened Wrappers
  import opened Strings
  import opened Decimal
  import opened Store

  /** One row of the editor. `id` only identifies the row on the client. */
  datatype SeriesField = SeriesField(id: string, name: string, required: bool, length: Option<int>)

  /** The single required field the editor starts from and returns to. */
  const InitialFields: seq<SeriesField> := [SeriesField("1", "Serie Principal", true, None)]

  const MaxFields := 4

  predicate DistinctIds(fields: seq<SeriesField>) {
    forall i, j | 0 <= i < j < |fields| :: fields[i].id != fields[j].id
  }

  /** What the editor keeps true: one to four rows with distinct ids. */
  predicate EditorInvariant(fields: seq<SeriesField>) {
    1 <= |fields| <= MaxFields && DistinctIds(fields)
  }

  // ----- Add ------------------------------------------------------------------

  /** `addField`: at four rows or more nothing happens; otherwise one
      optional row named after its position is appended. `freshId` stands
      for the random id the client draws. */
  function AddField(fields: seq<SeriesField>, freshId: string): (r: seq<SeriesField>)
    ensures |fields| >= MaxFields ==> r == fields
    ensures |fields| < MaxFields ==>
      && |r| == |fields| + 1
      && r[..|fields|] == fields
      && r[|fields|] == SeriesField(freshId, "Serie " + NatToString(|fields| + 1), false, None)
    ensures |r| <= MaxFields || r == fields
  {
    if |fields| >= MaxFields then fields
    else fields + [SeriesField(freshId, "Serie " + NatToString(|fields| + 1), false, None)]
  }

  // ----- Remove ---------------------------------------------------------------

  /** `fields.filter(f => f.id !== id)`. */
  function WithoutId(fields: seq<SeriesField>, id: string): (r: seq<SeriesField>)
    ensures |r| <= |fields|
    ensures forall f :: f in r <==> f in fields && f.id != id
    decreases |fields|
  {
    if |fields| == 0 then []
    else
      var rest := WithoutId(fields[1..], id);
      assert forall f :: f in fields <==> f == fields[0] || f in fields[1..] by {
        assert fields == [fields[0]] + fields[1..];
      }
      if fields[0].id == id then rest else [fields[0]] + rest
  }

  /** `removeField`: a single remaining row is never removed. */
  function RemoveField(fields: seq<SeriesField>, id: string): (r: seq<SeriesField>)
    ensures |fields| <= 1 ==> r == fields
    ensures |fields| > 1 ==> forall f :: f in r <==> f in fields && f.id != id
  {
    if |fields| <= 1 then fields else WithoutId(fields, id)
  }

  /** Filtering out an id no row has changes nothing. */
  lemma {:induction false} WithoutAbsentId(fields: seq<SeriesField>, id: string)
    requires forall i | 0 <= i < |fields| :: fields[i].id != id
    ensures WithoutId(fields, id) == fields
    decreases |fields|
  {
    if |fields| > 0 {
      WithoutAbsentId(fields[1..], id);
      assert [fields[0]] + fields[1..] == fields;
    }
  }

  /** With distinct ids, removing the id of row `i` drops exactly that row
      and keeps the others in order. */
  lemma {:induction false} WithoutDistinctId(fields: seq<SeriesField>, i: nat)
    requires DistinctIds(fields) && i < |fields|
    ensures WithoutId(fields, fields[i].id) == fields[..i] + fields[i + 1..]
    decreases |fields|
  {
    var id := fields[i].id;
    var tail := fields[1..];
    TailDistinct(fields);
    if i == 0 {
      WithoutAbsentId(tail, id);
    } else {
      assert tail[i - 1] == fields[i];
      WithoutDistinctId(tail, i - 1);
      assert WithoutId(fields, id) == [fields[0]] + WithoutId(tail, id);
      SpliceCons(fields, i);
    }
  }

  /** The rows after the first keep distinct ids, none of them the
      first row's. */
  lemma TailDistinct(fields: seq<SeriesField>)
    requires DistinctIds(fields) && |fields| > 0
    ensures DistinctIds(fields[1..])
    ensures forall j | 0 <= j < |fields[1..]| :: fields[1..][j].id != fields[0].id
  {
    var tail := fields[1..];
    forall a, b | 0 <= a < b < |tail| ensures tail[a].id != tail[b].id {
      assert tail[a] == fields[a + 1] && tail[b] == fields[b + 1];
    }
    forall j | 0 <= j < |tail| ensures tail[j].id != fields[0].id {
      assert tail[j] == fields[j + 1];
    }
  }

  lemma SpliceCons<T>(s: seq<T>, i: nat)
    requires 0 < i < |s|
    ensures s[..i] + s[i + 1..] == [s[0]] + (s[1..][..i - 1] + s[1..][i..])
  {
    assert s[..i] == [s[0]] + s[1..][..i - 1];
    assert s[i + 1..] == s[1..][i..];
  }

  // ----- Update ---------------------------------------------------------------

  /** The one key `updateField` sets: the name, the length (a cleared box
      gives `undefined`), or the required flag. */
  datatype FieldUpdate = SetName(name: string) | SetLength(length: Option<int>) | SetRequired(required: bool)

  function ApplyUpdate(f: SeriesField, u: FieldUpdate): (g: SeriesField)
    ensures g.id == f.id
  {
    match u
    case SetName(n) => f.(name := n)
    case SetLength(l) => f.(length := l)
    case SetRequired(b) => f.(required := b)
  }

  /** `updateField`: every row with the id gets the new value under the
      one key; all other rows, and the order, are kept. */
  function UpdateField(fields: seq<SeriesField>, id: string, u: FieldUpdate): (r: seq<SeriesField>)
    ensures |r| == |fields|
    ensures forall i | 0 <= i < |fields| :: r[i].id == fields[i].id
    ensures forall i | 0 <= i < |fields| && fields[i].id != id :: r[i] == fields[i]
    ensures forall i | 0 <= i < |fields| && fields[i].id == id :: r[i] == ApplyUpdate(fields[i], u)
  {
    seq(|fields|, i requires 0 <= i < |fields| => if fields[i].id == id then ApplyUpdate(fields[i], u) else fields[i])
  }

  // ----- The invariant --------------------------------------------------------

  /** Adding a row under a fresh id keeps one to four rows with distinct
      ids. */
  lemma AddKeepsInvariant(fields: seq<SeriesField>, freshId: string)
    requires EditorInvariant(fields)
    requires forall i | 0 <= i < |fields| :: fields[i].id != freshId
    ensures EditorInvariant(AddField(fields, freshId))
  {
    var r := AddField(fields, freshId);
    if |fields| < MaxFields {
      forall i, j | 0 <= i < j < |r| ensures r[i].id != r[j].id {
        if j < |fields| {
          assert r[i] == fields[i] && r[j] == fields[j];
        } else {
          assert r[i] == fields[i];
        }
      }
    }
  }

  /** Removing a row keeps one to four rows with distinct ids: with
      distinct ids at most one row goes, and never the last one. */
  lemma RemoveKeepsInvariant(fields: seq<SeriesField>, id: string)
    requires EditorInvariant(fields)
    ensures EditorInvariant(RemoveField(fields, id))
    ensures |RemoveField(fields, id)| >= |fields| - 1
  {
    if |fields| > 1 {
      if i :| 0 <= i < |fields| && fields[i].id == id {
        WithoutDistinctId(fields, i);
        DropKeepsDistinct(fields, i);
      } else {
        WithoutAbsentId(fields, id);
      }
    }
  }

  lemma DropKeepsDistinct(fields: seq<SeriesField>, i: nat)
    requires DistinctIds(fields) && i < |fields|
    ensures DistinctIds(fields[..i] + fields[i + 1..])
  {
    var r := fields[..i] + fields[i + 1..];
    forall a, b | 0 <= a < b < |r| ensures r[a].id != r[b].id {
      var a' := if a < i then a else a + 1;
      var b' := if b < i then b else b + 1;
      assert r[a] == fields[a'] && r[b] == fields[b'];
    }
  }

  /** Editing a row keeps one to four rows with distinct ids. */
  lemma UpdateKeepsInvariant(fields: seq<SeriesField>, id: string, u: FieldUpdate)
    requires EditorInvariant(fields)
    ensures EditorInvariant(UpdateField(fields, id, u))
  {
  }

  /** The starting list satisfies the invariant. */
  lemma InitialInvariant()
    ensures EditorInvariant(InitialFields)
    ensures |InitialFields| == 1 && InitialFields[0].required && InitialFields[0].name == "Serie Principal"
  {
  }

  // ----- Saving ---------------------------------------------------------------

  /** `f.length ? Number(f.length) : null`: 0 and a missing length both
      become null. */
  function CleanLength(l: Option<int>): (c: Option<int>)
    ensures c.Some? <==> l.Some? && l.value != 0
    ensures c.Some? ==> c == l
  {
    if l.Some? && l.value != 0 then l else None
  }

  /** `cleanFields`: the rows without their ids, in order. */
  function CleanFields(fields: seq<SeriesField>): (r: seq<FieldConfig>)
    ensures |r| == |fields|
    ensures forall i | 0 <= i < |fields| ::
      r[i].name == fields[i].name && r[i].required == fields[i].required && r[i].length == CleanLength(fields[i].length)
  {
    seq(|fields|, i requires 0 <= i < |fields| => FieldConfig(fields[i].name, fields[i].required, CleanLength(fields[i].length)))
  }

  /** The rows the dialog opens with for an existing model: its stored
      configuration with ids `"0"`, `"1"`, … by position. */
  function FieldsFromConfig(config: seq<FieldConfig>): (r: seq<SeriesField>)
    ensures |r| == |config|
    ensures DistinctIds(r)
    ensures forall i | 0 <= i < |config| ::
      r[i].name == config[i].name && r[i].required == config[i].required && r[i].length == config[i].length
  {
    var r := seq(|config|, i requires 0 <= i < |config| => SeriesField(NatToString(i), config[i].name, config[i].required, config[i].length));
    assert DistinctIds(r) by {
      forall i, j | 0 <= i < j < |r| ensures r[i].id != r[j].id {
        NatToStringInjective(i, j);
      }
    }
    r
  }

  /** Opening a stored model and saving it untouched stores the same
      configuration again, unless some length was stored as 0. */
  lemma ConfigRoundTrip(config: seq<FieldConfig>)
    requires forall i | 0 <= i < |config| :: config[i].length != Some(0)
    ensures CleanFields(FieldsFromConfig(config)) == config
  {
    var r := CleanFields(FieldsFromConfig(config));
    assert forall i | 0 <= i < |config| :: r[i] == config[i];
  }

  /** What the dialog holds between opening and saving. */
  datatype Editor = Editor(editingId: Option<string>, brand: string, modelName: string, fields: seq<SeriesField>)

  /** `handleOpenDialog`: an existing model `(id, model)` or a blank form. */
  function OpenDialog(existing: Option<(Id, Model)>): (e: Editor)
    ensures existing.None? ==> e == Editor(None, "", "", InitialFields)
    ensures existing.Some? ==>
      && e.editingId == Some(existing.value.0)
      && e.brand == existing.value.1.brandId
      && e.modelName == existing.value.1.name
      && |e.fields| == |existing.value.1.seriesConfig|
      && DistinctIds(e.fields)
  {
    match existing
    case None => Editor(None, "", "", InitialFields)
    case Some((id, m)) => Editor(Some(id), m.brandId, m.name, FieldsFromConfig(m.seriesConfig))
  }

  /** The server call `handleSave` makes, if any. */
  datatype SaveCall =
    | NoCall
    | CallCreate(brandId: Id, name: string, config: seq<FieldConfig>)
    | CallUpdate(modelId: Id, brandId: Id, name: string, config: seq<FieldConfig>)

  /** `handleSave`: nothing without a brand and a model name; otherwise
      an update when an edited model's id is set, else a create. */
  function Save(e: Editor): (c: SaveCall)
    ensures c.NoCall? <==> e.brand == "" || e.modelName == ""
    ensures c.CallUpdate? <==> e.brand != "" && e.modelName != "" && Truthy(e.editingId)
    ensures c.CallUpdate? ==> c.modelId == e.editingId.value
    ensures !c.NoCall? ==> c.brandId == e.brand && c.name == e.modelName && c.config == CleanFields(e.fields)
  {
    if e.brand == "" || e.modelName == "" then NoCall
    else if Truthy(e.editingId) then CallUpdate(e.editingId.value, e.brand, e.modelName, CleanFields(e.fields))
    else CallCreate(e.brand, e.modelName, CleanFields(e.fields))
  }

  /** The form a successful save leaves: not editing, no model name, the
      single initial row. The brand selection is kept. */
  function AfterSave(e: Editor): (r: Editor)
    ensures r.editingId.None? && r.modelName == "" && r.fields == InitialFields
    ensures r.brand == e.brand
  {
    Editor(None, e.brand, "", InitialFields)
  }

  /** Opening a stored model and saving at once sends an update of that
      model with its own brand, name and (lengths of 0 aside)
      configuration; a blank form sends nothing. */
  lemma OpenThenSave(id: Id, m: Model)
    requires id != "" && m.brandId != "" && m.name != ""
    requires forall i | 0 <= i < |m.seriesConfig| :: m.seriesConfig[i].length != Some(0)
    ensures Save(OpenDialog(Some((id, m)))) == CallUpdate(id, m.brandId, m.name, m.seriesConfig)
    ensures Save(OpenDialog(None)) == NoCall
  {
    ConfigRoundTrip(m.seriesConfig);
  }
}

=== FILE: pagination.dfy ===
/** The pager under the history and report tables. */
module Pagination {
  import opened Wrappers
  import opened Decimal
  import SearchParams

  /** What the pager was given. */
  datatype Pager = Pager(totalPages: int, currentPage: int, totalRecords: int, pageSize: int)

  /** `createPageURL`: the current query with `page` set, every other
      parameter kept. */
  function PageParams(current: SearchParams.Params, page: int): (r: SearchParams.Params)
    ensures SearchParams.Get(r, "page") == Some(IntToString(page))
    ensures SearchParams.GetAll(r, "page") == [IntToString(page)]
    ensures forall other | other != "page" :: SearchParams.GetAll(r, other) == SearchParams.GetAll(current, other)
  {
    SearchParams.Set(current, "page", IntToString(page))
  }

  /** `handlePageChange`: the query navigated to, or `None` when the page
      is outside `[1, totalPages]`. */
  function PageChange(p: Pager, current: SearchParams.Params, page: int): (r: Option<SearchParams.Params>)
    ensures r.Some? <==> 1 <= page <= p.totalPages
    ensures r.Some? ==> SearchParams.Get(r.value, "page") == Some(IntToString(page))
  {
    if page < 1 || page > p.totalPages then None
    else Some(PageParams(current, page))
  }

  /** `startRecord`: the first record of the current page, counting
      from 1. */
  function StartRecord(p: Pager): (s: int)
    ensures p.currentPage == 1 ==> s == 1
    ensures p.currentPage >= 1 && p.pageSize >= 0 ==> s >= 1
  {
    (p.currentPage - 1) * p.pageSize + 1
  }

  /** `Math.min(currentPage * pageSize, totalRecords)`. */
  function EndRecord(p: Pager): (e: int)
    ensures e <= p.currentPage * p.pageSize && e <= p.totalRecords
    ensures e == p.currentPage * p.pageSize || e == p.totalRecords
  {
    if p.currentPage * p.pageSize <= p.totalRecords then p.currentPage * p.pageSize else p.totalRecords
  }

  /** The page count the history page computes: `ceil(total / pageSize)`. */
  function PageCount(total: nat, pageSize: nat): (n: nat)
    requires pageSize >= 1
    ensures (n - 1) * pageSize < total <= n * pageSize || (n == 0 && total == 0)
  {
    (total + pageSize - 1) / pageSize
  }

  /** On a page that exists the caption runs forward and spans at least
      one and at most `pageSize` records, the last page holding the
      remainder. */
  lemma CaptionInRange(total: nat, pageSize: nat, page: int)
    requires pageSize >= 1 && 1 <= page <= PageCount(total, pageSize)
    ensures var p := Pager(PageCount(total, pageSize), page, total, pageSize);
      && 1 <= StartRecord(p) <= EndRecord(p) <= total
      && EndRecord(p) - StartRecord(p) + 1 <= pageSize
      && (page < PageCount(total, pageSize) ==> EndRecord(p) - StartRecord(p) + 1 == pageSize)
  {
    var n := PageCount(total, pageSize);
    assert (page - 1) * pageSize <= (n - 1) * pageSize;
    assert page < n ==> page * pageSize <= (n - 1) * pageSize;
  }

  /** After a full page the next page starts right after it: no record is
      skipped or shown twice. */
  lemma NextPageStartsAfterEnd(p: Pager)
    requires p.currentPage * p.pageSize <= p.totalRecords
    ensures StartRecord(p.(currentPage := p.currentPage + 1)) == EndRecord(p) + 1
  {
  }

  /** With no records there are no pages, and the caption reads "1 to 0". */
  lemma EmptyCaption(pageSize: nat)
    requires pageSize >= 1
    ensures var p := Pager(PageCount(0, pageSize), 1, 0, pageSize);
      p.totalPages == 0 && StartRecord(p) == 1 && EndRecord(p) == 0
  {
  }

  /** The four buttons: first and previous are off exactly on page 1,
      next and last exactly on the last page. */
  datatype Buttons = Buttons(first: bool, previous: bool, next: bool, last: bool)

  function Disabled(p: Pager): (b: Buttons)
    ensures b.first <==> p.currentPage == 1
    ensures b.previous <==> p.currentPage == 1
    ensures b.next <==> p.currentPage == p.totalPages
    ensures b.last <==> p.currentPage == p.totalPages
  {
    var atStart := p.currentPage == 1;
    var atEnd := p.currentPage == p.totalPages;
    Buttons(atStart, atStart, atEnd, atEnd)
  }

  /** Within `[1, totalPages]`, an enabled previous or next button
      navigates, and a disabled one would not have. */
  lemma EnabledButtonsNavigate(p: Pager, current: SearchParams.Params)
    requires 1 <= p.currentPage <= p.totalPages
    ensures !Disabled(p).previous <==> PageChange(p, current, p.currentPage - 1).Some?
    ensures !Disabled(p).next <==> PageChange(p, current, p.currentPage + 1).Some?
  {
  }

  /** With no pages the next button stays enabled, yet pressing it does
      nothing. */
  lemma NextEnabledWithoutPages(p: Pager, current: SearchParams.Params)
    requires p.totalPages == 0 && p.currentPage == 1
    ensures !Disabled(p).next && !Disabled(p).last
    ensures PageChange(p, current, p.currentPage + 1).None?
    ensures PageChange(p, current, p.totalPages).None?
  {
  }
}

=== FILE: pallet_actions.dfy ===
/** Pallet ("tarima") server actions: creation with automatic naming,
    attaching and detaching boxes, deletion, per-pallet dispatch, and the
    per-unit pallet report. */
module PalletActions {
  import opened Wrappers
  import opened Strings
  import opened Decimal
  import opened Rbac
  import opened Store
  import opened ReportRows

  // ----- Automatic naming -------------------------------------------------

  /** `TARIMA-` followed by `count + 1` left-padded with zeros to at least
      three digits. */
  function GeneratePalletName(count: nat): (name: string)
    ensures |name| >= 10 && name[..7] == "TARIMA-"
    ensures AllDigits(name[7..]) && DigitsValue(name[7..]) == count + 1
    ensures count + 1 < 1000 <==> |name| == 10
    ensures count + 1 >= 1000 ==> name[7..] == NatToString(count + 1)
  {
    var name := "TARIMA-" + Counter(count + 1);
    assert name[..7] == "TARIMA-" && name[7..] == Counter(count + 1);
    name
  }

  /** The counter part of a generated name: `n` left-padded with zeros to
      three digits, never truncated. */
  function Counter(n: nat): (r: string)
    ensures |r| >= 3 && AllDigits(r) && DigitsValue(r) == n
    ensures n < 1000 <==> |r| == 3
    ensures n >= 1000 ==> r == NatToString(n)
  {
    PaddedCounter(n);
    PadStart(NatToString(n), 3, '0')
  }

  lemma PaddedCounter(n: nat)
    ensures var p := PadStart(NatToString(n), 3, '0');
      && AllDigits(p) && DigitsValue(p) == n
      && (n < 1000 <==> |p| == 3)
  {
    var digits := NatToString(n);
    var padded := PadStart(digits, 3, '0');
    NatToStringValue(n);
    NatToStringLength(n, 3);
    Pow10Three();
    PadStartIsRepeat(digits, 3, '0');
    LeadingZerosValue(|padded| - |digits|, digits);
  }

  /** Different pallet counts never produce the same generated name. */
  lemma GeneratedNamesDistinct(a: nat, b: nat)
    requires a != b
    ensures GeneratePalletName(a) != GeneratePalletName(b)
  {
  }

  /** The name `createPallet` stores: the trimmed argument, or the
      generated name when the trimmed argument is empty. */
  function ChosenPalletName(name: string, count: nat): (r: string)
    ensures r != "" && IsTrimmed(r)
    ensures Trim(name) != "" ==> r == Trim(name)
    ensures Trim(name) == "" ==> r == GeneratePalletName(count)
  {
    if Trim(name) != "" then Trim(name)
    else
      GeneratedNameTrimmed(count);
      GeneratePalletName(count)
  }

  lemma GeneratedNameTrimmed(count: nat)
    ensures IsTrimmed(GeneratePalletName(count))
  {
    var g := GeneratePalletName(count);
    assert g[0] == 'T' by {
      assert g[0] == g[..7][0];
    }
    var digits := g[7..];
    assert g[|g| - 1] == digits[|digits| - 1];
    DigitNotSpace(digits[|digits| - 1]);
  }

  lemma DigitNotSpace(c: char)
    requires IsDigit(c)
    ensures !IsSpace(c)
  {
  }

  // ----- Create -----------------------------------------------------------

  /** `createPallet`. `newId` is the key the database assigns. `count` is
      what the unchecked pallet count query returns: the number of pallets
      when it succeeds, `None` when it fails, which the naming reads as 0. */
  function CreatePallet(st: State, caller: Option<Id>, name: string, count: Option<nat>, newId: Id, dbError: Option<string>): (r: Step<Id>)
    requires newId !in st.pallets
    ensures caller.None? ==> r == Step(Err("No autenticado"), st)
    ensures caller.Some? && dbError.Some? ==> r == Step(Err(dbError.value), st)
    ensures r.reply.Ok? <==> caller.Some? && dbError.None?
    ensures r.reply.Ok? ==>
      && r.reply.value == newId
      && r.state == st.(pallets := r.state.pallets)
      && r.state.pallets.Keys == st.pallets.Keys + {newId}
      && (forall p | p in st.pallets :: r.state.pallets[p] == st.pallets[p])
      && r.state.pallets[newId].name == ChosenPalletName(name, count.GetOr(0))
      && (count == Some(|st.pallets|) ==> r.state.pallets[newId].name == ChosenPalletName(name, |st.pallets|))
      && r.state.pallets[newId].createdBy == caller.value
      && r.state.pallets[newId].dispatchId.None?
  {
    if caller.None? then Step(Err("No autenticado"), st)
    else
      var palletName := ChosenPalletName(name, count.GetOr(0));
      if dbError.Some? then Step(Err(dbError.value), st)
      else
        Step(Ok(newId), AddPallet(st, newId, Pallet(palletName, caller.value, None, None, None)))
  }

  /** The `pallets` insert: one new row, every other row and table kept. */
  function AddPallet(st: State, newId: Id, p: Pallet): (st': State)
    requires newId !in st.pallets
    ensures st' == st.(pallets := st'.pallets)
    ensures st'.pallets.Keys == st.pallets.Keys + {newId}
    ensures forall q | q in st.pallets :: st'.pallets[q] == st.pallets[q]
    ensures st'.pallets[newId] == p
  {
    st.(pallets := st.pallets[newId := p])
  }

  // ----- Box <-> pallet ---------------------------------------------------

  /** The guard of `addBoxToPallet`: the box exists, has no dispatch, and
      is on no pallet or already on this one. */
  predicate CanAttach(st: State, palletId: Id, boxId: Id) {
    && boxId in st.boxes
    && !Truthy(st.boxes[boxId].dispatchId)
    && (!Truthy(st.boxes[boxId].palletId) || st.boxes[boxId].palletId == Some(palletId))
  }

  /** `addBoxToPallet`. `readFailed` is the unchecked box query failing,
      which the source cannot tell from a missing box. */
  function AddBoxToPallet(st: State, palletId: Id, boxId: Id, readFailed: bool, dbError: Option<string>): (r: Step<()>)
    ensures readFailed || boxId !in st.boxes ==> r == Step(Err("Caja no encontrada"), st)
    ensures !readFailed && boxId in st.boxes && Truthy(st.boxes[boxId].dispatchId) ==>
      r == Step(Err("La caja ya fue despachada"), st)
    ensures (&& !readFailed && boxId in st.boxes && !Truthy(st.boxes[boxId].dispatchId)
             && Truthy(st.boxes[boxId].palletId) && st.boxes[boxId].palletId != Some(palletId)) ==>
      r == Step(Err("La caja ya está en otra tarima"), st)
    ensures r.reply.Ok? <==> !readFailed && CanAttach(st, palletId, boxId) && dbError.None?
    ensures r.reply.Err? ==> r.state == st
    ensures r.reply.Ok? ==>
      && OnlyBoxesDiffer(st, r.state)
      && BoxesFramed(st, r.state, {boxId})
      && r.state.boxes[boxId] == st.boxes[boxId].(palletId := Some(palletId))
  {
    if readFailed || boxId !in st.boxes then Step(Err("Caja no encontrada"), st)
    else
      var box := st.boxes[boxId];
      if Truthy(box.dispatchId) then Step(Err("La caja ya fue despachada"), st)
      else if Truthy(box.palletId) && box.palletId != Some(palletId) then
        Step(Err("La caja ya está en otra tarima"), st)
      else if dbError.Some? then Step(Err(dbError.value), st)
      else Step(Ok(()), st.(boxes := st.boxes[boxId := box.(palletId := Some(palletId))]))
  }

  /** Attaching a box to the pallet it is already on changes nothing but
      succeeds. */
  lemma ReattachIsIdentity(st: State, palletId: Id, boxId: Id)
    requires boxId in st.boxes && st.boxes[boxId].palletId == Some(palletId)
    requires !Truthy(st.boxes[boxId].dispatchId)
    ensures AddBoxToPallet(st, palletId, boxId, false, None) == Step(Ok(()), st)
  {
    assert st.boxes[boxId := st.boxes[boxId]] == st.boxes;
  }

  /** `removeBoxFromPallet`: clears `pallet_id` with no status guard; an
      unknown box is a successful no-op. */
  function RemoveBoxFromPallet(st: State, boxId: Id, dbError: Option<string>): (r: Step<()>)
    ensures dbError.Some? ==> r == Step(Err(dbError.value), st)
    ensures dbError.None? ==>
      && r.reply.Ok?
      && OnlyBoxesDiffer(st, r.state)
      && BoxesFramed(st, r.state, {boxId})
      && (boxId in st.boxes ==> r.state.boxes[boxId] == st.boxes[boxId].(palletId := None))
  {
    if dbError.Some? then Step(Err(dbError.value), st)
    else if boxId in st.boxes then
      Step(Ok(()), st.(boxes := st.boxes[boxId := st.boxes[boxId].(palletId := None)]))
    else Step(Ok(()), st)
  }

  /** Detaching then re-attaching an undispatched box to its former pallet
      restores the store. */
  lemma DetachThenAttach(st: State, palletId: Id, boxId: Id)
    requires boxId in st.boxes && st.boxes[boxId].palletId == Some(palletId)
    requires !Truthy(st.boxes[boxId].dispatchId)
    ensures AddBoxToPallet(RemoveBoxFromPallet(st, boxId, None).state, palletId, boxId, false, None).state == st
  {
    var s1 := RemoveBoxFromPallet(st, boxId, None).state;
    assert s1.boxes[boxId := s1.boxes[boxId].(palletId := Some(palletId))] == st.boxes;
  }

  /** Every box on `palletId` with its `pallet_id` cleared. */
  function DetachAll(boxes: map<Id, Box>, palletId: Id): (r: map<Id, Box>)
    ensures r.Keys == boxes.Keys
    ensures forall b | b in r :: r[b].palletId != Some(palletId)
    ensures forall b | b in boxes :: r[b] == if boxes[b].palletId == Some(palletId) then boxes[b].(palletId := None) else boxes[b]
  {
    map b | b in boxes :: if boxes[b].palletId == Some(palletId) then boxes[b].(palletId := None) else boxes[b]
  }

  /** `deletePallet`: detaches every box, then deletes the pallet row.
      The detach result is discarded: `detachError` is that write failing,
      which leaves the boxes attached and the delete still attempted. */
  function DeletePallet(st: State, palletId: Id, detachError: Option<string>, dbError: Option<string>): (r: Step<()>)
    ensures r.reply.Ok? <==> dbError.None?
    ensures dbError.Some? ==> r.reply == Err(dbError.value) && r.state.pallets == st.pallets
    ensures detachError.None? ==> forall b | b in r.state.boxes :: r.state.boxes[b].palletId != Some(palletId)
    ensures detachError.Some? ==> r.state.boxes == st.boxes
    ensures r.state.boxes.Keys == st.boxes.Keys
    ensures forall b | b in st.boxes ::
      r.state.boxes[b].(palletId := st.boxes[b].palletId) == st.boxes[b]
    ensures forall b | b in st.boxes && st.boxes[b].palletId != Some(palletId) ::
      r.state.boxes[b] == st.boxes[b]
    ensures dbError.None? ==> palletId !in r.state.pallets && r.state.pallets == st.pallets - {palletId}
    ensures r.state == st.(boxes := r.state.boxes, pallets := r.state.pallets)
  {
    var detached := if detachError.Some? then st else st.(boxes := DetachAll(st.boxes, palletId));
    if dbError.Some? then Step(Err(dbError.value), detached)
    else Step(Ok(()), detached.(pallets := st.pallets - {palletId}))
  }

  /** Creating a pallet and deleting it again restores the store, provided
      no box pointed at the new key beforehand. */
  lemma CreateThenDeletePallet(st: State, u: Id, name: string, newId: Id)
    requires newId !in st.pallets
    requires forall b | b in st.boxes :: st.boxes[b].palletId != Some(newId)
    ensures var c := CreatePallet(st, Some(u), name, Some(|st.pallets|), newId, None);
      c.reply == Ok(newId) && DeletePallet(c.state, newId, None, None).state == st
  {
    var c := CreatePallet(st, Some(u), name, Some(|st.pallets|), newId, None);
    DetachAbsent(c.state.boxes, newId);
    RemoveAdded(st.pallets, c.state.pallets, newId);
  }

  lemma DetachAbsent(boxes: map<Id, Box>, palletId: Id)
    requires forall b | b in boxes :: boxes[b].palletId != Some(palletId)
    ensures DetachAll(boxes, palletId) == boxes
  {
  }

  lemma RemoveAdded(m: map<Id, Pallet>, m': map<Id, Pallet>, k: Id)
    requires k !in m && m'.Keys == m.Keys + {k}
    requires forall q | q in m :: m'[q] == m[q]
    ensures m' - {k} == m
  {
  }

  // ----- Dispatch ---------------------------------------------------------

  /** Outcome of inserting one `dispatches` row: the new key, or a failure
      with an optional message. */
  datatype DispatchInsert = Inserted(id: Id) | InsertFailed(message: Option<string>)

  /** One entry of the `results` array. */
  datatype PalletResult =
    | PalletFailed(palletId: Id, error: string)
    | PalletDispatched(palletId: Id, dispatchId: Id)

  /** The database hands out distinct keys not yet in `dispatches`. */
  ghost predicate FreshInserts(st: State, inserts: seq<DispatchInsert>) {
    && (forall i | 0 <= i < |inserts| && inserts[i].Inserted? :: inserts[i].id !in st.dispatches)
    && (forall i, j | 0 <= i < j < |inserts| && inserts[i].Inserted? && inserts[j].Inserted? ::
          inserts[i].id != inserts[j].id)
  }

  /** Boxes on the pallet whose `dispatch_id` is null. */
  function PendingBoxes(st: State, palletId: Id): (s: set<Id>)
    ensures forall b :: b in s <==> b in st.boxes && st.boxes[b].palletId == Some(palletId) && st.boxes[b].dispatchId.None?
  {
    set b | b in st.boxes && st.boxes[b].palletId == Some(palletId) && st.boxes[b].dispatchId.None?
  }

  /** `notes || null`. */
  function NotesOrNull(notes: Option<string>): Option<string> {
    if Truthy(notes) then notes else None
  }

  /** Stamp the boxes of `pending` with the dispatch. */
  function StampBoxes(boxes: map<Id, Box>, pending: set<Id>, d: Id): (r: map<Id, Box>)
    ensures r.Keys == boxes.Keys
    ensures forall b | b in boxes ::
      r[b] == if b in pending then boxes[b].(dispatchId := Some(d), status := Dispatched) else boxes[b]
  {
    map b | b in boxes :: if b in pending then boxes[b].(dispatchId := Some(d), status := Dispatched) else boxes[b]
  }

  /** One iteration of the `dispatchPallets` loop. */
  function DispatchOne(st: State, user: Id, palletId: Id, sapId: string, notes: Option<string>, now: string, ins: DispatchInsert): (r: (PalletResult, State))
    requires ins.Inserted? ==> ins.id !in st.dispatches
    ensures r.0.palletId == palletId
    ensures PendingBoxes(st, palletId) == {} ==> r == (PalletFailed(palletId, "Tarima sin cajas"), st)
    ensures r.0.PalletFailed? ==> r.1 == st
    ensures r.0.PalletDispatched? <==> PendingBoxes(st, palletId) != {} && ins.Inserted?
    ensures r.0.PalletDispatched? ==>
      r.0.dispatchId == ins.id && r.1 == StampPallet(st, user, palletId, sapId, notes, now, ins.id)
  {
    var pending := PendingBoxes(st, palletId);
    if pending == {} then (PalletFailed(palletId, "Tarima sin cajas"), st)
    else match ins
      case InsertFailed(m) => (PalletFailed(palletId, OrElse(m, "Error al crear despacho")), st)
      case Inserted(d) => (PalletDispatched(palletId, d), StampPallet(st, user, palletId, sapId, notes, now, d))
  }

  /** The writes of a successful iteration: the `dispatches` row, the
      pallet's pending boxes stamped, and the pallet's dispatch columns. */
  function StampPallet(st: State, user: Id, palletId: Id, sapId: string, notes: Option<string>, now: string, d: Id): (st': State)
    ensures
      var pending := PendingBoxes(st, palletId);
      && BoxesFramed(st, st', pending)
      && (forall b | b in pending ::
            st'.boxes[b] == st.boxes[b].(dispatchId := Some(d), status := Dispatched))
      && (forall b | b in st.boxes && st.boxes[b].palletId != Some(palletId) :: st'.boxes[b] == st.boxes[b])
      && PendingBoxes(st', palletId) == {}
      && st'.dispatches == st.dispatches[d := Dispatch(sapId, "PALLET", Some(palletId), user, NotesOrNull(notes))]
      && st'.pallets.Keys == st.pallets.Keys
      && (forall p | p in st.pallets && p != palletId :: st'.pallets[p] == st.pallets[p])
      && (palletId in st.pallets ==>
            && st'.pallets[palletId].dispatchId == Some(d)
            && st'.pallets[palletId].sapExitId == Some(sapId)
            && st'.pallets[palletId].dispatchedAt == Some(now)
            && st'.pallets[palletId].name == st.pallets[palletId].name)
      && st' == st.(boxes := st'.boxes, pallets := st'.pallets, dispatches := st'.dispatches)
  {
    var pending := PendingBoxes(st, palletId);
    var dispatch := Dispatch(sapId, "PALLET", Some(palletId), user, NotesOrNull(notes));
    var boxes := StampBoxes(st.boxes, pending, d);
    var pallets :=
      if palletId in st.pallets then
        st.pallets[palletId := st.pallets[palletId].(dispatchId := Some(d), sapExitId := Some(sapId), dispatchedAt := Some(now))]
      else st.pallets;
    var st' := st.(boxes := boxes, pallets := pallets, dispatches := st.dispatches[d := dispatch]);
    assert PendingBoxes(st', palletId) == {} by {
      forall b | b in st'.boxes && st'.boxes[b].palletId == Some(palletId) ensures st'.boxes[b].dispatchId.Some? {
        assert st'.boxes[b] == if b in pending then st.boxes[b].(dispatchId := Some(d), status := Dispatched) else st.boxes[b];
      }
    }
    st'
  }

  /** What a run of the dispatch loop never undoes: no box or pallet
      appears or disappears, a box that already had a dispatch keeps its
      row, earlier dispatches stay, and the other tables are untouched. */
  ghost predicate Grows(st: State, st': State) {
    && st'.boxes.Keys == st.boxes.Keys && st'.pallets.Keys == st.pallets.Keys
    && (forall b | b in st.boxes && st.boxes[b].dispatchId.Some? :: st'.boxes[b] == st.boxes[b])
    && st.dispatches.Keys <= st'.dispatches.Keys
    && (forall d | d in st.dispatches :: st'.dispatches[d] == st.dispatches[d])
    && st'.users == st.users && st'.equipment == st.equipment && st'.models == st.models
  }

  lemma GrowsTransitive(st1: State, st2: State, st3: State)
    requires Grows(st1, st2) && Grows(st2, st3)
    ensures Grows(st1, st3)
  {
  }

  /** One iteration grows the state. */
  lemma DispatchOneGrows(st: State, user: Id, palletId: Id, sapId: string, notes: Option<string>, now: string, ins: DispatchInsert)
    requires ins.Inserted? ==> ins.id !in st.dispatches
    ensures Grows(st, DispatchOne(st, user, palletId, sapId, notes, now, ins).1)
  {
    if DispatchOne(st, user, palletId, sapId, notes, now, ins).0.PalletDispatched? {
      StampGrows(st, user, palletId, sapId, notes, now, ins.id);
    }
  }

  /** After one iteration the remaining inserted keys are still fresh. */
  lemma DispatchOneFresh(st: State, user: Id, palletId: Id, sapId: string, notes: Option<string>, now: string, inserts: seq<DispatchInsert>)
    requires |inserts| > 0 && FreshInserts(st, inserts)
    ensures FreshInserts(DispatchOne(st, user, palletId, sapId, notes, now, inserts[0]).1, inserts[1..])
  {
    var r := DispatchOne(st, user, palletId, sapId, notes, now, inserts[0]);
    if r.0.PalletDispatched? {
      FreshAfterInsert(st, inserts, r.1);
    } else {
      FreshTail(st, inserts);
    }
  }

  lemma StampGrows(st: State, user: Id, palletId: Id, sapId: string, notes: Option<string>, now: string, d: Id)
    requires d !in st.dispatches
    ensures Grows(st, StampPallet(st, user, palletId, sapId, notes, now, d))
  {
    var st' := StampPallet(st, user, palletId, sapId, notes, now, d);
    forall b | b in st.boxes && st.boxes[b].dispatchId.Some? ensures st'.boxes[b] == st.boxes[b] {
      assert b !in PendingBoxes(st, palletId);
    }
  }

  lemma FreshTail(st: State, inserts: seq<DispatchInsert>)
    requires |inserts| > 0 && FreshInserts(st, inserts)
    ensures FreshInserts(st, inserts[1..])
  {
    forall i | 0 <= i < |inserts[1..]| && inserts[1..][i].Inserted?
      ensures inserts[1..][i].id !in st.dispatches
    {
      assert inserts[1..][i] == inserts[i + 1];
    }
  }

  lemma FreshAfterInsert(st: State, inserts: seq<DispatchInsert>, st1: State)
    requires |inserts| > 0 && FreshInserts(st, inserts) && inserts[0].Inserted?
    requires st1.dispatches.Keys == st.dispatches.Keys + {inserts[0].id}
    ensures FreshInserts(st1, inserts[1..])
  {
    forall i | 0 <= i < |inserts[1..]| && inserts[1..][i].Inserted?
      ensures inserts[1..][i].id !in st1.dispatches
    {
      assert inserts[1..][i] == inserts[i + 1];
    }
  }

  /** A pallet that went out with dispatch `d`: the `dispatches` row
      names the pallet and the SAP id, no box of the pallet is left
      pending, and the pallet row, if any, carries both. */
  ghost predicate Settled(st: State, palletId: Id, d: Id, sapId: string) {
    && d in st.dispatches
    && st.dispatches[d].sapExitId == sapId && st.dispatches[d].palletId == Some(palletId)
    && PendingBoxes(st, palletId) == {}
    && (palletId in st.pallets ==>
          st.pallets[palletId].dispatchId == Some(d) && st.pallets[palletId].sapExitId == Some(sapId))
  }

  /** A later iteration, for any pallet, leaves a settled pallet settled. */
  lemma DispatchOneKeepsSettled(st: State, user: Id, q: Id, sapId: string, notes: Option<string>, now: string, ins: DispatchInsert, p: Id, d: Id, s: string)
    requires ins.Inserted? ==> ins.id !in st.dispatches
    requires Settled(st, p, d, s)
    ensures Settled(DispatchOne(st, user, q, sapId, notes, now, ins).1, p, d, s)
  {
    var (res, st') := DispatchOne(st, user, q, sapId, notes, now, ins);
    if res.PalletDispatched? {
      assert q != p;
      forall b | b in st'.boxes && st'.boxes[b].palletId == Some(p) ensures st'.boxes[b].dispatchId.Some? {
        assert st'.boxes[b] == st.boxes[b];
        assert b !in PendingBoxes(st, p);
      }
      assert PendingBoxes(st', p) == {};
    }
  }

  /** The rest of the loop leaves a settled pallet settled. */
  lemma {:induction false} DispatchEachKeepsSettled(st: State, user: Id, palletIds: seq<Id>, sapId: string, notes: Option<string>, now: string, inserts: seq<DispatchInsert>, p: Id, d: Id, s: string)
    requires |inserts| == |palletIds| && FreshInserts(st, inserts)
    requires Settled(st, p, d, s)
    ensures Settled(DispatchEach(st, user, palletIds, sapId, notes, now, inserts).1, p, d, s)
    decreases |palletIds|
  {
    if |palletIds| > 0 {
      var st1 := DispatchOne(st, user, palletIds[0], sapId, notes, now, inserts[0]).1;
      DispatchOneKeepsSettled(st, user, palletIds[0], sapId, notes, now, inserts[0], p, d, s);
      DispatchOneFresh(st, user, palletIds[0], sapId, notes, now, inserts);
      DispatchEachKeepsSettled(st1, user, palletIds[1..], sapId, notes, now, inserts[1..], p, d, s);
    }
  }

  /** The `for (const palletId of palletIds)` loop. */
  function DispatchEach(st: State, user: Id, palletIds: seq<Id>, sapId: string, notes: Option<string>, now: string, inserts: seq<DispatchInsert>): (r: (seq<PalletResult>, State))
    requires |inserts| == |palletIds| && FreshInserts(st, inserts)
    ensures |r.0| == |palletIds|
    ensures forall i | 0 <= i < |palletIds| :: r.0[i].palletId == palletIds[i]
    ensures Grows(st, r.1)
    decreases |palletIds|
  {
    if |palletIds| == 0 then ([], st)
    else
      var (res, st1) := DispatchOne(st, user, palletIds[0], sapId, notes, now, inserts[0]);
      DispatchOneGrows(st, user, palletIds[0], sapId, notes, now, inserts[0]);
      DispatchOneFresh(st, user, palletIds[0], sapId, notes, now, inserts);
      var (rest, st2) := DispatchEach(st1, user, palletIds[1..], sapId, notes, now, inserts[1..]);
      GrowsTransitive(st, st1, st2);
      ([res] + rest, st2)
  }

  /** Every pallet the loop reports dispatched is settled, with its
      dispatch id and the SAP id, when the loop ends. */
  lemma {:induction false} DispatchEachSettles(st: State, user: Id, palletIds: seq<Id>, sapId: string, notes: Option<string>, now: string, inserts: seq<DispatchInsert>)
    requires |inserts| == |palletIds| && FreshInserts(st, inserts)
    ensures var r := DispatchEach(st, user, palletIds, sapId, notes, now, inserts);
      forall i | 0 <= i < |palletIds| && r.0[i].PalletDispatched? ::
        Settled(r.1, palletIds[i], r.0[i].dispatchId, sapId)
    decreases |palletIds|
  {
    if |palletIds| > 0 {
      var (res, st1) := DispatchOne(st, user, palletIds[0], sapId, notes, now, inserts[0]);
      DispatchOneFresh(st, user, palletIds[0], sapId, notes, now, inserts);
      var (rest, st2) := DispatchEach(st1, user, palletIds[1..], sapId, notes, now, inserts[1..]);
      DispatchEachSettles(st1, user, palletIds[1..], sapId, notes, now, inserts[1..]);
      if res.PalletDispatched? {
        DispatchEachKeepsSettled(st1, user, palletIds[1..], sapId, notes, now, inserts[1..], palletIds[0], res.dispatchId, sapId);
      }
      SettledCons(res, rest, palletIds, st2, sapId);
    }
  }

  lemma SettledCons(res: PalletResult, rest: seq<PalletResult>, palletIds: seq<Id>, st: State, sapId: string)
    requires |palletIds| == |rest| + 1
    requires res.PalletDispatched? ==> Settled(st, palletIds[0], res.dispatchId, sapId)
    requires forall i | 0 <= i < |rest| && rest[i].PalletDispatched? :: Settled(st, palletIds[1..][i], rest[i].dispatchId, sapId)
    ensures forall i | 0 <= i < |palletIds| && ([res] + rest)[i].PalletDispatched? ::
      Settled(st, palletIds[i], ([res] + rest)[i].dispatchId, sapId)
  {
    forall i | 1 <= i < |palletIds| ensures ([res] + rest)[i] == rest[i - 1] && palletIds[i] == palletIds[1..][i - 1] { }
  }

  /** `dispatchPallets`: both guards run before any write; otherwise one
      result per requested pallet, in request order. The box and pallet
      updates are unchecked in the source, so they always take effect here. */
  function DispatchPallets(st: State, caller: Option<Id>, palletIds: seq<Id>, sapExitId: string, notes: Option<string>, now: string, inserts: seq<DispatchInsert>): (r: Step<seq<PalletResult>>)
    requires |inserts| == |palletIds| && FreshInserts(st, inserts)
    ensures caller.None? ==> r == Step(Err("No autenticado"), st)
    ensures caller.Some? && Trim(sapExitId) == "" ==> r == Step(Err("Se requiere ID de Salida SAP"), st)
    ensures r.reply.Ok? <==> caller.Some? && Trim(sapExitId) != ""
    ensures r.reply.Ok? ==>
      && |r.reply.value| == |palletIds|
      && (forall i | 0 <= i < |palletIds| :: r.reply.value[i].palletId == palletIds[i])
      && r.state.boxes.Keys == st.boxes.Keys
      && (forall b | b in st.boxes && st.boxes[b].dispatchId.Some? :: r.state.boxes[b] == st.boxes[b])
    ensures r.reply.Ok? ==> forall i | 0 <= i < |palletIds| && r.reply.value[i].PalletDispatched? ::
      var d := r.reply.value[i].dispatchId;
      && d in r.state.dispatches
      && r.state.dispatches[d].sapExitId == Trim(sapExitId)
      && r.state.dispatches[d].palletId == Some(palletIds[i])
      && PendingBoxes(r.state, palletIds[i]) == {}
      && (palletIds[i] in r.state.pallets ==>
            r.state.pallets[palletIds[i]].dispatchId == Some(d)
            && r.state.pallets[palletIds[i]].sapExitId == Some(Trim(sapExitId)))
  {
    if caller.None? then Step(Err("No autenticado"), st)
    else if Trim(sapExitId) == "" then Step(Err("Se requiere ID de Salida SAP"), st)
    else
      var run := DispatchEach(st, caller.value, palletIds, Trim(sapExitId), notes, now, inserts);
      DispatchEachSettles(st, caller.value, palletIds, Trim(sapExitId), notes, now, inserts);
      Step(Ok(run.0), run.1)
  }

  /** Naming the same pallet twice in one request: the second occurrence
      finds no undispatched box and reports `Tarima sin cajas`. */
  lemma SecondDispatchOfSamePalletFails(st: State, user: Id, p: Id, sapId: string, notes: Option<string>, now: string, d: Id, ins2: DispatchInsert)
    requires d !in st.dispatches && PendingBoxes(st, p) != {}
    ensures var (_, st1) := DispatchOne(st, user, p, sapId, notes, now, Inserted(d));
      (ins2.Inserted? ==> ins2.id !in st1.dispatches) ==>
      DispatchOne(st1, user, p, sapId, notes, now, ins2).0 == PalletFailed(p, "Tarima sin cajas")
  {
  }

  // ----- Report -----------------------------------------------------------

  /** A pallet with its boxes and units, as the report query returns it.
      `dispatchedAt` is the already formatted date, if any. */
  datatype PalletView = PalletView(name: string, sapExitId: Option<string>, dispatchedAt: Option<string>, boxes: seq<BoxView>)

  /** One row of the pallet report, one column per field, in column order:
      Tarima, ID Salida SAP, Caja, Marca, Modelo, Material, Serie Principal,
      Series Adicionales, Usuario Escaneo, Estado SAP, Fecha Despacho. */
  datatype PalletRow = PalletRow(
    pallet: string, sapExitId: string, box: string, brand: string, model: string,
    material: string, primarySeries: string, additionalSeries: string,
    scannedBy: string, sapState: string, dispatchedAt: string)

  function PalletRowOf(p: PalletView, box: BoxView, u: UnitView): (r: PalletRow)
    ensures r.pallet == p.name && r.box == box.boxNumber
    ensures r.sapExitId != "" && r.primarySeries != "" && r.additionalSeries != ""
    ensures r.brand != "" && r.model != "" && r.material != "" && r.scannedBy != "" && r.dispatchedAt != ""
    ensures r.sapState == (if u.isSapValidated then "VALIDADO" else "MANUAL")
    ensures r.sapExitId == OrElse(p.sapExitId, "PENDIENTE")
    ensures r.brand == OrElse(box.brandName, "-") && r.model == OrElse(box.modelName, "-")
    ensures r.material == OrElse(u.material, "-")
    ensures r.primarySeries == PrimarySeries(u.seriesValues)
    ensures r.additionalSeries == OrElse(Some(AdditionalSeries(u.seriesValues)), "-")
    ensures r.scannedBy == OrElse(NameOrEmail(u), "-")
    ensures r.dispatchedAt == OrElse(p.dispatchedAt, "NO DESPACHADO")
  {
    PalletRow(
      p.name,
      OrElse(p.sapExitId, "PENDIENTE"),
      box.boxNumber,
      OrElse(box.brandName, "-"),
      OrElse(box.modelName, "-"),
      OrElse(u.material, "-"),
      PrimarySeries(u.seriesValues),
      OrElse(Some(AdditionalSeries(u.seriesValues)), "-"),
      OrElse(NameOrEmail(u), "-"),
      if u.isSapValidated then "VALIDADO" else "MANUAL",
      OrElse(p.dispatchedAt, "NO DESPACHADO"))
  }

  datatype PalletReport = PalletReport(rows: seq<PalletRow>, palletName: string, sapExitId: Option<string>)

  /** `getPalletReportData`: `None` when the pallet could not be read;
      otherwise one row per scanned unit, every defaulted cell filled. */
  function GetPalletReportData(view: Option<PalletView>): (r: Option<PalletReport>)
    ensures r.None? <==> view.None?
    ensures r.Some? ==>
      && |r.value.rows| == UnitCount(view.value.boxes)
      && r.value.palletName == view.value.name
      && r.value.sapExitId == view.value.sapExitId
      && (forall i | 0 <= i < |r.value.rows| ::
            && r.value.rows[i].pallet == view.value.name
            && r.value.rows[i].sapExitId != ""
            && r.value.rows[i].primarySeries != ""
            && r.value.rows[i].additionalSeries != ""
            && r.value.rows[i].brand != "" && r.value.rows[i].model != ""
            && r.value.rows[i].material != "" && r.value.rows[i].scannedBy != ""
            && r.value.rows[i].dispatchedAt != ""
            && r.value.rows[i].sapState in {"VALIDADO", "MANUAL"})
  {
    match view
    case None => None
    case Some(p) =>
      var row := (b, u) => PalletRowOf(p, b, u);
      var rows := Flatten(p.boxes, row);
      FlattenEvery(p.boxes, row, (r: PalletRow) =>
        && r.pallet == p.name && r.sapExitId != "" && r.primarySeries != ""
        && r.additionalSeries != "" && r.brand != "" && r.model != "" && r.material != ""
        && r.scannedBy != "" && r.dispatchedAt != "" && r.sapState in {"VALIDADO", "MANUAL"});
      Some(PalletReport(rows, p.name, p.sapExitId))
  }

  /** The row for unit `k` of box `j` is the row that unit makes: the
      report lists the units box by box, in order. */
  lemma PalletReportRowAt(p: PalletView, j: nat, k: nat)
    requires j < |p.boxes| && k < |p.boxes[j].units|
    ensures var rows := GetPalletReportData(Some(p)).value.rows;
      && UnitCount(p.boxes[..j]) + k < |rows|
      && rows[UnitCount(p.boxes[..j]) + k] == PalletRowOf(p, p.boxes[j], p.boxes[j].units[k])
  {
    FlattenAt(p.boxes, (b, u) => PalletRowOf(p, b, u), j, k);
  }
}

=== FILE: pallet_summary.dfy ===
/** The pallet report workbook: the detail sheet is the report rows as
    they are; the summary sheet counts the rows of each (pallet, box)
    pair, grouped through a JavaScript `Map`. */
module PalletSummary {
  import opened Wrappers
  import opened Strings
  import JsMap
  import opened PalletActions

  /** A summary entry: pallet, box number and the rows counted so far. */
  datatype Summary = Summary(tarima: string, caja: string, total: nat)

  type SummaryMap = seq<(string, Summary)>

  /** `${row['Tarima']}|${row['Caja']}`. */
  function SummaryKey(row: PalletRow): string {
    row.pallet + "|" + row.box
  }

  function RowKeys(rows: seq<PalletRow>): (ks: seq<string>)
    ensures |ks| == |rows|
    ensures forall i | 0 <= i < |rows| :: ks[i] == SummaryKey(rows[i])
  {
    seq(|rows|, i requires 0 <= i < |rows| => SummaryKey(rows[i]))
  }

  /** Number of occurrences of `k`. */
  function Occurrences(ks: seq<string>, k: string): nat {
    if |ks| == 0 then 0
    else Occurrences(ks[..|ks| - 1], k) + (if ks[|ks| - 1] == k then 1 else 0)
  }

  /** Sum of the totals, in map order. */
  function Total(m: SummaryMap): nat {
    if |m| == 0 then 0 else Total(m[..|m| - 1]) + m[|m| - 1].1.total
  }

  lemma {:induction false} TotalUpdate(m: SummaryMap, i: nat, e: (string, Summary))
    requires i < |m|
    ensures Total(m[i := e]) == Total(m) - m[i].1.total + e.1.total
    decreases |m|
  {
    var n := |m| - 1;
    if i == n {
      assert m[i := e][..n] == m[..n];
    } else {
      assert m[i := e][..n] == m[..n][i := e];
      TotalUpdate(m[..n], i, e);
    }
  }

  /** `map.set(k, v)` moves the total by the difference between the new
      value and the one it replaces. */
  lemma TotalSet(m: SummaryMap, k: string, v: Summary)
    ensures JsMap.Get(m, k).None? ==> Total(JsMap.Set(m, k, v)) == Total(m) + v.total
    ensures JsMap.Get(m, k).Some? ==> Total(JsMap.Set(m, k, v)) + JsMap.Get(m, k).value.total == Total(m) + v.total
  {
    match JsMap.IndexOf(m, k)
    case None =>
      assert (m + [(k, v)])[..|m|] == m;
    case Some(i) =>
      TotalUpdate(m, i, (k, v));
  }

  /** One loop iteration: create the entry with total 0 when the key is
      new, then add one to its total. */
  function AddRow(m: SummaryMap, row: PalletRow): (r: SummaryMap)
    requires JsMap.DistinctKeys(m)
    ensures JsMap.DistinctKeys(r)
    ensures JsMap.Keys(r) == if SummaryKey(row) in JsMap.Keys(m) then JsMap.Keys(m) else JsMap.Keys(m) + [SummaryKey(row)]
    ensures JsMap.Get(m, SummaryKey(row)).None? ==> JsMap.Get(r, SummaryKey(row)) == Some(Summary(row.pallet, row.box, 1))
    ensures JsMap.Get(m, SummaryKey(row)).Some? ==>
      JsMap.Get(r, SummaryKey(row)) == Some(JsMap.Get(m, SummaryKey(row)).value.(total := JsMap.Get(m, SummaryKey(row)).value.total + 1))
    ensures forall k | k != SummaryKey(row) :: JsMap.Get(r, k) == JsMap.Get(m, k)
    ensures Total(r) == Total(m) + 1
  {
    var key := SummaryKey(row);
    var m1 := WithEntry(m, row);
    var s := JsMap.Get(m1, key).value;
    TotalSet(m1, key, s.(total := s.total + 1));
    JsMap.Set(m1, key, s.(total := s.total + 1))
  }

  /** `if (!summaryMap.has(key)) summaryMap.set(key, {..., total: 0})`. */
  function WithEntry(m: SummaryMap, row: PalletRow): (r: SummaryMap)
    requires JsMap.DistinctKeys(m)
    ensures JsMap.DistinctKeys(r)
    ensures JsMap.Get(m, SummaryKey(row)).Some? ==> r == m
    ensures JsMap.Get(m, SummaryKey(row)).None? ==>
      && JsMap.Get(r, SummaryKey(row)) == Some(Summary(row.pallet, row.box, 0))
      && JsMap.Keys(r) == JsMap.Keys(m) + [SummaryKey(row)]
      && (forall k | k != SummaryKey(row) :: JsMap.Get(r, k) == JsMap.Get(m, k))
    ensures Total(r) == Total(m)
  {
    var key := SummaryKey(row);
    if JsMap.Get(m, key).Some? then m
    else
      TotalSet(m, key, Summary(row.pallet, row.box, 0));
      JsMap.Set(m, key, Summary(row.pallet, row.box, 0))
  }

  /** The `for (const row of rows)` loop building `summaryMap`. */
  function BuildSummary(rows: seq<PalletRow>): (m: SummaryMap)
    ensures JsMap.DistinctKeys(m)
    ensures Total(m) == |rows|
    decreases |rows|
  {
    if |rows| == 0 then []
    else AddRow(BuildSummary(rows[..|rows| - 1]), rows[|rows| - 1])
  }

  /** The summary has one entry per distinct key, in order of first
      appearance. */
  lemma {:induction false} SummaryKeysInOrder(rows: seq<PalletRow>)
    ensures JsMap.Keys(BuildSummary(rows)) == JsMap.FirstOccurrences(RowKeys(rows))
    decreases |rows|
  {
    if |rows| > 0 {
      var init := rows[..|rows| - 1];
      var last := rows[|rows| - 1];
      SummaryKeysInOrder(init);
      var ks := RowKeys(rows);
      assert ks[..|rows| - 1] == RowKeys(init);
      assert ks[|rows| - 1] == SummaryKey(last);
      var prev := BuildSummary(init);
      assert BuildSummary(rows) == AddRow(prev, last);
      assert JsMap.FirstOccurrences(ks) ==
        var d := JsMap.FirstOccurrences(RowKeys(init));
        if SummaryKey(last) in d then d else d + [SummaryKey(last)];
    }
  }

  /** Each key's total is the number of rows with that key; keys of no
      row are absent. */
  lemma {:induction false} SummaryCounts(rows: seq<PalletRow>, k: string)
    ensures JsMap.Get(BuildSummary(rows), k).None? <==> Occurrences(RowKeys(rows), k) == 0
    ensures JsMap.Get(BuildSummary(rows), k).Some? ==>
      JsMap.Get(BuildSummary(rows), k).value.total == Occurrences(RowKeys(rows), k)
    decreases |rows|
  {
    if |rows| > 0 {
      var init := rows[..|rows| - 1];
      var last := rows[|rows| - 1];
      SummaryCounts(init, k);
      var ks := RowKeys(rows);
      assert ks[..|rows| - 1] == RowKeys(init);
      assert Occurrences(ks, k) == Occurrences(RowKeys(init), k) + (if SummaryKey(last) == k then 1 else 0);
      var prev := BuildSummary(init);
      assert BuildSummary(rows) == AddRow(prev, last);
      if SummaryKey(last) != k {
        assert JsMap.Get(AddRow(prev, last), k) == JsMap.Get(prev, k);
      } else if JsMap.Get(prev, k).None? {
        assert JsMap.Get(AddRow(prev, last), k) == Some(Summary(last.pallet, last.box, 1));
      } else {
        assert JsMap.Get(AddRow(prev, last), k).value.total == JsMap.Get(prev, k).value.total + 1;
      }
    }
  }

  /** Every summary entry counts at least one row. */
  lemma TotalsPositive(rows: seq<PalletRow>, i: nat)
    requires i < |BuildSummary(rows)|
    ensures BuildSummary(rows)[i].1.total >= 1
  {
    var m := BuildSummary(rows);
    var k := m[i].0;
    assert JsMap.Get(m, k) == Some(m[i].1);
    SummaryCounts(rows, k);
  }

  /** In one pallet's report every row names the same pallet, so two rows
      share a summary entry exactly when they name the same box. */
  lemma SameKeyIffSameBox(p: PalletView, i: nat, j: nat)
    requires var rows := GetPalletReportData(Some(p)).value.rows; i < |rows| && j < |rows|
    ensures var rows := GetPalletReportData(Some(p)).value.rows;
      SummaryKey(rows[i]) == SummaryKey(rows[j]) <==> rows[i].box == rows[j].box
  {
    var rows := GetPalletReportData(Some(p)).value.rows;
    var a := rows[i];
    var b := rows[j];
    assert a.pallet == b.pallet;
    if SummaryKey(a) == SummaryKey(b) {
      assert (a.pallet + "|" + a.box)[|a.pallet| + 1..] == a.box;
      assert (b.pallet + "|" + b.box)[|b.pallet| + 1..] == b.box;
    }
  }

  /** A row of the summary sheet. */
  datatype SummaryRow = SummaryRow(tarima: string, sapExitId: string, caja: string, total: nat, dispatchedAt: string)

  /** `rows[0]?.['Fecha Despacho'] || '-'`. */
  function FirstDate(rows: seq<PalletRow>): (d: string)
    ensures |rows| > 0 && rows[0].dispatchedAt != "" ==> d == rows[0].dispatchedAt
    ensures d != ""
  {
    if |rows| > 0 && rows[0].dispatchedAt != "" then rows[0].dispatchedAt else "-"
  }

  /** The summary sheet: one row per map entry, in map order, with the
      SAP id or `PENDIENTE` and the given dispatch date. */
  function SummaryRows(m: SummaryMap, sapExitId: Option<string>, date: string): (out: seq<SummaryRow>)
    ensures |out| == |m|
    ensures forall i | 0 <= i < |out| ::
      && out[i].tarima == m[i].1.tarima && out[i].caja == m[i].1.caja
      && out[i].total == m[i].1.total
      && out[i].sapExitId == OrElse(sapExitId, "PENDIENTE")
      && out[i].dispatchedAt == date
  {
    var sap := OrElse(sapExitId, "PENDIENTE");
    seq(|m|, i requires 0 <= i < |m| => SummaryRow(m[i].1.tarima, sap, m[i].1.caja, m[i].1.total, date))
  }

  /** Sum of the `Total Series` column. */
  function SheetTotal(out: seq<SummaryRow>): nat {
    if |out| == 0 then 0 else SheetTotal(out[..|out| - 1]) + out[|out| - 1].total
  }

  /** The summary sheet accounts for every detail row exactly once. */
  lemma {:induction false} SheetTotalIsRowCount(rows: seq<PalletRow>, sapExitId: Option<string>, date: string)
    ensures SheetTotal(SummaryRows(BuildSummary(rows), sapExitId, date)) == |rows|
  {
    SheetTotalMatches(BuildSummary(rows), SummaryRows(BuildSummary(rows), sapExitId, date));
  }

  lemma {:induction false} SheetTotalMatches(m: SummaryMap, out: seq<SummaryRow>)
    requires |out| == |m| && forall i | 0 <= i < |m| :: out[i].total == m[i].1.total
    ensures SheetTotal(out) == Total(m)
    decreases |m|
  {
    if |m| > 0 {
      SheetTotalMatches(m[..|m| - 1], out[..|out| - 1]);
    }
  }

  /** The workbook: detail rows, summary rows and file name. */
  datatype PalletWorkbook = PalletWorkbook(detail: seq<PalletRow>, summary: seq<SummaryRow>, fileName: string)

  /** `handleDownload`: no workbook for a missing report or one without
      rows; `today` is the ISO date the file name ends with. */
  function PalletDownload(result: Option<PalletReport>, palletName: string, today: string): (r: Option<PalletWorkbook>)
    ensures r.None? <==> result.None? || |result.value.rows| == 0
    ensures r.Some? ==> r.value.detail == result.value.rows
    ensures r.Some? ==>
      r.value.fileName == "Tarima_" + palletName + "_" + OrElse(result.value.sapExitId, "PENDIENTE") + "_" + today + ".xlsx"
    ensures r.Some? ==> SheetTotal(r.value.summary) == |r.value.detail|
    ensures r.Some? ==>
      r.value.summary == SummaryRows(BuildSummary(result.value.rows), result.value.sapExitId, FirstDate(result.value.rows))
  {
    if result.None? || |result.value.rows| == 0 then None
    else
      var rows := result.value.rows;
      var sap := result.value.sapExitId;
      SheetTotalIsRowCount(rows, sap, FirstDate(rows));
      Some(PalletWorkbook(rows, SummaryRows(BuildSummary(rows), sap, FirstDate(rows)),
        "Tarima_" + palletName + "_" + OrElse(sap, "PENDIENTE") + "_" + today + ".xlsx"))
  }
}

=== FILE: rbac.dfy ===
/** Roles and role-based access: the `UserRole` type, how the client
    resolves the signed-in user, the client redirect rule, and the two
    server-side role gates the actions use. */
module Rbac {
  import opened Wrappers

  /** A role is exactly one of three. */
  datatype Role = Operator | Admin | SuperAdmin

  datatype AuthUser = AuthUser(id: string, email: string)

  datatype UserData = UserData(id: string, email: string, role: Role)

  /** What selecting `role` from the `users` row of the signed-in user
      yields: the role, no row, or an error. */
  datatype ProfileFetch = Found(role: Role) | NoRow | FetchError(message: string)

  /** The `{ user, loading }` pair the client hook exposes. */
  datatype RoleState = RoleState(user: Option<UserData>, loading: bool)

  /** Before the lookup finishes: no user, still loading. */
  const Initial := RoleState(None, true)

  /** The hook's state once the lookup has finished: a user exists only
      when there is an authenticated user AND a profile row was read;
      every other outcome leaves the user null. Loading always ends. */
  function ResolveUser(auth: Option<AuthUser>, fetch: ProfileFetch): (s: RoleState)
    ensures !s.loading
    ensures s.user.Some? <==> auth.Some? && fetch.Found?
    ensures s.user.Some? ==> s.user.value.id == auth.value.id && s.user.value.role == fetch.role
    ensures s.user.Some? ==> s.user.value.email == auth.value.email
  {
    if auth.None? then RoleState(None, false)
    else match fetch
      case Found(role) => RoleState(Some(UserData(auth.value.id, auth.value.email, role)), false)
      case _ => RoleState(None, false)
  }

  datatype Redirect = Stay | ToLogin | ToUnauthorized

  /** Where `router.push` sends the page: nowhere, the login page, or the
      dashboard with the unauthorized flag. */
  function RedirectPath(d: Redirect): (r: Option<string>)
    ensures r.None? <==> d == Stay
    ensures d == ToLogin ==> r == Some("/login")
    ensures d == ToUnauthorized ==> r == Some("/dashboard?error=Unauthorized")
  {
    match d
    case Stay => None
    case ToLogin => Some("/login")
    case ToUnauthorized => Some("/dashboard?error=Unauthorized")
  }

  /** The redirect a page guarded by `allowed` takes for a hook state. */
  function RequireRole(s: RoleState, allowed: seq<Role>): (d: Redirect)
    ensures s.loading ==> d == Stay
    ensures !s.loading && s.user.None? ==> d == ToLogin
    ensures !s.loading && s.user.Some? ==> (d == Stay <==> s.user.value.role in allowed)
    ensures !s.loading && s.user.Some? ==> d != ToLogin
  {
    if !s.loading && s.user.None? then ToLogin
    else if !s.loading && s.user.Some? && s.user.value.role !in allowed then ToUnauthorized
    else Stay
  }

  /** End to end: a guarded page stays put after resolution exactly when
      someone is signed in, has a profile row, and holds an allowed role;
      while loading it never moves. */
  lemma GuardedPageStays(auth: Option<AuthUser>, fetch: ProfileFetch, allowed: seq<Role>)
    ensures RequireRole(Initial, allowed) == Stay
    ensures RequireRole(ResolveUser(auth, fetch), allowed) == Stay
        <==> auth.Some? && fetch.Found? && fetch.role in allowed
    ensures RequireRole(ResolveUser(auth, fetch), allowed) == ToLogin
        <==> auth.None? || !fetch.Found?
  {
  }

  /** Server gate of box deletion/editing and of role changes:
      admin or super_admin; a missing profile row fails. */
  predicate IsAdminOrSuper(role: Option<Role>) {
    role == Some(Admin) || role == Some(SuperAdmin)
  }

  /** Server gate of the shared box deletion: super_admin only. */
  predicate IsSuperAdmin(role: Option<Role>) {
    role == Some(SuperAdmin)
  }

  /** The super_admin gate is strictly narrower than the admin gate:
      everything it admits the other admits, and `admin` is the one role
      that separates them. */
  lemma SuperGateNarrower(role: Option<Role>)
    ensures IsSuperAdmin(role) ==> IsAdminOrSuper(role)
    ensures IsAdminOrSuper(role) && !IsSuperAdmin(role) <==> role == Some(Admin)
  {
  }
}

=== FILE: report_export.dfy ===
/** The general report workbook: five fixed columns, one `Serie n`
    column per series position up to the widest record, then the user and
    the validation state. */
module ReportExport {
  import opened Wrappers
  import opened Strings
  import opened Decimal

  /** One scanned unit of the general report query. `seriesValues` is
      `Object.values(series_data)`; its length is the number of keys. */
  datatype ExportItem = ExportItem(
    scannedAt: string, boxNumber: Option<string>, brand: Option<string>, model: Option<string>,
    material: Option<string>, seriesValues: seq<string>,
    userName: Option<string>, userEmail: Option<string>, isSapValidated: bool)

  /** A workbook row: header and cell, in key order. */
  type Row = seq<(string, string)>

  /** The `reduce` for `maxSeriesCount`: the largest series count, 0 for
      no records. */
  function MaxSeriesCount(items: seq<ExportItem>): (n: nat)
    ensures forall i | 0 <= i < |items| :: |items[i].seriesValues| <= n
    ensures n == 0 || exists i | 0 <= i < |items| :: |items[i].seriesValues| == n
  {
    if |items| == 0 then 0
    else
      var rest := MaxSeriesCount(items[1..]);
      assert forall i | 1 <= i < |items| :: items[i] == items[1..][i - 1];
      if |items[0].seriesValues| > rest then |items[0].seriesValues| else rest
  }

  function SeriesHeader(i: nat): string {
    "Serie " + NatToString(i + 1)
  }

  /** Series positions have different headers, none of them a fixed
      column's. */
  lemma SeriesHeadersDistinct(i: nat, j: nat)
    ensures SeriesHeader(i) == SeriesHeader(j) ==> i == j
    ensures SeriesHeader(i) !in FixedHeaders
  {
    if SeriesHeader(i) == SeriesHeader(j) {
      assert SeriesHeader(i)[6..] == NatToString(i + 1);
      assert SeriesHeader(j)[6..] == NatToString(j + 1);
      NatToStringInjective(i + 1, j + 1);
    }
    assert SeriesHeader(i)[0] == 'S';
  }

  const FixedHeaders: seq<string> :=
    ["Fecha de Registro", "Caja", "Marca", "Modelo", "Material", "Usuario", "Estado Validación"]

  /** `seriesValues[i] || ''` for `i` below `n`. */
  function SeriesCells(values: seq<string>, n: nat): (cells: Row)
    ensures |cells| == n
    ensures forall i | 0 <= i < n :: cells[i].0 == SeriesHeader(i)
    ensures forall i | 0 <= i < n :: cells[i].1 == if i < |values| then values[i] else ""
  {
    seq(n, i requires 0 <= i < n => (SeriesHeader(i), if i < |values| then values[i] else ""))
  }

  /** The row of one record against a width of `n` series columns. */
  function ExportRow(item: ExportItem, n: nat): (r: Row)
    ensures |r| == 7 + n
    ensures forall c | 0 <= c < 5 :: r[c].0 == FixedHeaders[c]
    ensures r[0].1 == item.scannedAt && r[1].1 == OrElse(item.boxNumber, "")
    ensures r[2].1 == OrElse(item.brand, "") && r[3].1 == OrElse(item.model, "")
    ensures r[4].1 == OrElse(item.material, "")
    ensures forall c | 5 <= c < 5 + n :: r[c].0 == SeriesHeader(c - 5)
    ensures forall c | 5 <= c < 5 + n :: r[c].1 == if c - 5 < |item.seriesValues| then item.seriesValues[c - 5] else ""
    ensures r[5 + n].0 == "Usuario" && r[6 + n].0 == "Estado Validación"
    ensures Truthy(item.userName) ==> r[5 + n].1 == item.userName.value
    ensures !Truthy(item.userName) ==> r[5 + n].1 == OrElse(item.userEmail, "")
    ensures r[6 + n].1 == "VALIDADO OK" <==> item.isSapValidated
    ensures r[6 + n].1 == "MANUAL" <==> !item.isSapValidated
  {
    var fixed := [
      ("Fecha de Registro", item.scannedAt),
      ("Caja", OrElse(item.boxNumber, "")),
      ("Marca", OrElse(item.brand, "")),
      ("Modelo", OrElse(item.model, "")),
      ("Material", OrElse(item.material, ""))];
    var tail := [
      ("Usuario", OrElse(item.userName, OrElse(item.userEmail, ""))),
      ("Estado Validación", if item.isSapValidated then "VALIDADO OK" else "MANUAL")];
    var cells := SeriesCells(item.seriesValues, n);
    var r := fixed + cells + tail;
    assert forall c | 0 <= c < 5 :: r[c] == fixed[c];
    assert forall c | 5 <= c < 5 + n :: r[c] == cells[c - 5];
    assert r[5 + n] == tail[0] && r[6 + n] == tail[1];
    r
  }

  /** `wscols`: the five fixed widths, 25 per series column, then 30 and
      15. */
  function Widths(n: nat): (w: seq<nat>)
    ensures |w| == 7 + n
    ensures forall c | 5 <= c < 5 + n :: w[c] == 25
  {
    [20, 15, 15, 20, 20] + seq(n, _ => 25) + [30, 15]
  }

  datatype Workbook = Workbook(rows: seq<Row>, widths: seq<nat>)

  /** `handleDownload`: `None` (an alert, no workbook) for a null or empty
      result; otherwise one row per record, every row with the same
      columns and as many as there are widths, and no series value lost. */
  function Export(data: Option<seq<ExportItem>>): (r: Option<Workbook>)
    ensures r.None? <==> data.None? || |data.value| == 0
    ensures r.Some? ==> |r.value.rows| == |data.value|
    ensures r.Some? ==> forall i | 0 <= i < |r.value.rows| :: r.value.rows[i] == ExportRow(data.value[i], MaxSeriesCount(data.value))
    ensures r.Some? ==> forall i | 0 <= i < |r.value.rows| :: |r.value.rows[i]| == |r.value.widths|
    ensures r.Some? ==> forall i, k | 0 <= i < |data.value| && 0 <= k < |data.value[i].seriesValues| ::
      5 + k < |r.value.rows[i]| && r.value.rows[i][5 + k] == (SeriesHeader(k), data.value[i].seriesValues[k])
  {
    if data.None? || |data.value| == 0 then None
    else
      var items := data.value;
      var n := MaxSeriesCount(items);
      var rows := seq(|items|, i requires 0 <= i < |items| => ExportRow(items[i], n));
      assert forall i, k | 0 <= i < |items| && 0 <= k < |items[i].seriesValues| ::
        5 + k < |rows[i]| && rows[i][5 + k] == (SeriesHeader(k), items[i].seriesValues[k]) by {
        forall i, k | 0 <= i < |items| && 0 <= k < |items[i].seriesValues|
          ensures 5 + k < |rows[i]| && rows[i][5 + k] == (SeriesHeader(k), items[i].seriesValues[k])
        {
          var c := 5 + k;
          assert 5 <= c < 5 + n;
          assert rows[i][c].0 == SeriesHeader(c - 5);
        }
      }
      Some(Workbook(rows, Widths(n)))
  }

  /** Every row of a workbook has the same header in every column. */
  lemma ExportHeadersAgree(data: seq<ExportItem>, i: nat, j: nat, c: nat)
    requires |data| > 0 && i < |data| && j < |data|
    ensures var rows := Export(Some(data)).value.rows;
      c < |rows[i]| ==> c < |rows[j]| && rows[i][c].0 == rows[j][c].0
  {
    var n := MaxSeriesCount(data);
    var rows := Export(Some(data)).value.rows;
    assert rows[i] == ExportRow(data[i], n) && rows[j] == ExportRow(data[j], n);
  }
}

=== FILE: report_filters.dfy ===
/** The filter bar of the report page. The selections live in the URL
    query; every change pushes a new query with the page reset to 1. */
module ReportFilters {
  import opened Wrappers
  import opened Strings
  import SearchParams

  /** The value standing for "no filter". */
  const All := "all"

  /** A model as the filter options list it. */
  datatype ModelOption = ModelOption(id: string, name: string, brandId: string)

  /** `(selectedBrand && selectedBrand !== 'all') ? models.filter(...) :
      models`, shared by the filter bar and the global report dialog. */
  function FilteredModels(models: seq<ModelOption>, brand: string): (r: seq<ModelOption>)
    ensures brand == "" || brand == All ==> r == models
    ensures |r| <= |models|
    ensures brand != "" && brand != All ==> forall m :: m in r <==> m in models && m.brandId == brand
  {
    if brand == "" || brand == All then models else OfBrand(models, brand)
  }

  /** `models.filter(m => m.brand_id === brand)`. */
  function OfBrand(models: seq<ModelOption>, brand: string): (r: seq<ModelOption>)
    ensures |r| <= |models|
    ensures forall m :: m in r <==> m in models && m.brandId == brand
  {
    if |models| == 0 then []
    else
      var rest := OfBrand(models[1..], brand);
      assert forall m :: m in models <==> m == models[0] || m in models[1..] by {
        assert models == [models[0]] + models[1..];
      }
      if models[0].brandId == brand then [models[0]] + rest else rest
  }

  /** The filter keeps the models' order: filtering a concatenation is
      concatenating the filtered parts. */
  lemma {:induction false} OfBrandConcat(a: seq<ModelOption>, b: seq<ModelOption>, brand: string)
    ensures OfBrand(a + b, brand) == OfBrand(a, brand) + OfBrand(b, brand)
    decreases |a|
  {
    if |a| == 0 {
      assert a + b == b;
    } else {
      assert (a + b)[0] == a[0] && (a + b)[1..] == a[1..] + b;
      assert OfBrand(a + b, brand) == (if a[0].brandId == brand then [a[0]] else []) + OfBrand(a[1..] + b, brand);
      OfBrandConcat(a[1..], b, brand);
    }
  }

  /** The three selections of the bar. */
  datatype Selection = Selection(brand: string, model: string, material: string)

  /** `params.get(key) || 'all'`: the first value of `key`, or `all`
      when there is none or it is empty. */
  function Selected(params: SearchParams.Params, key: string): (v: string)
    ensures SearchParams.GetAll(params, key) == [] ==> v == All
    ensures SearchParams.GetAll(params, key) != [] && SearchParams.GetAll(params, key)[0] != "" ==>
      v == SearchParams.GetAll(params, key)[0]
    ensures SearchParams.GetAll(params, key) != [] && SearchParams.GetAll(params, key)[0] == "" ==> v == All
  {
    OrElse(SearchParams.Get(params, key), All)
  }

  /** Initial state and the sync on navigation: each selection read from
      its parameter, `all` when it is missing or empty. */
  function FromUrl(params: SearchParams.Params): (s: Selection)
    ensures SearchParams.GetAll(params, "brand") == [] ==> s.brand == All
    ensures SearchParams.GetAll(params, "model") == [] ==> s.model == All
    ensures SearchParams.GetAll(params, "material") == [] ==> s.material == All
    ensures s.brand != "" && s.model != "" && s.material != ""
  {
    Selection(Selected(params, "brand"), Selected(params, "model"), Selected(params, "material"))
  }

  /** Set `key` to `value`, or drop it when `keep` is false. */
  function SetOrDelete(params: SearchParams.Params, key: string, value: string, keep: bool): (r: SearchParams.Params)
    ensures keep ==> SearchParams.GetAll(r, key) == [value]
    ensures !keep ==> SearchParams.GetAll(r, key) == []
    ensures forall other | other != key :: SearchParams.GetAll(r, other) == SearchParams.GetAll(params, other)
  {
    if keep then SearchParams.Set(params, key, value) else SearchParams.Delete(params, key)
  }

  /** `params.set('page', '1')`, the reset every filter change ends with. */
  function FirstPage(params: SearchParams.Params): (r: SearchParams.Params)
    ensures SearchParams.GetAll(r, "page") == ["1"]
    ensures forall other | other != "page" :: SearchParams.GetAll(r, other) == SearchParams.GetAll(params, other)
  {
    SearchParams.Set(params, "page", "1")
  }

  /** `updateFilters`: an empty or `all` value drops the key, any other
      value sets it; then `page` becomes 1. */
  function UpdateFilters(params: SearchParams.Params, key: string, value: string): (r: SearchParams.Params)
    ensures SearchParams.GetAll(r, "page") == ["1"]
    ensures key != "page" && (value == "" || value == All) ==> SearchParams.GetAll(r, key) == []
    ensures key != "page" && value != "" && value != All ==> SearchParams.GetAll(r, key) == [value]
    ensures forall other | other != key && other != "page" ::
      SearchParams.GetAll(r, other) == SearchParams.GetAll(params, other)
  {
    FirstPage(SetOrDelete(params, key, value, value != "" && value != All))
  }

  /** Reading the bar back from the query an update pushed shows the value
      chosen, with an empty choice shown as `all`. */
  lemma UpdateThenSync(params: SearchParams.Params, value: string)
    ensures FromUrl(UpdateFilters(params, "material", value)).material == if value == "" then All else value
    ensures FromUrl(UpdateFilters(params, "material", value)).brand == FromUrl(params).brand
    ensures FromUrl(UpdateFilters(params, "material", value)).model == FromUrl(params).model
  {
    var r := UpdateFilters(params, "material", value);
    assert SearchParams.GetAll(r, "brand") == SearchParams.GetAll(params, "brand");
    assert SearchParams.GetAll(r, "model") == SearchParams.GetAll(params, "model");
    SameGetAllSameSelected(r, params, "brand");
    SameGetAllSameSelected(r, params, "model");
  }

  lemma SameGetAllSameSelected(a: SearchParams.Params, b: SearchParams.Params, key: string)
    requires SearchParams.GetAll(a, key) == SearchParams.GetAll(b, key)
    ensures Selected(a, key) == Selected(b, key)
  {
  }

  /** `handleBrandChange`: the brand is set unless it is `all` (an empty
      value is set as it is), the model selection and parameter are
      dropped, and `page` becomes 1. */
  function BrandChange(sel: Selection, params: SearchParams.Params, value: string): (r: (Selection, SearchParams.Params))
    ensures r.0 == Selection(value, All, sel.material)
    ensures SearchParams.GetAll(r.1, "page") == ["1"]
    ensures SearchParams.GetAll(r.1, "model") == []
    ensures value == All ==> SearchParams.GetAll(r.1, "brand") == []
    ensures value != All ==> SearchParams.GetAll(r.1, "brand") == [value]
    ensures forall other | other != "brand" && other != "model" && other != "page" ::
      SearchParams.GetAll(r.1, other) == SearchParams.GetAll(params, other)
  {
    var p := SetOrDelete(params, "brand", value, value != All);
    (Selection(value, All, sel.material), FirstPage(SearchParams.Delete(p, "model")))
  }

  /** After a brand change the bar read back from the URL agrees with the
      selection the handler set, for any brand other than the empty one. */
  lemma BrandChangeThenSync(sel: Selection, params: SearchParams.Params, value: string)
    requires value != ""
    ensures var r := BrandChange(sel, params, value);
      FromUrl(r.1).brand == r.0.brand && FromUrl(r.1).model == r.0.model
  {
  }

  /** `clearFilters`: every selection `all` and an empty query. */
  function ClearFilters(): (r: (Selection, SearchParams.Params))
    ensures r.0 == Selection(All, All, All)
    ensures forall k :: SearchParams.GetAll(r.1, k) == []
  {
    (Selection(All, All, All), [])
  }

  /** The cleared query reads back as the cleared selection. */
  lemma ClearThenSync()
    ensures FromUrl(ClearFilters().1) == ClearFilters().0
  {
  }
}

=== FILE: report_rows.dfy ===
/** What the report queries return for a pallet or a dispatch (a list of
    boxes, each with its scanned units) and the flattening into one row
    per scanned unit that both reports share. */
module ReportRows {
  import opened Wrappers
  import opened Strings

  /** A scanned unit as the report queries select it. `seriesValues` is
      `Object.values(series_data)`, already in that order. */
  datatype UnitView = UnitView(
    material: Option<string>,
    seriesValues: seq<string>,
    isSapValidated: bool,
    userName: Option<string>,
    userEmail: Option<string>)

  /** A box as the report queries select it. */
  datatype BoxView = BoxView(
    boxNumber: string,
    brandName: Option<string>,
    modelName: Option<string>,
    units: seq<UnitView>)

  /** `seriesValues[0] || '-'`. */
  function PrimarySeries(values: seq<string>): (r: string)
    ensures r == "-" || (|values| > 0 && r == values[0])
    ensures |values| > 0 && values[0] != "" ==> r == values[0]
  {
    if |values| > 0 && values[0] != "" then values[0] else "-"
  }

  /** `seriesValues.slice(1).join(', ')`. */
  function AdditionalSeries(values: seq<string>): (r: string)
    ensures |values| < 2 ==> r == ""
    ensures |values| == 2 ==> r == values[1]
    ensures |values| > 2 ==> r == values[1] + ", " + AdditionalSeries(values[1..])
    decreases |values|
  {
    if |values| == 0 then "" else
      assert |values| > 2 ==> values[1..][1..] == values[2..];
      Join(values[1..], ", ")
  }

  /** `users?.name || users?.email`. */
  function NameOrEmail(u: UnitView): (r: Option<string>)
    ensures Truthy(u.userName) ==> r == u.userName
    ensures !Truthy(u.userName) ==> r == u.userEmail
  {
    if Truthy(u.userName) then u.userName else u.userEmail
  }

  /** Total number of scanned units over a list of boxes. */
  function UnitCount(boxes: seq<BoxView>): nat {
    if |boxes| == 0 then 0 else |boxes[0].units| + UnitCount(boxes[1..])
  }

  /** `boxes.forEach(box => box.units.forEach(u => rows.push(row(box, u))))`. */
  function Flatten<R>(boxes: seq<BoxView>, row: (BoxView, UnitView) -> R): (rows: seq<R>)
    ensures |rows| == UnitCount(boxes)
  {
    if |boxes| == 0 then []
    else
      var first := seq(|boxes[0].units|, k requires 0 <= k < |boxes[0].units| => row(boxes[0], boxes[0].units[k]));
      first + Flatten(boxes[1..], row)
  }

  /** The rows are exactly the (box, unit) pairs, box by box and unit by
      unit: unit `k` of box `j` sits right after the units of the boxes
      before `j`. */
  lemma {:induction false} FlattenAt<R>(boxes: seq<BoxView>, row: (BoxView, UnitView) -> R, j: nat, k: nat)
    requires j < |boxes| && k < |boxes[j].units|
    ensures UnitCount(boxes[..j]) + k < UnitCount(boxes)
    ensures Flatten(boxes, row)[UnitCount(boxes[..j]) + k] == row(boxes[j], boxes[j].units[k])
    decreases j
  {
    if j > 0 {
      FlattenAt(boxes[1..], row, j - 1, k);
      assert boxes[1..][..j - 1] == boxes[..j][1..];
    }
  }

  /** A property every produced row has holds of every flattened row. */
  lemma {:induction false} FlattenEvery<R>(boxes: seq<BoxView>, row: (BoxView, UnitView) -> R, P: R -> bool)
    requires forall b, u :: P(row(b, u))
    ensures forall i | 0 <= i < |Flatten(boxes, row)| :: P(Flatten(boxes, row)[i])
    decreases |boxes|
  {
    if |boxes| > 0 {
      FlattenEvery(boxes[1..], row, P);
    }
  }
}

=== FILE: sap_actions.dfy ===
/** Loading and clearing the ERP reference data (`sap_data`). The upload
    reads the file as lines of comma- or semicolon-separated fields:
    series, then material, then status. */
module SapActions {
  import opened Wrappers
  import opened Strings
  import opened Store

  /** The field separators: `/[;,]/`. */
  const Seps: set<char> := {',', ';'}

  /** `parts[k]?.trim() || null`. */
  function Field(parts: seq<string>, k: nat): (f: Option<string>)
    ensures f.Some? ==> k < |parts| && f.value != "" && f.value == Trim(parts[k])
    ensures f.None? <==> k >= |parts| || Trim(parts[k]) == ""
  {
    if k < |parts| && Trim(parts[k]) != "" then Some(Trim(parts[k])) else None
  }

  lemma FieldKeepsNoneIn(parts: seq<string>, k: nat)
    requires forall j | 0 <= j < |parts| :: NoneIn(parts[j], Seps)
    ensures Field(parts, k).Some? ==> NoneIn(Field(parts, k).value, Seps)
  {
    if k < |parts| { TrimKeepsNoneIn(parts[k], Seps); }
  }

  /** The record the first three fields of a line make: trimmed series,
      material or null, status or `pending`. */
  function Record(parts: seq<string>): (r: SapRecord)
    requires |parts| >= 1
    ensures r.status != ""
    ensures |parts| == 1 ==> r.material.None? && r.status == "pending"
  {
    SapRecord(Trim(parts[0]), Field(parts, 1), OrElse(Field(parts, 2), "pending"))
  }

  /** One record from one already trimmed, non-empty line. Fields after
      the third are ignored. */
  function ParseLine(line: string): (r: SapRecord)
    ensures r.material.Some? ==> r.material.value != ""
    ensures r.status != ""
    ensures CountIn(line, Seps) == 0 ==> r.material.None? && r.status == "pending"
  {
    Record(Split(line, Seps))
  }

  /** The record of a line is made of its trimmed first three fields, with
      null for an empty material and `pending` for an empty status; every
      field is trimmed (the status when it is not the default) and free of
      separators. */
  lemma ParseLineFields(line: string)
    ensures var parts := Split(line, Seps); var r := ParseLine(line);
      && r.series == Trim(parts[0])
      && r.material == Field(parts, 1)
      && r.status == OrElse(Field(parts, 2), "pending")
    ensures var r := ParseLine(line);
      && IsTrimmed(r.series) && NoneIn(r.series, Seps)
      && (r.material.Some? ==> IsTrimmed(r.material.value) && NoneIn(r.material.value, Seps))
      && NoneIn(r.status, Seps)
  {
    RecordFields(Split(line, Seps));
  }

  lemma RecordFields(parts: seq<string>)
    requires |parts| >= 1
    requires forall j | 0 <= j < |parts| :: NoneIn(parts[j], Seps)
    ensures var r := Record(parts);
      && IsTrimmed(r.series) && NoneIn(r.series, Seps)
      && (r.material.Some? ==> IsTrimmed(r.material.value) && NoneIn(r.material.value, Seps))
      && NoneIn(r.status, Seps)
  {
    TrimKeepsNoneIn(parts[0], Seps);
    FieldKeepsNoneIn(parts, 1);
    FieldKeepsNoneIn(parts, 2);
    if !Truthy(Field(parts, 2)) {
      DefaultStatusClean();
    }
  }

  lemma DefaultStatusClean()
    ensures NoneIn("pending", Seps)
  {
    var p := "pending";
    forall i | 0 <= i < |p| ensures p[i] !in Seps {
      assert 'd' <= p[i] <= 'p';
    }
  }

  /** The records one raw line contributes: none for a blank line or an
      empty series, otherwise its parse. */
  function LineRecords(line: string): (rs: seq<SapRecord>)
    ensures |rs| <= 1
    ensures AllSpace(line) ==> rs == []
    ensures |rs| == 1 ==> CleanSeries(rs[0])
  {
    var t := Trim(line);
    if t == "" then []
    else
      var rec := ParseLine(t);
      ParseLineFields(t);
      if rec.series == "" then [] else [rec]
  }

  /** What every stored series satisfies: non-empty, trimmed, and free of
      separators. */
  predicate CleanSeries(r: SapRecord) {
    r.series != "" && IsTrimmed(r.series) && NoneIn(r.series, Seps)
  }

  /** The trim / drop-blank / parse / drop-empty-series pipeline over the
      lines, in line order. */
  function ParseLines(lines: seq<string>): (rs: seq<SapRecord>)
    ensures |rs| <= |lines|
    ensures forall k | 0 <= k < |rs| :: CleanSeries(rs[k])
    decreases |lines|
  {
    if |lines| == 0 then []
    else
      var head := LineRecords(lines[0]);
      var tail := ParseLines(lines[1..]);
      assert forall k | 0 <= k < |head + tail| :: CleanSeries((head + tail)[k]) by {
        forall k | 0 <= k < |head + tail| ensures CleanSeries((head + tail)[k]) {
          if k < |head| {
            assert (head + tail)[k] == head[k];
          } else {
            assert (head + tail)[k] == tail[k - |head|];
          }
        }
      }
      head + tail
  }

  /** The records of a whole file: `text.split('\n')` then the pipeline. */
  function ParseRecords(text: string): (rs: seq<SapRecord>)
    ensures forall k | 0 <= k < |rs| :: CleanSeries(rs[k])
    ensures |rs| <= 1 + CountIn(text, {'\n'})
  {
    ParseLines(Split(text, {'\n'}))
  }

  /** The pipeline works line by line: the records of two blocks of lines
      are the records of the first followed by those of the second. */
  lemma {:induction false} ParseLinesConcat(a: seq<string>, b: seq<string>)
    ensures ParseLines(a + b) == ParseLines(a) + ParseLines(b)
    decreases |a|
  {
    if |a| > 0 {
      assert (a + b)[0] == a[0] && (a + b)[1..] == a[1..] + b;
      ParseLinesConcat(a[1..], b);
    } else {
      assert a + b == b;
    }
  }

  /** Records keep file order: the records of two texts joined by a line
      break are those of the first text followed by those of the second. */
  lemma ParseRecordsConcat(a: string, b: string)
    ensures ParseRecords(a + "\n" + b) == ParseRecords(a) + ParseRecords(b)
  {
    SplitConcat(a, b, {'\n'}, '\n');
    ParseLinesConcat(Split(a, {'\n'}), Split(b, {'\n'}));
  }

  /** A blank or whitespace-only line between two blocks contributes no
      record. */
  lemma BlankLineIgnored(a: string, blank: string, b: string)
    requires AllSpace(blank) && NoneIn(blank, {'\n'})
    ensures ParseRecords(a + "\n" + blank + "\n" + b) == ParseRecords(a) + ParseRecords(b)
  {
    var x := a + "\n" + blank;
    ParseRecordsConcat(x, b);
    ParseRecordsConcat(a, blank);
    BlankRecords(blank);
    assert ParseRecords(a) + [] == ParseRecords(a);
  }

  lemma BlankRecords(blank: string)
    requires AllSpace(blank) && NoneIn(blank, {'\n'})
    ensures ParseRecords(blank) == []
  {
    SplitNoSep(blank, {'\n'});
    assert ParseLines([blank]) == LineRecords(blank) + ParseLines([]);
  }

  /** `,` and `;` are interchangeable: replacing every separator by a
      comma does not change the record. */
  lemma SeparatorsInterchangeable(line: string)
    ensures ParseLine(line) == ParseLine(Unify(line, Seps, ','))
  {
    var u := Unify(line, Seps, ',');
    SplitUnify(line, Seps, ',');
    SplitUnify(u, Seps, ',');
    UnifyIdempotent(line, Seps, ',');
    assert Split(line, Seps) == Split(u, Seps);
  }

  /** Once a line has three fields, anything after a further separator is
      ignored. */
  lemma ExtraFieldsIgnored(line: string, c: char, extra: string)
    requires c in Seps && CountIn(line, Seps) >= 2
    ensures ParseLine(line + [c] + extra) == ParseLine(line)
  {
    SplitConcat(line, extra, Seps, c);
    var p := Split(line, Seps);
    var q := Split(line + [c] + extra, Seps);
    assert q[0] == p[0] && q[1] == p[1] && q[2] == p[2];
    RecordOfFirstThree(p, q);
  }

  /** A record depends on the first three fields only. */
  lemma RecordOfFirstThree(p: seq<string>, q: seq<string>)
    requires |p| >= 3 && |q| >= 3
    requires q[0] == p[0] && q[1] == p[1] && q[2] == p[2]
    ensures Record(q) == Record(p)
  {
    assert Field(q, 1) == Field(p, 1);
    assert Field(q, 2) == Field(p, 2);
  }

  // ----- Round trip ---------------------------------------------------------

  /** No separator, no line break, and no whitespace at either end. */
  predicate CleanField(s: string) {
    IsTrimmed(s) && NoneIn(s, {',', ';', '\n'})
  }

  /** A record a CSV line can carry unchanged. */
  predicate Writable(r: SapRecord) {
    && r.series != "" && CleanField(r.series)
    && (r.material.Some? ==> r.material.value != "" && CleanField(r.material.value))
    && r.status != "" && CleanField(r.status)
  }

  /** The line `series,material,status`; a null material is an empty
      field. */
  function FormatRecord(r: SapRecord): string {
    r.series + "," + r.material.GetOr("") + "," + r.status
  }

  function FormatAll(rs: seq<SapRecord>): (lines: seq<string>)
    ensures |lines| == |rs|
    ensures forall k | 0 <= k < |rs| :: lines[k] == FormatRecord(rs[k])
  {
    seq(|rs|, k requires 0 <= k < |rs| => FormatRecord(rs[k]))
  }

  lemma SubsetNoneIn(s: string, small: set<char>, big: set<char>)
    requires small <= big && NoneIn(s, big)
    ensures NoneIn(s, small)
  {
  }

  /** A writable record, written as a line, is read back as itself. */
  lemma ParseFormatLine(r: SapRecord)
    requires Writable(r)
    ensures ParseLine(FormatRecord(r)) == r
  {
    var m := r.material.GetOr("");
    var parts := Split(FormatRecord(r), Seps);
    FormatSplit(r);
    TrimOfTrimmed(r.series);
    TrimOfTrimmed(r.status);
    if r.material.Some? {
      TrimOfTrimmed(m);
    }
    assert Field(parts, 1) == r.material;
    assert Field(parts, 2) == Some(r.status);
  }

  /** The line of a writable record splits into its three fields. */
  lemma FormatSplit(r: SapRecord)
    requires Writable(r)
    ensures Split(FormatRecord(r), Seps) == [r.series, r.material.GetOr(""), r.status]
  {
    var m := r.material.GetOr("");
    SubsetNoneIn(r.series, Seps, {',', ';', '\n'});
    SubsetNoneIn(m, Seps, {',', ';', '\n'});
    SubsetNoneIn(r.status, Seps, {',', ';', '\n'});
    SplitThree(r.series, m, r.status);
  }

  /** Three separator-free fields joined by commas split back into them. */
  lemma SplitThree(a: string, b: string, c: string)
    requires NoneIn(a, Seps) && NoneIn(b, Seps) && NoneIn(c, Seps)
    ensures Split(a + "," + b + "," + c, Seps) == [a, b, c]
  {
    SplitTwo(b, c);
    SplitConcat(a, b + [','] + c, Seps, ',');
    SplitNoSep(a, Seps);
    assert a + "," + b + "," + c == a + [','] + (b + [','] + c);
  }

  /** Two separator-free fields joined by a comma split back into them. */
  lemma SplitTwo(a: string, b: string)
    requires NoneIn(a, Seps) && NoneIn(b, Seps)
    ensures Split(a + [','] + b, Seps) == [a, b]
  {
    SplitConcat(a, b, Seps, ',');
    SplitNoSep(a, Seps);
    SplitNoSep(b, Seps);
  }

  /** The line of a writable record is trimmed, non-empty and has no line
      break. */
  lemma FormattedLineClean(r: SapRecord)
    requires Writable(r)
    ensures FormatRecord(r) != "" && IsTrimmed(FormatRecord(r))
    ensures NoneIn(FormatRecord(r), {'\n'})
  {
    var line := FormatRecord(r);
    assert line[0] == r.series[0];
    assert line[|line| - 1] == r.status[|r.status| - 1];
    forall k | 0 <= k < |line| ensures line[k] != '\n' {
      var m := r.material.GetOr("");
      if k < |r.series| {
        assert line[k] == r.series[k];
      } else if k == |r.series| {
      } else if k < |r.series| + 1 + |m| {
        assert line[k] == m[k - |r.series| - 1];
      } else if k == |r.series| + 1 + |m| {
      } else {
        assert line[k] == r.status[k - |r.series| - 2 - |m|];
      }
    }
  }

  /** The line of a writable record contributes exactly that record. */
  lemma ParseLinesCons(lines: seq<string>)
    requires |lines| > 0
    ensures ParseLines(lines) == LineRecords(lines[0]) + ParseLines(lines[1..])
  {
  }

  lemma FormattedLineRecords(r: SapRecord)
    requires Writable(r)
    ensures LineRecords(FormatRecord(r)) == [r]
  {
    FormattedLineClean(r);
    TrimOfTrimmed(FormatRecord(r));
    ParseFormatLine(r);
  }

  /** The pipeline reads a list of formatted writable records back as the
      records. */
  lemma {:induction false} ParseFormattedLines(rs: seq<SapRecord>)
    requires forall k | 0 <= k < |rs| :: Writable(rs[k])
    ensures ParseLines(FormatAll(rs)) == rs
    decreases |rs|
  {
    if |rs| > 0 {
      ParseFormattedLines(rs[1..]);
      ParseFormattedStep(rs[0], rs[1..]);
      assert rs == [rs[0]] + rs[1..];
    }
  }

  lemma ParseFormattedStep(r: SapRecord, rest: seq<SapRecord>)
    requires Writable(r) && ParseLines(FormatAll(rest)) == rest
    ensures ParseLines(FormatAll([r] + rest)) == [r] + rest
  {
    var lines := FormatAll([r] + rest);
    assert lines[1..] == FormatAll(rest);
    FormattedLineRecords(r);
    ParseLinesCons(lines);
  }

  /** Round trip: a file written one writable record per line is read back
      as exactly those records, in order. */
  lemma ParseRecordsRoundTrip(rs: seq<SapRecord>)
    requires forall k | 0 <= k < |rs| :: Writable(rs[k])
    ensures ParseRecords(Join(FormatAll(rs), "\n")) == rs
  {
    var lines := FormatAll(rs);
    if |rs| == 0 {
      assert Split("", {'\n'}) == [""];
    } else {
      forall k | 0 <= k < |lines| ensures NoneIn(lines[k], {'\n'}) {
        FormattedLineClean(rs[k]);
      }
      SplitJoin(lines, '\n');
      ParseFormattedLines(rs);
    }
  }

  // ----- Actions ------------------------------------------------------------

  /** The second half of `uploadSAPData`: refuse an empty record list,
      otherwise append the records to `sap_data` and report how many. */
  function InsertRecords(st: State, records: seq<SapRecord>, dbError: Option<string>): (r: Step<nat>)
    ensures records == [] ==> r == Step(Err("No valid records found"), st)
    ensures records != [] && dbError.Some? ==> r == Step(Err(dbError.value), st)
    ensures r.reply.Ok? <==> records != [] && dbError.None?
    ensures r.reply.Ok? ==>
      && r.reply.value == |records| && |records| > 0
      && r.state == st.(sapData := r.state.sapData)
      && |r.state.sapData| == |st.sapData| + |records|
      && r.state.sapData[..|st.sapData|] == st.sapData
      && r.state.sapData[|st.sapData|..] == records
  {
    if |records| == 0 then Step(Err("No valid records found"), st)
    else if dbError.Some? then Step(Err(dbError.value), st)
    else
      var data := st.sapData + records;
      assert data[..|st.sapData|] == st.sapData && data[|st.sapData|..] == records;
      Step(Ok(|records|), st.(sapData := data))
  }

  /** `uploadSAPData`: `file` is the uploaded file's text, `None` when no
      file was sent. */
  function UploadSapData(st: State, file: Option<string>, dbError: Option<string>): (r: Step<nat>)
    ensures file.None? ==> r == Step(Err("No file uploaded"), st)
    ensures file.Some? ==> r == InsertRecords(st, ParseRecords(file.value), dbError)
  {
    if file.None? then Step(Err("No file uploaded"), st)
    else InsertRecords(st, ParseRecords(file.value), dbError)
  }

  /** `clearSAPData`: deletes every row (the filter on the nil uuid matches
      all rows). */
  function ClearSapData(st: State, dbError: Option<string>): (r: Step<()>)
    ensures dbError.Some? ==> r == Step(Err(dbError.value), st)
    ensures dbError.None? ==> r.reply.Ok? && r.state.sapData == [] && r.state == st.(sapData := [])
  {
    if dbError.Some? then Step(Err(dbError.value), st)
    else Step(Ok(()), st.(sapData := []))
  }

  /** Clearing and then uploading a file of writable records leaves
      exactly those records in `sap_data` and reports their number. */
  lemma ClearThenUpload(st: State, rs: seq<SapRecord>)
    requires |rs| > 0 && forall k | 0 <= k < |rs| :: Writable(rs[k])
    ensures var r := UploadSapData(ClearSapData(st, None).state, Some(Join(FormatAll(rs), "\n")), None);
      r.reply == Ok(|rs|) && r.state.sapData == rs
  {
    ParseRecordsRoundTrip(rs);
  }
}

=== FILE: search_actions.dfy ===
/** Equipment search by series or box number. Box matches widen the
    search; the two result lists are then merged and deduplicated by id
    through a JavaScript `Map`. */
module SearchActions {
  import opened Wrappers
  import JsMap

  /** One equipment row as the search returns it; only the id matters to
      the merge, the rest is carried along. */
  datatype Hit = Hit(id: string, boxId: string, isSapValidated: bool, seriesValues: seq<string>)

  /** What a query hands back: rows, a null `data`, or an error. */
  datatype Fetch = Rows(rows: seq<Hit>) | NoData | Failed(message: string)

  /** `data || []`. */
  function RowsOr(f: Fetch): (rows: seq<Hit>)
    ensures f.Rows? ==> rows == f.rows
    ensures !f.Rows? ==> rows == []
  {
    if f.Rows? then f.rows else []
  }

  /** `.limit(n)` on rows already in the requested order. */
  function Limit(rows: seq<Hit>, n: nat): (r: seq<Hit>)
    ensures |r| <= n && |r| <= |rows|
    ensures r == rows[..|r|]
    ensures |rows| <= n ==> r == rows
  {
    if |rows| <= n then rows else rows[..n]
  }

  function Ids(items: seq<Hit>): (ids: seq<string>)
    ensures |ids| == |items|
    ensures forall i | 0 <= i < |items| :: ids[i] == items[i].id
  {
    seq(|items|, i requires 0 <= i < |items| => items[i].id)
  }

  /** `combined.map(item => [item.id, item])`. */
  function Entries(items: seq<Hit>): (es: seq<(string, Hit)>)
    ensures |es| == |items|
    ensures forall i | 0 <= i < |items| :: es[i] == (items[i].id, items[i])
  {
    seq(|items|, i requires 0 <= i < |items| => (items[i].id, items[i]))
  }

  /** `Array.from(new Map(entries).values())`. */
  function Dedupe(items: seq<Hit>): (r: seq<Hit>)
    ensures |r| <= |items|
    ensures forall i, j | 0 <= i < j < |r| :: r[i].id != r[j].id
    ensures forall i | 0 <= i < |r| :: r[i] in items
  {
    MapKeyedById(items);
    JsMap.Values(JsMap.FromEntries(Entries(items)))
  }

  /** Reference definition: the last item carrying `id`. */
  function LastWithId(items: seq<Hit>, id: string): Option<Hit> {
    if |items| == 0 then None
    else if items[|items| - 1].id == id then Some(items[|items| - 1])
    else LastWithId(items[..|items| - 1], id)
  }

  lemma {:induction false} LastValueEntries(items: seq<Hit>, id: string)
    ensures JsMap.LastValue(Entries(items), id) == LastWithId(items, id)
    decreases |items|
  {
    if |items| > 0 {
      assert Entries(items)[..|items| - 1] == Entries(items[..|items| - 1]);
      LastValueEntries(items[..|items| - 1], id);
    }
  }

  /** Every entry of the map built from `Entries(items)` is one of the
      items, keyed by its own id, and there are no more entries than
      items. */
  lemma MapKeyedById(items: seq<Hit>)
    ensures var m := JsMap.FromEntries(Entries(items));
      && |m| <= |items|
      && (forall i | 0 <= i < |m| :: m[i].0 == m[i].1.id && m[i].1 in items)
  {
    var es := Entries(items);
    var m := JsMap.FromEntries(es);
    forall i | 0 <= i < |m| ensures m[i].0 == m[i].1.id && m[i].1 in items {
      assert m[i] in es;
      var j :| 0 <= j < |es| && es[j] == m[i];
      assert es[j].1 == items[j];
    }
  }

  lemma EntryKeysAreIds(items: seq<Hit>)
    ensures JsMap.Keys(Entries(items)) == Ids(items)
  {
    var es := Entries(items);
    forall i | 0 <= i < |es| ensures JsMap.Keys(es)[i] == Ids(items)[i] { }
  }

  lemma DedupeIdsAreMapKeys(items: seq<Hit>)
    ensures Ids(Dedupe(items)) == JsMap.Keys(JsMap.FromEntries(Entries(items)))
  {
    var m := JsMap.FromEntries(Entries(items));
    MapKeyedById(items);
    var r := Dedupe(items);
    assert r == JsMap.Values(m);
    forall i | 0 <= i < |r| ensures Ids(r)[i] == JsMap.Keys(m)[i] {
      assert r[i] == m[i].1;
    }
  }

  /** The merged list holds each id once, in order of first occurrence. */
  lemma DedupeIds(items: seq<Hit>)
    ensures Ids(Dedupe(items)) == JsMap.FirstOccurrences(Ids(items))
  {
    JsMap.FromEntriesKeys(Entries(items));
    EntryKeysAreIds(items);
    DedupeIdsAreMapKeys(items);
  }

  /** Under each id the merged list holds the item that occurred last. */
  lemma DedupeLastWins(items: seq<Hit>, i: nat)
    requires i < |Dedupe(items)|
    ensures Some(Dedupe(items)[i]) == LastWithId(items, Dedupe(items)[i].id)
  {
    var es := Entries(items);
    var m := JsMap.FromEntries(es);
    MapKeyedById(items);
    assert Dedupe(items) == JsMap.Values(m);
    var k := m[i].0;
    assert Dedupe(items)[i] == m[i].1 && Dedupe(items)[i].id == k;
    JsMap.FromEntriesGet(es, k);
    LastValueEntries(items, k);
    assert JsMap.Get(m, k) == Some(m[i].1);
  }

  /** Every id of the input is in the merged list. */
  lemma DedupeKeepsEveryId(items: seq<Hit>, k: nat)
    requires k < |items|
    ensures exists i | 0 <= i < |Dedupe(items)| :: Dedupe(items)[i].id == items[k].id
  {
    DedupeIds(items);
    var ids := Ids(Dedupe(items));
    assert items[k].id in Ids(items);
    assert items[k].id in ids;
    var i :| 0 <= i < |ids| && ids[i] == items[k].id;
    assert Dedupe(items)[i].id == items[k].id;
  }

  /** An id matched both by series and through its box is stored with its
      box-match row, the later of the two. */
  lemma {:induction false} LaterListWins(first: seq<Hit>, later: seq<Hit>, id: string)
    requires exists j | 0 <= j < |later| :: later[j].id == id
    ensures LastWithId(first + later, id) == LastWithId(later, id)
    decreases |later|
  {
    var j :| 0 <= j < |later| && later[j].id == id;
    var all := first + later;
    assert all[|all| - 1] == later[|later| - 1];
    if later[|later| - 1].id != id {
      assert all[..|all| - 1] == first + later[..|later| - 1];
      assert later[..|later| - 1][j] == later[j];
      LaterListWins(first, later[..|later| - 1], id);
    }
  }

  /** `searchEquipmentBySeries`, given what each query returns (in
      descending scan time, before its limit). With box matches, up to 20
      series matches and 50 box matches are merged; without, only the
      series query runs and an error or null gives the empty list. */
  function Search(boxIds: seq<string>, seriesMatches: Fetch, boxMatches: Fetch, seriesOnly: Fetch): (r: seq<Hit>)
    ensures |boxIds| > 0 ==> |r| <= 70
    ensures |boxIds| > 0 ==> r == Dedupe(Limit(RowsOr(seriesMatches), 20) + Limit(RowsOr(boxMatches), 50))
    ensures |boxIds| == 0 ==> |r| <= 20 && r == Limit(RowsOr(seriesOnly), 20)
    ensures |boxIds| == 0 && !seriesOnly.Rows? ==> r == []
  {
    if |boxIds| > 0 then
      Dedupe(Limit(RowsOr(seriesMatches), 20) + Limit(RowsOr(boxMatches), 50))
    else if seriesOnly.Failed? then []
    else Limit(RowsOr(seriesOnly), 20)
  }

  /** With box matches the result never repeats an id and contains every
      id either list returned. */
  lemma SearchMergesBoth(boxIds: seq<string>, seriesMatches: Fetch, boxMatches: Fetch, seriesOnly: Fetch, k: nat)
    requires |boxIds| > 0
    ensures var r := Search(boxIds, seriesMatches, boxMatches, seriesOnly);
      forall i, j | 0 <= i < j < |r| :: r[i].id != r[j].id
    ensures var all := Limit(RowsOr(seriesMatches), 20) + Limit(RowsOr(boxMatches), 50);
      k < |all| ==> exists i | 0 <= i < |Search(boxIds, seriesMatches, boxMatches, seriesOnly)| ::
        Search(boxIds, seriesMatches, boxMatches, seriesOnly)[i].id == all[k].id
  {
    var all := Limit(RowsOr(seriesMatches), 20) + Limit(RowsOr(boxMatches), 50);
    if k < |all| { DedupeKeepsEveryId(all, k); }
  }

  /** A hit whose id the box query also returned is reported as the box
      query returned it. */
  lemma SearchPrefersBoxMatch(boxIds: seq<string>, seriesMatches: Fetch, boxMatches: Fetch, seriesOnly: Fetch, i: nat)
    requires |boxIds| > 0
    requires i < |Search(boxIds, seriesMatches, boxMatches, seriesOnly)|
    requires var boxes := Limit(RowsOr(boxMatches), 50);
      exists j | 0 <= j < |boxes| :: boxes[j].id == Search(boxIds, seriesMatches, boxMatches, seriesOnly)[i].id
    ensures var h := Search(boxIds, seriesMatches, boxMatches, seriesOnly)[i];
      Some(h) == LastWithId(Limit(RowsOr(boxMatches), 50), h.id)
  {
    var series := Limit(RowsOr(seriesMatches), 20);
    var boxes := Limit(RowsOr(boxMatches), 50);
    var h := Search(boxIds, seriesMatches, boxMatches, seriesOnly)[i];
    DedupeLastWins(series + boxes, i);
    LaterListWins(series, boxes, h.id);
  }
}

=== FILE: search_params.dfy ===
/** The browser's `URLSearchParams`: an ordered list of name/value pairs
    in which a name may repeat. Only the operations the dashboard uses are
    modelled; percent-encoding of the serialised query string is not. */
module SearchParams {
  import opened Wrappers

  type Params = seq<(string, string)>

  /** `params.getAll(name)`. */
  function GetAll(p: Params, name: string): seq<string> {
    if |p| == 0 then []
    else (if p[0].0 == name then [p[0].1] else []) + GetAll(p[1..], name)
  }

  /** `params.get(name)`: the first value, or null. */
  function Get(p: Params, name: string): (r: Option<string>)
    ensures r.None? <==> GetAll(p, name) == []
    ensures r.Some? ==> r.value == GetAll(p, name)[0]
  {
    if |p| == 0 then None
    else if p[0].0 == name then Some(p[0].1)
    else Get(p[1..], name)
  }

  predicate Has(p: Params, name: string) {
    exists i | 0 <= i < |p| :: p[i].0 == name
  }

  /** `params.delete(name)`: drops every pair with that name and keeps the
      rest in order. */
  function Delete(p: Params, name: string): (r: Params)
    ensures GetAll(r, name) == []
    ensures forall other | other != name :: GetAll(r, other) == GetAll(p, other)
    ensures !Has(r, name)
    ensures Has(p, name) || r == p
  {
    if |p| == 0 then []
    else
      var rest := Delete(p[1..], name);
      if p[0].0 == name then rest
      else
        assert ([p[0]] + rest)[1..] == rest;
        [p[0]] + rest
  }

  /** `params.set(name, value)`: the first pair with that name takes the new
      value and the other pairs with that name are removed; a new name is
      appended. */
  function Set(p: Params, name: string, value: string): (r: Params)
    ensures GetAll(r, name) == [value]
    ensures Get(r, name) == Some(value)
    ensures forall other | other != name :: GetAll(r, other) == GetAll(p, other)
    ensures Delete(r, name) == Delete(p, name)
  {
    if Has(p, name) then ReplaceFirst(p, name, value)
    else
      AppendAbsent(p, name, value);
      p + [(name, value)]
  }

  lemma {:induction false} AppendAbsent(p: Params, name: string, value: string)
    requires !Has(p, name)
    ensures GetAll(p + [(name, value)], name) == [value]
    ensures forall other | other != name :: GetAll(p + [(name, value)], other) == GetAll(p, other)
    ensures Delete(p + [(name, value)], name) == Delete(p, name)
    decreases |p|
  {
    var q := p + [(name, value)];
    if |p| == 0 {
      assert q[1..] == [];
    } else {
      assert q[1..] == p[1..] + [(name, value)];
      AppendAbsent(p[1..], name, value);
    }
  }

  function ReplaceFirst(p: Params, name: string, value: string): (r: Params)
    requires Has(p, name)
    ensures GetAll(r, name) == [value]
    ensures forall other | other != name :: GetAll(r, other) == GetAll(p, other)
    ensures Delete(r, name) == Delete(p, name)
  {
    if p[0].0 == name then
      var r := [(name, value)] + Delete(p[1..], name);
      assert r[1..] == Delete(p[1..], name);
      r
    else
      assert Has(p[1..], name) by {
        var i :| 0 <= i < |p| && p[i].0 == name;
        assert p[1..][i - 1].0 == name;
      }
      var rest := ReplaceFirst(p[1..], name, value);
      assert ([p[0]] + rest)[1..] == rest;
      [p[0]] + rest
  }
}

=== FILE: shared_actions.dfy ===
/** The box deletion shared by the report screens: super_admin only, and
    a storage error is reported with a fixed prefix. */
module SharedActions {
  import opened Wrappers
  import opened Rbac
  import opened Store
  import BoxActions

  /** `deleteBox` of the shared actions. */
  function DeleteBox(st: State, caller: Option<Id>, boxId: Id, dbError: Option<string>): (r: Step<()>)
    ensures caller.None? ==> r == Step(Err("No autenticado"), st)
    ensures caller.Some? && !IsSuperAdmin(RoleOf(st, caller.value)) ==>
      r == Step(Err("No tienes permisos para realizar esta acción"), st)
    ensures caller.Some? && IsSuperAdmin(RoleOf(st, caller.value)) && dbError.Some? ==>
      r == Step(Err("Error al eliminar la caja: " + dbError.value), st)
    ensures r.reply.Ok? <==> caller.Some? && IsSuperAdmin(RoleOf(st, caller.value)) && dbError.None?
    ensures r.reply.Ok? ==> OnlyBoxesDiffer(st, r.state) && r.state.boxes == st.boxes - {boxId}
  {
    if caller.None? then Step(Err("No autenticado"), st)
    else if !IsSuperAdmin(RoleOf(st, caller.value)) then Step(Err("No tienes permisos para realizar esta acción"), st)
    else if dbError.Some? then Step(Err("Error al eliminar la caja: " + dbError.value), st)
    else Step(Ok(()), st.(boxes := st.boxes - {boxId}))
  }

  /** The two box deletions differ exactly on `admin`: an admin may delete
      from the packing screen but not through the shared action, while for
      a super_admin both have the same effect and for everyone else both
      refuse. */
  lemma DeleteGatesDiffer(st: State, caller: Id, boxId: Id)
    ensures var shared := DeleteBox(st, Some(caller), boxId, None);
      var packing := BoxActions.DeleteBox(st, Some(caller), boxId, None);
      && (RoleOf(st, caller) == Some(Admin) <==> packing.reply.Ok? && shared.reply.Err?)
      && (RoleOf(st, caller) == Some(SuperAdmin) ==> shared.reply.Ok? && shared.state == packing.state)
      && (shared.reply.Ok? ==> packing.reply.Ok?)
  {
    SuperGateNarrower(RoleOf(st, caller));
  }
}

=== FILE: store.dfy ===
/** The relational store the server actions read and write, as immutable
    values: one map per table from primary key to row. An action is a pure
    function from a store to a reply and a new store. */
module Store {
  import opened Wrappers
  import opened Rbac

  /** Primary and foreign keys are strings (uuids in the database). */
  type Id = string

  datatype BoxStatus = Open | Closed | Dispatched

  datatype Box = Box(
    boxNumber: string,
    createdBy: Id,
    modelId: Id,
    totalItems: int,
    status: BoxStatus,
    palletId: Option<Id>,
    dispatchId: Option<Id>)

  datatype Pallet = Pallet(
    name: string,
    createdBy: Id,
    dispatchId: Option<Id>,
    sapExitId: Option<string>,
    dispatchedAt: Option<string>)

  datatype Dispatch = Dispatch(
    sapExitId: string,
    kind: string,
    palletId: Option<Id>,
    createdBy: Id,
    notes: Option<string>)

  datatype User = User(email: string, name: string, role: Role)

  datatype Brand = Brand(name: string)

  /** One entry of a model's `series_config`. */
  datatype FieldConfig = FieldConfig(name: string, required: bool, length: Option<int>)

  datatype Model = Model(brandId: Id, name: string, seriesConfig: seq<FieldConfig>)

  /** A scanned unit; only the owning box matters to the actions modelled. */
  datatype Equipment = Equipment(boxId: Id)

  /** One row of the uploaded ERP reference data (`sap_data`). */
  datatype SapRecord = SapRecord(series: string, material: Option<string>, status: string)

  datatype State = State(
    boxes: map<Id, Box>,
    pallets: map<Id, Pallet>,
    dispatches: map<Id, Dispatch>,
    users: map<Id, User>,
    brands: map<Id, Brand>,
    models: map<Id, Model>,
    equipment: map<Id, Equipment>,
    sapData: seq<SapRecord>)

  /** The reply of an action together with the store it leaves behind. */
  datatype Step<T> = Step(reply: Result<T, string>, state: State)

  /** The role on the caller's `users` row; `None` when there is no row. */
  function RoleOf(st: State, uid: Id): (r: Option<Role>)
    ensures r.Some? <==> uid in st.users
  {
    if uid in st.users then Some(st.users[uid].role) else None
  }

  /** `count` of equipment rows whose `box_id` is `boxId`. */
  function ScannedCount(st: State, boxId: Id): nat {
    |set e | e in st.equipment && st.equipment[e].boxId == boxId|
  }

  /** Only the `boxes` table may differ between the two stores. */
  predicate OnlyBoxesDiffer(st: State, st': State) {
    st' == st.(boxes := st'.boxes)
  }

  /** Every box outside `touched` is present and identical in both stores,
      and no box appears or disappears. */
  predicate BoxesFramed(st: State, st': State, touched: set<Id>) {
    && st'.boxes.Keys == st.boxes.Keys
    && forall b | b in st.boxes && b !in touched :: st'.boxes[b] == st.boxes[b]
  }
}

=== FILE: strings.dfy ===
/** The JavaScript string primitives the application relies on:
    `trim`, ASCII `toLowerCase`, `split` on a set of separator characters,
    `join`, and the `a || b` fallback on possibly empty strings. */
module Strings {
  import opened Wrappers

  /** ECMAScript WhiteSpace and LineTerminator code points: exactly what
      `String.prototype.trim` strips. */
  predicate IsSpace(c: char) {
    || c == '\t' || c == '\n' || c == '\U{000B}' || c == '\U{000C}' || c == '\r'
    || c == ' ' || c == '\U{00A0}' || c == '\U{1680}'
    || ('\U{2000}' <= c <= '\U{200A}')
    || c == '\U{2028}' || c == '\U{2029}' || c == '\U{202F}' || c == '\U{205F}'
    || c == '\U{3000}' || c == '\U{FEFF}'
  }

  predicate AllSpace(s: string) {
    forall i | 0 <= i < |s| :: IsSpace(s[i])
  }

  /** Neither end of `s` is whitespace (vacuously true of ""). */
  predicate IsTrimmed(s: string) {
    |s| == 0 || (!IsSpace(s[0]) && !IsSpace(s[|s| - 1]))
  }

  /** Length of the maximal whitespace prefix. */
  function LeadingSpaces(s: string): (n: nat)
    ensures n <= |s|
    ensures AllSpace(s[..n])
    ensures n < |s| ==> !IsSpace(s[n])
  {
    if |s| == 0 || !IsSpace(s[0]) then 0 else 1 + LeadingSpaces(s[1..])
  }

  /** Length of the maximal whitespace suffix. */
  function TrailingSpaces(s: string): (n: nat)
    ensures n <= |s|
    ensures AllSpace(s[|s| - n..])
    ensures n < |s| ==> !IsSpace(s[|s| - 1 - n])
  {
    if |s| == 0 || !IsSpace(s[|s| - 1]) then 0 else 1 + TrailingSpaces(s[..|s| - 1])
  }

  /** `String.prototype.trim`: the infix of `s` left once the whitespace
      at both ends is removed. */
  function Trim(s: string): (r: string)
    ensures IsTrimmed(r)
    ensures |r| == 0 <==> AllSpace(s)
    ensures exists i | 0 <= i <= |s| - |r| :: r == s[i..i + |r|] && AllSpace(s[..i]) && AllSpace(s[i + |r|..])
    ensures LeadingSpaces(s) + |r| <= |s| && r == s[LeadingSpaces(s)..LeadingSpaces(s) + |r|]
  {
    var a := LeadingSpaces(s);
    var t := s[a..];
    var b := TrailingSpaces(t);
    var r := t[..|t| - b];
    assert r == s[a..a + |r|];
    assert s[a + |r|..] == t[|t| - b..];
    assert |r| > 0 ==> r[0] == s[a] && r[|r| - 1] == t[|t| - 1 - b];
    assert |r| == 0 <==> AllSpace(s) by {
      if |r| == 0 {
        assert t[|t| - b..] == t;
        AllSpaceConcat(s[..a], t);
        assert s[..a] + t == s;
      } else {
        assert !IsSpace(s[a]);
      }
    }
    r
  }

  lemma AllSpaceConcat(x: string, y: string)
    requires AllSpace(x) && AllSpace(y)
    ensures AllSpace(x + y)
  {
    forall i | 0 <= i < |x + y| ensures IsSpace((x + y)[i]) {
      if i >= |x| { assert (x + y)[i] == y[i - |x|]; }
    }
  }

  /** Trimming is idempotent: a trimmed string is its own trim. */
  lemma TrimOfTrimmed(s: string)
    requires IsTrimmed(s)
    ensures Trim(s) == s
  {
    assert LeadingSpaces(s) == 0;
    assert s[0..] == s;
    assert TrailingSpaces(s) == 0;
  }

  /** ASCII-only `toLowerCase` of one character. */
  function LowerChar(c: char): char {
    if 'A' <= c <= 'Z' then (c as int + 32) as char else c
  }

  function ToLower(s: string): string {
    seq(|s|, i requires 0 <= i < |s| => LowerChar(s[i]))
  }

  /** Number of characters of `s` drawn from `seps`. */
  function CountIn(s: string, seps: set<char>): nat {
    if |s| == 0 then 0 else (if s[0] in seps then 1 else 0) + CountIn(s[1..], seps)
  }

  predicate NoneIn(s: string, seps: set<char>) {
    forall i | 0 <= i < |s| :: s[i] !in seps
  }

  /** `s.split(re)` where `re` is a one-character class such as `/[;,]/`:
      the maximal separator-free pieces between separators, in order. */
  function Split(s: string, seps: set<char>): (parts: seq<string>)
    ensures |parts| == 1 + CountIn(s, seps)
    ensures forall k | 0 <= k < |parts| :: NoneIn(parts[k], seps)
  {
    if |s| == 0 then [""]
    else
      var rest := Split(s[1..], seps);
      if s[0] in seps then [""] + rest
      else
        ConsKeepsNoneIn(s[0], rest[0], seps);
        [[s[0]] + rest[0]] + rest[1..]
  }

  lemma ConsKeepsNoneIn(c: char, s: string, seps: set<char>)
    requires c !in seps && NoneIn(s, seps)
    ensures NoneIn([c] + s, seps)
  {
    forall i | 0 <= i < |s| + 1 ensures ([c] + s)[i] !in seps {
      if i > 0 { assert ([c] + s)[i] == s[i - 1]; }
    }
  }

  /** `s` with every separator character replaced by `c`. */
  function Unify(s: string, seps: set<char>, c: char): string {
    if |s| == 0 then "" else [if s[0] in seps then c else s[0]] + Unify(s[1..], seps, c)
  }

  /** Splitting on a class of separators is splitting on one separator
      after every member of the class has been replaced by it: the
      separators are interchangeable. */
  lemma {:induction false} SplitUnify(s: string, seps: set<char>, c: char)
    requires c in seps
    ensures Split(s, seps) == Split(Unify(s, seps, c), {c})
    decreases |s|
  {
    if |s| > 0 {
      SplitUnify(s[1..], seps, c);
      var u := Unify(s, seps, c);
      assert u[1..] == Unify(s[1..], seps, c);
      assert u[0] == c <==> s[0] in seps;
    }
  }

  /** Splitting at a separator that joins two strings splits each side on
      its own: `split` respects concatenation. */
  lemma {:induction false} SplitConcat(a: string, b: string, seps: set<char>, c: char)
    requires c in seps
    ensures Split(a + [c] + b, seps) == Split(a, seps) + Split(b, seps)
    decreases |a|
  {
    if |a| == 0 {
      assert a + [c] + b == [c] + b;
      assert ([c] + b)[1..] == b;
    } else {
      var s := a + [c] + b;
      assert s[0] == a[0] && s[1..] == a[1..] + [c] + b;
      SplitConcat(a[1..], b, seps, c);
    }
  }

  /** A string without separators splits into itself alone. */
  lemma {:induction false} SplitNoSep(s: string, seps: set<char>)
    requires NoneIn(s, seps)
    ensures Split(s, seps) == [s]
    decreases |s|
  {
    if |s| > 0 {
      assert NoneIn(s[1..], seps) by {
        forall i | 0 <= i < |s| - 1 ensures s[1..][i] !in seps {
          assert s[1..][i] == s[i + 1];
        }
      }
      SplitNoSep(s[1..], seps);
      assert [s[0]] + s[1..] == s;
    }
  }

  /** An infix of a separator-free string is separator-free. */
  lemma InfixKeepsNoneIn(s: string, i: nat, j: nat, seps: set<char>)
    requires i <= j <= |s| && NoneIn(s, seps)
    ensures NoneIn(s[i..j], seps)
  {
    forall k | 0 <= k < j - i ensures s[i..j][k] !in seps {
      assert s[i..j][k] == s[i + k];
    }
  }

  /** Trimming never introduces a separator. */
  lemma TrimKeepsNoneIn(s: string, seps: set<char>)
    requires NoneIn(s, seps)
    ensures NoneIn(Trim(s), seps)
  {
    var r := Trim(s);
    var i := LeadingSpaces(s);
    InfixKeepsNoneIn(s, i, i + |r|, seps);
  }

  /** Unifying twice is unifying once. */
  lemma {:induction false} UnifyIdempotent(s: string, seps: set<char>, c: char)
    requires c in seps
    ensures Unify(Unify(s, seps, c), seps, c) == Unify(s, seps, c)
    decreases |s|
  {
    if |s| > 0 {
      UnifyIdempotent(s[1..], seps, c);
      var u := Unify(s, seps, c);
      assert u[1..] == Unify(s[1..], seps, c);
    }
  }

  /** `parts.join(sep)`. */
  function Join(parts: seq<string>, sep: string): string {
    if |parts| == 0 then ""
    else if |parts| == 1 then parts[0]
    else parts[0] + sep + Join(parts[1..], sep)
  }

  /** Joining the pieces of a one-separator split with that separator
      gives back the original string. */
  lemma {:induction false} JoinSplit(s: string, c: char)
    ensures Join(Split(s, {c}), [c]) == s
    decreases |s|
  {
    if |s| > 0 {
      var rest := Split(s[1..], {c});
      JoinSplit(s[1..], c);
      if s[0] == c {
        assert Split(s, {c}) == [""] + rest;
        assert ([""] + rest)[1..] == rest;
        assert s == [c] + s[1..];
      } else {
        var parts := Split(s, {c});
        assert parts == [[s[0]] + rest[0]] + rest[1..];
        if |rest| == 1 {
          assert s == [s[0]] + rest[0];
        } else {
          assert parts[1..] == rest[1..];
          assert Join(rest, [c]) == rest[0] + [c] + Join(rest[1..], [c]);
          assert s == [s[0]] + s[1..];
        }
      }
    }
  }

  /** Splitting a join of separator-free pieces on that separator gives
      the pieces back. */
  lemma {:induction false} SplitJoin(parts: seq<string>, c: char)
    requires |parts| >= 1
    requires forall k | 0 <= k < |parts| :: NoneIn(parts[k], {c})
    ensures Split(Join(parts, [c]), {c}) == parts
    decreases |parts|
  {
    if |parts| == 1 {
      SplitNoSep(parts[0], {c});
    } else {
      SplitJoin(parts[1..], c);
      SplitConcat(parts[0], Join(parts[1..], [c]), {c}, c);
      SplitNoSep(parts[0], {c});
      assert Join(parts, [c]) == parts[0] + [c] + Join(parts[1..], [c]);
    }
  }

  /** JavaScript truthiness of a nullable string: present and non-empty. */
  predicate Truthy(a: Option<string>) {
    a.Some? && a.value != ""
  }

  /** JavaScript's `a || fallback` on a nullable string. */
  function OrElse(a: Option<string>, fallback: string): (r: string)
    ensures Truthy(a) ==> r == a.value
    ensures !Truthy(a) ==> r == fallback
  {
    if Truthy(a) then a.value else fallback
  }
}

=== FILE: user_actions.dfy ===
/** The role change of the user administration screen. Its failures are
    thrown in the source; here they are `Err` replies that leave the store
    unchanged. */
module UserActions {
  import opened Wrappers
  import opened Rbac
  import opened Store

  /** `updateUserRole`: the requester must be signed in and hold admin or
      super_admin; the target role itself is not restricted. A target
      without a row matches nothing, which the update does not report. */
  function UpdateUserRole(st: State, caller: Option<Id>, userId: Id, newRole: Role, dbError: Option<string>): (r: Step<()>)
    ensures caller.None? ==> r == Step(Err("Unauthorized"), st)
    ensures caller.Some? && !IsAdminOrSuper(RoleOf(st, caller.value)) ==> r == Step(Err("Unauthorized"), st)
    ensures caller.Some? && IsAdminOrSuper(RoleOf(st, caller.value)) && dbError.Some? ==>
      r == Step(Err("Failed to update role"), st)
    ensures r.reply.Ok? <==> caller.Some? && IsAdminOrSuper(RoleOf(st, caller.value)) && dbError.None?
    ensures r.reply.Ok? ==>
      && r.state == st.(users := r.state.users)
      && r.state.users.Keys == st.users.Keys
      && (forall u | u in st.users && u != userId :: r.state.users[u] == st.users[u])
      && (userId in st.users ==> r.state.users[userId] == st.users[userId].(role := newRole))
  {
    if caller.None? then Step(Err("Unauthorized"), st)
    else if !IsAdminOrSuper(RoleOf(st, caller.value)) then Step(Err("Unauthorized"), st)
    else if dbError.Some? then Step(Err("Failed to update role"), st)
    else if userId in st.users then
      Step(Ok(()), st.(users := st.users[userId := st.users[userId].(role := newRole)]))
    else Step(Ok(()), st)
  }

  /** Any admin may hand out any role, super_admin included, to any
      existing user, and the target then holds exactly that role. */
  lemma AdminMayGrantAnyRole(st: State, admin: Id, userId: Id, newRole: Role)
    requires RoleOf(st, admin) == Some(Admin)
    requires userId in st.users
    ensures var r := UpdateUserRole(st, Some(admin), userId, newRole, None);
      r.reply.Ok? && RoleOf(r.state, userId) == Some(newRole)
  {
  }

  /** An operator, or a caller without a profile row, changes nobody's
      role, whatever role is asked for. */
  lemma OperatorChangesNothing(st: State, caller: Id, userId: Id, newRole: Role, dbError: Option<string>)
    requires RoleOf(st, caller) == Some(Operator) || RoleOf(st, caller).None?
    ensures UpdateUserRole(st, Some(caller), userId, newRole, dbError) == Step(Err("Unauthorized"), st)
  {
  }
}

=== FILE: wrappers.dfy ===
/** Failure-compatible wrappers shared by every module of the model.
    `Option` stands for a nullable column or an absent value; `Result`
    stands for the `{ error: message }` / success shape that the server
    actions return. */
module Wrappers {

  datatype Option<+T> = None | Some(value: T) {

    /** The wrapped value, or `default` when there is none. */
    function GetOr(default: T): T {
      match this
      case Some(v) => v
      case None => default
    }
  }

  datatype Result<+T, +E> = Ok(value: T) | Err(error: E) {

    predicate IsFailure() {
      Err?
    }

    function PropagateFailure<U>(): Result<U, E>
      requires Err?
    {
      Err(error)
    }

    function Extract(): T
      requires Ok?
    {
      value
    }
  }
}
